=== FILE: README.md ===
# mDepStar in Dafny

This project models the core of mDepStar, a detector of protein complexes in
protein–protein interaction networks, together with the scores its analysis
package uses to compare predicted complexes with reference ones.

- **Network** (`network.dfy`, `measures.dfy`): the undirected, optionally
  weighted interaction graph. It covers edge insertion and removal,
  neighbourhoods, degree, density, average degree, induced subgraphs,
  neighbourhoods up to a depth, and clustering coefficients. A graph is an
  immutable record with these parts:
  - the weight map, keyed by both orientations of every edge;
  - the insertion-ordered adjacency lists;
  - the node set;
  - the edge list in insertion order;
  - the `weighted` flag.
- **Dependency** (`dependency.dfy`): how much node x depends on its neighbour
  y. It is the weight of x–y plus each common neighbour's weight times its
  share `r`, divided by the weighted degree of x.
- **Engine** (`engine.dfy`, `tolerance.dfy`): the state of an mDepStar
  object. It holds the dependency matrix built over the edge list, the
  threshold and the cached mDep network. The threshold is an explicit float,
  an estimate over a given edge list, or an estimate over all edges rounded
  to three decimals on first read. Thresholds are compared through the
  tolerant comparison `_is_greater_or_equal`, which uses a relative
  tolerance of 10⁻⁶.
- **mDep** (`mdep.dfy`): the per-node dependency counts, the mDep network,
  and complex detection. The mDep network keeps the edges whose two
  dependencies both reach the threshold. A complex is a node plus those mDep
  neighbours that depend on it, or it on them, at twice the threshold.
- **Scores** (`scores.dfy`): overlap score, precision, recall, F-measure and
  the predictive matching ratio.

The following Python behaviour is modelled explicitly:

- Raised exceptions become `Err(KeyError | ValueError | ZeroDivisionError)`
  (`wrappers.dfy`).
- `list.remove` removes the first occurrence.
- `round(x, 3)` rounds half to even.
- `_is_greater_or_equal` is `math.isclose` with `abs_tol = 0`.

`scenarios.dfy` states and proves what the engine computes on the single-edge network a–b, and on a network with a self-loop.

## Model

| member | source | states |
|---|---|---|
| Network.EdgeExists | mdepstar/Network.py:107-112 | an edge exists exactly when the ordered pair has a stored weight |
| Network.Weight | mdepstar/Network.py:149-150 | a non-zero weight belongs to an existing edge; with symmetric storage both orientations read the same weight, and 0 when absent |
| Network.NeighborList | mdepstar/Network.py:143-144 | the neighbour iteration order has no repeats and holds exactly the node's neighbours |
| Network.CommonNeighbors | mdepstar/Network.py:146-147 | a common neighbour is a node on both adjacency lists, so it lies in both neighbourhoods |
| Network.Degree | mdepstar/Network.py:117-118 | the degree counts distinct neighbours and never exceeds the adjacency list's length |
| Network.NeighborsAreEdges | mdepstar/Network.py:143-144 | in a well-formed network, n is a neighbour of v iff the edge v–n exists, and no node neighbours itself |
| Network.AddEdge | mdepstar/Network.py:74-85 | if either orientation already exists nothing changes; otherwise both orientations get the weight, both ends become nodes and neighbours, and the edge list gains (a, b) |
| Network.AddEdgeShape | mdepstar/Network.py:74-85 | a new edge appends each end to the other's adjacency list, leaves every other list alone, and adds exactly the two weight entries and the two nodes |
| Network.AddEdgeFrame | mdepstar/Network.py:74-85 | after insertion an edge exists iff it existed before or is a–b / b–a; old weights are kept and no node is lost |
| Network.AddEdgeAdjacency | mdepstar/Network.py:80-81 | inserting an edge between distinct nodes keeps adjacency lists agreeing with the weight map and free of repeats |
| Network.AddEdgeNodes | mdepstar/Network.py:84-85 | any insertion, self-loops included, keeps the node set equal to the nodes with a non-empty adjacency list |
| Network.AddEdgeCovered | mdepstar/Network.py:83 | any insertion, self-loops included, keeps every edge listed in one orientation in `edges()` |
| Network.AddEdgeAgrees | mdepstar/Network.py:77-81 | any insertion, self-loops included, keeps each adjacency list holding exactly the nodes its weight entries name |
| Network.PairAgrees | mdepstar/Network.py:77-81 | a new edge between distinct nodes keeps each adjacency list holding exactly the nodes its weight entries name |
| Network.LoopAgrees | mdepstar/Network.py:77-81 | a new self-loop keeps each adjacency list holding exactly the nodes its weight entries name |
| Network.AddEdgeBuilt | mdepstar/Network.py:74-85 | any insertion, self-loops included, keeps lists agreeing with weights and every edge listed |
| Network.AddEdgeKeepsSymmetric | mdepstar/Network.py:77-78 | any insertion, self-loops included, stores both orientations of every edge with one weight |
| Network.AddEdgeSymmetric | mdepstar/Network.py:77-78 | inserting an edge between distinct nodes keeps weights symmetric and creates no self-loop |
| Network.AddEdgeValid | mdepstar/Network.py:74-85 | inserting an edge between distinct nodes preserves well-formedness |
| Network.AddEdgeLoopShape | mdepstar/Network.py:74-85 | `add_edge(a, a, w)` of a new loop stores one weight entry, appends a twice to its own list, adds a as a node and lists (a, a) |
| Network.AddEdgeSelfLoop | mdepstar/Network.py:74-85 | `add_edge(a, a, w)` is accepted: (a, a) becomes a listed edge with weight w, a lands twice on its own list, and the network is no longer well-formed |
| Network.AddEdgeValidIff | mdepstar/Network.py:74-85 | on a well-formed network, insertion keeps it well-formed exactly when the two ends differ |
| Network.AddEdgeExact | mdepstar/Network.py:83 | inserting a new edge keeps `edges()` listing every edge exactly once, in one orientation |
| Network.RemoveNode | mdepstar/Network.py:114-115 | removing a node that is present drops exactly that node; removing a missing one raises KeyError |
| Network.Unlink | mdepstar/Network.py:95-99 | unlinking a and b leaves the edge list and the weighted flag untouched |
| Network.RemoveListed | mdepstar/Network.py:101-105 | the edge-list clean-up only removes entries, and only (a, b) or (b, a); if (a, b) is missing the list stays as it is |
| Network.RemoveEdge | mdepstar/Network.py:87-105 | removing an absent edge changes nothing |
| Network.RemoveEdgeFixed | mdepstar/Network.py:87-105 | corrected removal: an absent edge changes nothing, and a removed edge leaves the edge list in neither orientation |
| Network.UnlinkShape | mdepstar/Network.py:87-99 | unlinking deletes both weight entries and the first occurrence on each adjacency list, and drops an end whose only neighbour was the other |
| Network.UnlinkSymmetric | mdepstar/Network.py:95-96 | unlinking keeps weights symmetric and loop-free |
| Network.UnlinkDistinct | mdepstar/Network.py:98-99 | unlinking keeps adjacency lists free of repeats |
| Network.UnlinkAgrees | mdepstar/Network.py:95-99 | unlinking keeps adjacency lists agreeing with the weight map |
| Network.AgreesWithout | mdepstar/Network.py:95-99 | dropping b from a's list and a from b's, with both weights gone, keeps every list agreeing with the weight map |
| Network.UnlinkRelisted | mdepstar/Network.py:87-105 | after unlinking, any edge list holding every other listed edge gives a well-formed network |
| Network.UnlinkNodes | mdepstar/Network.py:89-93 | after unlinking, the nodes are still exactly those with neighbours; an end stays a node iff its degree was not 1 |
| Network.UnlinkValid | mdepstar/Network.py:87-99 | on a well-formed network, unlinking succeeds, removes exactly the two orientations, keeps other lists and stays well-formed |
| Network.RelistValid | mdepstar/Network.py:101-105 | any edge list that still covers every remaining edge keeps the unlinked network well-formed |
| Network.RemoveEdgeUnfold | mdepstar/Network.py:87-105 | removal as written and corrected removal differ only in how they rewrite the edge list |
| Network.RemoveEdgeKeepsValid | mdepstar/Network.py:87-105 | removal never raises on a well-formed network and keeps it well-formed |
| Network.RemoveEdgeEndpoints | mdepstar/Network.py:87-99 | after removal neither orientation exists; an end stays a node iff its degree was not 1 |
| Network.RemoveEdgeFrame | mdepstar/Network.py:87-105 | removal changes no other adjacency list and no other edge |
| Network.RemoveEdgeShape | mdepstar/Network.py:87-99 | removing an existing edge succeeds, deletes exactly its two weight entries, and leaves every other node's list as it was |
| Network.RemoveEdgeValid | mdepstar/Network.py:87-105 | removal from a well-formed network is total, keeps it well-formed, deletes exactly a–b and touches nothing else |
| Network.RemoveEdgeFixedKeepsValid | mdepstar/Network.py:87-105 | corrected removal keeps the network well-formed |
| Network.RemoveEdgeFixedRemoves | mdepstar/Network.py:87-105 | corrected removal deletes both orientations |
| Network.RemoveEdgeFixedKeepsExact | mdepstar/Network.py:101-105 | corrected removal keeps `edges()` listing exactly the existing edges, once each |
| Network.RemoveEdgeFixedExact | mdepstar/Network.py:87-105 | corrected removal is well-formed, exact and deletes the edge |
| Network.EmptyGraphValid | mdepstar/Network.py:6-15 | a fresh network is well-formed with an exact edge list |
| Network.SingleEdgeGraph | mdepstar/Network.py:74-85 | adding a–b to a fresh network gives the expected concrete network, well-formed and exact |
| Network.RemoveEdgeLeavesStaleEntry | mdepstar/Network.py:101-105 | after `add_edge(a, b)`, `remove_edge(b, a)` removes the edge but leaves (a, b) in `edges()`; the corrected removal empties it |
| NetworkMeasures.Density | mdepstar/Network.py:51-59 | the density is 0 with no nodes, 1 with one node, and never negative |
| NetworkMeasures.BothWays | mdepstar/Network.py:51-59 | the listed edges in both orientations are exactly the pairs listed one way or the other |
| NetworkMeasures.BothWaysCard | mdepstar/Network.py:83 | edges listed once, never with their flip and never as loops give twice as many ordered pairs as entries |
| NetworkMeasures.OffDiagonalCard | mdepstar/Network.py:59 | the denominator n(n − 1) counts the ordered pairs of distinct nodes |
| NetworkMeasures.ListedPairsOffDiagonal | mdepstar/Network.py:74-85 | in a well-formed network both orientations of every listed edge join two distinct listed nodes |
| NetworkMeasures.DensityAtMostOne | mdepstar/Network.py:51-59 | the density of a well-formed network whose `edges()` lists every edge once is at most 1 |
| NetworkMeasures.CompleteDensity | mdepstar/Network.py:51-59 | three listed edges among three nodes give density 1 |
| NetworkMeasures.DegreeBounds | mdepstar/Network.py:117-118 | in a well-formed network every node has degree between 1 and the node count minus one |
| NetworkMeasures.AvgDegree | mdepstar/Network.py:61-72 | the average degree is 0 with no nodes, and otherwise the degrees over all nodes added up and divided by the node count; with bounded degrees it lies between 1 and the node count minus one |
| NetworkMeasures.DegreeTotal | mdepstar/Network.py:63-66 | the loop adds up `degree(i)` over every node, in whatever order the set yields them |
| NetworkMeasures.DegreeSumRemove | mdepstar/Network.py:63-66 | the degree total does not depend on the order in which nodes are taken |
| NetworkMeasures.DegreeSumBounds | mdepstar/Network.py:63-66 | degrees between 1 and k add up to between \|s\| and \|s\|·k |
| NetworkMeasures.DegreeSumBounded | mdepstar/Network.py:61-72 | with bounded degrees the degree total lies between \|V\| and \|V\|(\|V\| − 1) |
| NetworkMeasures.NodeDegree | mdepstar/Network.py:117-118 | the degree is the number of distinct neighbours, and for a listed node lies between 1 and the node count minus one whenever every node's does, as `DegreeBounds` shows for every well-formed network |
| NetworkMeasures.InducedRow | mdepstar/Network.py:168-174 | one row of the pair scan adds at most one edge per later node and builds an unweighted network |
| NetworkMeasures.InducedFold | mdepstar/Network.py:168-174 | the pair scan adds at most one edge per unordered pair |
| NetworkMeasures.InducedSubgraph | mdepstar/Network.py:161-176 | the induced subgraph of s has at most one edge per unordered pair of s and is unweighted |
| NetworkMeasures.AddInducedWithin | mdepstar/Network.py:173-174 | copying an edge of g between members of S keeps the subgraph inside g and S |
| NetworkMeasures.InducedRowProps | mdepstar/Network.py:169-174 | one row keeps the subgraph well-formed and inside g, and copies every edge from x to a later node |
| NetworkMeasures.InducedFoldProps | mdepstar/Network.py:168-174 | the pair scan keeps the subgraph well-formed and inside g, and copies every edge between members of s |
| NetworkMeasures.InducedSubgraphSpec | mdepstar/Network.py:161-176 | the induced subgraph is well-formed; it has a–b iff both are in s and g has a–b, with g's weight |
| NetworkMeasures.Expand | mdepstar/Network.py:185-187 | one expansion step contains the set and all its neighbours, and nothing else |
| NetworkMeasures.NeighborsDepth | mdepstar/Network.py:178-189 | the result always contains the starting set |
| NetworkMeasures.NeighborsDepthComplete | mdepstar/Network.py:178-189 | every node reachable within the remaining depth is in the result |
| NetworkMeasures.NeighborsDepthSound | mdepstar/Network.py:178-189 | every node in the result is reachable within the remaining depth |
| NetworkMeasures.NeighborsDepthReach | mdepstar/Network.py:178-189 | a node is in the result iff a walk of at most `max_depth - current_depth` steps reaches it from the set |
| NetworkMeasures.ClusteringCoefficientNode | mdepstar/Network.py:120-129 | an isolated node raises ZeroDivisionError, degree 1 gives 0, and any result lies in [0, 1] |
| NetworkMeasures.NodeClustering | mdepstar/Network.py:120-129 | the loop's call returns `clustering_coeficient_node(v)`: an error exactly at degree 0, and otherwise the node's coefficient, in [0, 1] |
| NetworkMeasures.CoefficientSumRemove | mdepstar/Network.py:131-135 | the sum of coefficients does not depend on the order in which nodes are taken |
| NetworkMeasures.ClusteringNeighborhood | mdepstar/Network.py:121-122 | the nodes passed to `induced_subgraph` are the depth-1 neighbourhood minus the node itself |
| NetworkMeasures.InducedPair | mdepstar/Network.py:161-176 | the subgraph induced by the two ends of an edge has one edge |
| NetworkMeasures.ClusteringOfJoinedList | mdepstar/Network.py:120-129 | a degree-2 node whose two neighbours are joined has coefficient 1 |
| NetworkMeasures.ClusteringOfJoinedPair | mdepstar/Network.py:120-129 | a node whose two neighbours are joined has coefficient 1, whatever their listing order |
| NetworkMeasures.ClusteringCoefficient | mdepstar/Network.py:131-135 | the mean is 0 with no nodes, raises iff some node is isolated, and otherwise is the per-node coefficients added up and divided by the node count, in [0, 1] |
| NetworkMeasures.TriangleValid | mdepstar/Network.py:74-85 | three edges among three distinct nodes form a well-formed network |
| NetworkMeasures.TriangleEdges | mdepstar/Network.py:74-85 | the triangle joins exactly every pair of distinct corners |
| NetworkMeasures.FirstEdge | mdepstar/Network.py:74-85 | one `add_edge` on the empty network joins exactly its two ends, symmetrically and without loops |
| NetworkMeasures.SecondEdge | mdepstar/Network.py:74-85 | a second `add_edge` joins exactly the first pair and the new pair, in both directions |
| NetworkMeasures.TriangleCounts | mdepstar/Network.py:74-85 | the triangle has three nodes and three listed edges |
| NetworkMeasures.TriangleCorner | mdepstar/Network.py:120-129 | every corner of a triangle has clustering coefficient 1 |
| NetworkMeasures.TriangleGraphShape | mdepstar/Network.py:74-85 | the triangle is well-formed, complete, with three nodes and three edges |
| NetworkMeasures.Triangle | mdepstar/Network.py:51-59 | a triangle has density 1 and clustering coefficient 1 at each corner |
| DependencyScore.W | mdepstar/Mdepstar.py:120-124 | an unweighted network weighs every pair 1; weights are non-negative when the network's are, and symmetric |
| DependencyScore.R | mdepstar/Mdepstar.py:126-134 | the share of a common neighbour is 1/2 when unweighted and lies in [0, 1] for non-negative weights |
| DependencyScore.RComplement | mdepstar/Mdepstar.py:126-134 | the shares seen from the two ends of a path x–c–y add up to 1 |
| DependencyScore.SumW | mdepstar/Mdepstar.py:142-143 | the weight sum is non-negative, and equals the count when unweighted |
| DependencyScore.CommonSum | mdepstar/Mdepstar.py:151-154 | the common-neighbour sum lies between 0 and the plain weight sum, and is half the count when unweighted |
| DependencyScore.WeightedDegree | mdepstar/Mdepstar.py:136-147 | the weighted degree is non-negative, and equals the degree when unweighted |
| DependencyScore.CachedWeightedDegree | mdepstar/Mdepstar.py:136-147 | the cached read returns the weighted degree, keeps the cache sound, and stores x without dropping other entries |
| DependencyScore.CachedTwice | mdepstar/Mdepstar.py:140-147 | a second read of the same node is served from the cache and changes nothing |
| DependencyScore.CommonNeighborList | mdepstar/Network.py:146-147 | the common-neighbour iteration order has no repeats and holds exactly the common neighbours |
| DependencyScore.Dependency | mdepstar/Mdepstar.py:149-162 | a node with weighted degree 0 depends on nothing |
| DependencyScore.SumWithout | mdepstar/Mdepstar.py:142-143 | the weighted degree splits into one neighbour's weight plus the sum over the others |
| DependencyScore.SumKeepBound | mdepstar/Mdepstar.py:153-154 | summing over the common neighbours gives at most the sum over all neighbours other than y |
| DependencyScore.NumeratorBound | mdepstar/Mdepstar.py:158-161 | the numerator of a dependency lies between 0 and the weighted degree |
| DependencyScore.DependencyInUnit | mdepstar/Mdepstar.py:149-162 | for an edge of a well-formed network with non-negative weights, the dependency lies in [0, 1] |
| DependencyScore.UnweightedDependency | mdepstar/Mdepstar.py:149-162 | unweighted, the dependency is (1 + common/2) / degree, or 0 for an isolated node |
| DependencyScore.LeafDependency | mdepstar/Mdepstar.py:149-162 | unweighted, a node whose only neighbour is y depends on y completely |
| DepEngine.BuildMatrix | mdepstar/Mdepstar.py:164-179 | the matrix has an entry for exactly both orientations of every listed edge, each holding that pair's dependency |
| DepEngine.GetDependency | mdepstar/Mdepstar.py:37-54 | a read from a sound matrix returns the dependency of the pair |
| DepEngine.GetDependencyAsWritten | mdepstar/Mdepstar.py:37-54 | as written: an edge without a matrix entry raises KeyError; otherwise the read returns what the pure read returns, keeps the matrix, lists and weights, and adds at most the weight 0 under (a, b), only in a weighted network where a has non-zero weighted degree |
| DepEngine.RepeatedNonEdgeRead | mdepstar/Mdepstar.py:47-51 | reading a non-edge twice in a weighted network: the first read turns the pair into an edge, and the second raises KeyError |
| DepEngine.GetDependencyRepeatable | mdepstar/Mdepstar.py:37-54 | corrected: on any engine whose matrix covers the edges and is sound, self-loops included, every read returns the pair's dependency and the first as-written read agrees with it |
| DepEngine.PairDeps | mdepstar/Mdepstar.py:75-77 | the estimate reads one pair of dependencies per edge |
| DepEngine.InUnitTail | mdepstar/Mdepstar.py:75-82 | when every dependency lies in [0, 1], so do the first pair and the rest |
| DepEngine.PairTerm | mdepstar/Mdepstar.py:79-81 | each weighted term lies between 0 and its weight `min(d1, d2)` |
| DepEngine.WeightTotal | mdepstar/Mdepstar.py:79-82 | the total weight is non-negative |
| DepEngine.WeightedTotal | mdepstar/Mdepstar.py:81 | the weighted sum lies between 0 and the total weight |
| DepEngine.Estimate | mdepstar/Mdepstar.py:68-87 | with total weight 0 the estimate is 1; otherwise, for dependencies in [0, 1], it lies in [0, 1/2] |
| DepEngine.EstimateDependency | mdepstar/Mdepstar.py:68-87 | the estimate over an edge list is 1 or lies in [0, 1/2] |
| DepEngine.UniformWeights | mdepstar/Mdepstar.py:79-82 | when every dependency equals d, the total weight is d per edge |
| DepEngine.UniformTerms | mdepstar/Mdepstar.py:79-81 | when every dependency equals d, each weighted term is d·d |
| DepEngine.EstimateOfTotals | mdepstar/Mdepstar.py:84-87 | with non-zero total weight the estimate is the weighted mean halved |
| DepEngine.PairTermDiagonal | mdepstar/Mdepstar.py:79-81 | a pair of equal dependencies d contributes d·d |
| DepEngine.UniformRatio | mdepstar/Mdepstar.py:84-87 | when every dependency equals d > 0, the weighted mean is d |
| DepEngine.UniformEstimate | mdepstar/Mdepstar.py:68-87 | when every dependency equals d > 0, the estimate is d/2 |
| DepEngine.CalibratedInRange | mdepstar/Mdepstar.py:68-87 | estimating over existing edges of a non-negative network gives 1 or a value in [0, 1/2] |
| DepEngine.NewEngine | mdepstar/Mdepstar.py:6-23 | construction over any network whose edges are listed builds a sound matrix over exactly the listed edges; the engine is built whenever the network is (self-loops included) and ready whenever the network is well-formed; a float sets the threshold, an edge list sets it to the estimate, anything else leaves it unset |
| DepEngine.Threshold | mdepstar/Mdepstar.py:25-31 | a threshold that is set is returned unchanged |
| DepEngine.ThresholdCalibrated | mdepstar/Mdepstar.py:27-30 | an unset threshold reads as the whole-network estimate rounded to a multiple of 1/1000, within 0.0005 of it |
| DepEngine.CalibratedThreshold | mdepstar/Mdepstar.py:25-31 | the default threshold is 1 or within [0, 1/2] |
| DepEngine.IntArgIgnored | mdepstar/Mdepstar.py:18-23 | an integer argument is ignored and behaves like no argument |
| Tolerance.IsClose | mdepstar/Mdepstar.py:335 | equal values are close; close values have the same sign and are both zero or neither; their distance is within 10⁻⁶ of their combined size |
| Tolerance.GreaterOrEqual | mdepstar/Mdepstar.py:331-337 | the comparison holds whenever x ≥ y, and between non-negative values exactly when x ≥ (1 − 10⁻⁶)·y |
| Tolerance.GreaterOrEqualNonNegative | mdepstar/Mdepstar.py:331-337 | between non-negative values the tolerant comparison is x ≥ (1 − 10⁻⁶)·y |
| Tolerance.GreaterOrEqualCases | mdepstar/Mdepstar.py:331-337 | the comparison holds when x ≥ y, and when x < y exactly within the relative tolerance |
| Tolerance.GreaterOrEqualDouble | mdepstar/Mdepstar.py:203-211 | reaching twice a non-negative threshold implies reaching the threshold |
| Tolerance.BelowDouble | mdepstar/Mdepstar.py:203-211 | no value in [0, 1] reaches twice a threshold above one half |
| Tolerance.GreaterOrEqualMonotone | mdepstar/Mdepstar.py:331-337 | a larger non-negative value passes whenever a smaller one does |
| Tolerance.RoundHalfEven | mdepstar/Mdepstar.py:28-30 | the rounded integer is the floor or the ceiling and lies within 1/2 of the value |
| Tolerance.RoundHalfEvenNearest | mdepstar/Mdepstar.py:28-30 | no integer is closer to the value than the rounded one |
| Tolerance.Round3 | mdepstar/Mdepstar.py:28-30 | `round(x, 3)` is a multiple of 1/1000 within 0.0005 of x |
| Tolerance.Round3Nearest | mdepstar/Mdepstar.py:28-30 | no multiple of 1/1000 is closer to x than `round(x, 3)` |
| Tolerance.Round3Ends | mdepstar/Mdepstar.py:28-30 | `round(1, 3)` is 1, and rounding a value of [0, 1/2] stays within [0, 1/2] |
| Tolerance.Round3Idempotent | mdepstar/Mdepstar.py:28-30 | rounding twice to three decimals is the same as rounding once |
| MDep.Bump | mdepstar/Mdepstar.py:108-117 | each classified neighbour raises the total count by one |
| MDep.ClassifyAsWritten | mdepstar/Mdepstar.py:108-117 | as written, every neighbour lands in some bucket |
| MDep.Classify | mdepstar/Mdepstar.py:108-117 | corrected: unless both dependencies are below the threshold, the code's branch chain picks the same bucket; "no dependency" only for two dependencies below it |
| MDep.ClassifyAgreement | mdepstar/Mdepstar.py:108-117 | the code's classification agrees with the tolerant one except when both dependencies are below the threshold yet one passes the tolerant test |
| MDep.ClassifyMutual | mdepstar/Mdepstar.py:110-113 | corrected: a pair is mutual iff both dependencies pass the tolerant test, and "no dependency" iff neither does |
| MDep.NeighborDeps | mdepstar/Mdepstar.py:104-106 | one pair of dependencies is read per neighbour |
| MDep.Tally | mdepstar/Mdepstar.py:98-118 | the counts total at most the number of neighbours, and exactly that when every neighbour is classified |
| MDep.TallySingle | mdepstar/Mdepstar.py:98-118 | a single classified neighbour bumps exactly its own bucket |
| MDep.ClassifyAllAsWritten | mdepstar/Mdepstar.py:104-117 | as written, every neighbour is classified |
| MDep.ClassifyAll | mdepstar/Mdepstar.py:104-117 | with the corrected classification, every neighbour is classified |
| MDep.NeighborsAreKeys | mdepstar/Mdepstar.py:105-106 | on a built network whose matrix keys are its listed edges, both matrix reads for every neighbour succeed, self-loops included |
| MDep.GetNodeDepsAsWritten | mdepstar/Mdepstar.py:89-118 | on any built engine, self-loops included, the four counts add up to the node's degree |
| MDep.GetNodeDeps | mdepstar/Mdepstar.py:89-118 | corrected: on any built engine, self-loops included, the four counts add up to the node's degree |
| MDep.MDepFold | mdepstar/Mdepstar.py:181-198 | the mDep construction keeps the accumulator's weighted flag |
| MDep.MDepFoldValid | mdepstar/Mdepstar.py:268-278 | adding the passing pairs one by one keeps the network well-formed with an exact edge list |
| MDep.MDepFoldEdges | mdepstar/Mdepstar.py:181-198 | the construction adds exactly the listed pairs whose two dependencies pass, each with weight 1 |
| MDep.MDepGraph | mdepstar/Mdepstar.py:272-278 | over any matrix keyed by the listed edges, loops included, the mDep network is unweighted (its edges: `MDep.MDepGraphKeys`) |
| MDep.MDepFoldKeys | mdepstar/Mdepstar.py:181-198 | over any pairs that are matrix keys, loops included, the construction adds exactly the listed pairs whose two dependencies pass, each with weight 1 |
| MDep.MDepGraphKeys | mdepstar/Mdepstar.py:181-198 | loops included, the mDep network has weight 1 on every edge and joins a–b iff (a, b) is a matrix key passing in both directions |
| MDep.MDepGraphSpecIfLoopFree | mdepstar/Mdepstar.py:181-198 | when no listed edge is a loop, the mDep network is well-formed with weight 1 and joins exactly the passing matrix keys |
| MDep.MDepNetwork | mdepstar/Mdepstar.py:268-278 | on any built engine, loops included, the network is unweighted with weight 1 on every edge and has a–b iff (a, b) is a matrix key passing in both directions; when no listed edge is a loop it is also well-formed and lists each edge once |
| MDep.KeysLoopFree | mdepstar/Mdepstar.py:164-179 | a matrix built from loop-free edges has no diagonal entry |
| MDep.ExactLoopFree | mdepstar/Network.py:74-85 | the edge list of a well-formed network has no self-loop |
| MDep.MDepGraphSpec | mdepstar/Mdepstar.py:181-198 | the mDep network is well-formed with weight 1 on every edge; it has a–b iff the matrix holds (a, b) and both dependencies pass the threshold |
| MDep.MDepFoldSpec | mdepstar/Mdepstar.py:181-198 | folding from an empty network gives a well-formed unit-weight network whose edges are exactly the listed pairs passing in both directions |
| MDep.MDepGraphEdges | mdepstar/Mdepstar.py:188-196 | when the edge list is exact, the mDep network has a–b iff the network has a–b and both dependencies pass |
| MDep.TallyMutual | mdepstar/Mdepstar.py:104-113 | corrected: the mutual count equals the number of neighbours whose two dependencies pass |
| MDep.MDepNeighbors | mdepstar/Mdepstar.py:181-198 | a node's mDep neighbours are exactly its neighbours whose two dependencies pass |
| MDep.NodeDepsMatchMDep | mdepstar/Mdepstar.py:89-118 | corrected: a node's mutual count equals its degree in the mDep network |
| MDep.GetMDepNetwork | mdepstar/Mdepstar.py:268-278 | on any built engine, reading the network caches it and changes nothing else; with a fresh cache it returns the mDep network at the current threshold |
| MDep.SetThreshold | mdepstar/Mdepstar.py:33-35 | the setter changes the threshold and keeps the cached network |
| MDep.SetThresholdFixed | mdepstar/Mdepstar.py:33-35 | corrected setter: the next network read is the mDep network at the new threshold |
| MDep.MDepEdgesFold | mdepstar/Mdepstar.py:242-260 | the scan raises KeyError iff some given pair has no matrix entry, and otherwise builds the same network as the full construction over those pairs |
| MDep.MDepEdgesFoldSpec | mdepstar/Mdepstar.py:242-260 | a scan that succeeds builds an unweighted unit-weight network joining exactly the given pairs that pass, loops included, and a well-formed one over loop-free pairs |
| MDep.GetMDepNetworkEdges | mdepstar/Mdepstar.py:280-298 | KeyError iff some pair lacks a matrix entry in one orientation; otherwise an unweighted unit-weight network joining exactly the given pairs that pass in both directions, loops included, and a well-formed one for loop-free pairs |
| MDep.MDepEdgesOfAllEdges | mdepstar/Mdepstar.py:280-298 | `get_mDep_network_edges(edges())` equals the mDep network |
| MDep.CheckCondition | mdepstar/Mdepstar.py:200-213 | the condition keeps a subset of the given neighbours |
| MDep.NeighborNotDoubleDependent | mdepstar/Mdepstar.py:203-211 | with a threshold above one half, no neighbour's dependency in either direction reaches twice the threshold |
| MDep.CheckConditionEmpty | mdepstar/Mdepstar.py:200-213 | with a threshold above one half, no neighbour passes the condition |
| MDep.ComplexAt | mdepstar/Mdepstar.py:232-237 | a complex contains its seed node and otherwise only the seed's mDep neighbours |
| MDep.Complexes | mdepstar/Mdepstar.py:235-240 | every reported complex has at least three members and is the complex of some mDep node |
| MDep.GetComplexes | mdepstar/Mdepstar.py:216-240 | on any built engine, a seed in the mDep network gives exactly its own complex; otherwise all complexes of size ≥ 3 are returned; the network is cached |
| MDep.ComplexesFallThrough | mdepstar/Mdepstar.py:231-240 | a seed outside the mDep network gives the same result as no seed |
| MDep.ComplexesComplete | mdepstar/Mdepstar.py:235-240 | every node's complex of size ≥ 3 is reported, and every complex lies within the mDep network's nodes |
| MDep.ComplexesWithin | mdepstar/Mdepstar.py:235-240 | in any well-formed network every reported complex lies within the network's nodes |
| MDep.ComplexesEmptyAboveHalf | mdepstar/Mdepstar.py:200-240 | with a threshold above one half, no complex is found |
| MDep.GetComplexesEmptyAboveHalf | mdepstar/Mdepstar.py:216-240 | on a fresh engine whose threshold is above one half, `get_complexes()` is empty |
| Scenarios.PairDependencies | mdepstar/Mdepstar.py:149-162 | in the single-edge network each end depends on the other with value 1 |
| Scenarios.PairGraphShape | mdepstar/Network.py:74-85 | `add_edge("a", "b", 1)` on an empty network gives the single-edge network, well-formed, with exact edge listing and non-negative weights |
| Scenarios.PairNeighbors | mdepstar/Network.py:143-144 | in the single-edge network each end is the other's only neighbour |
| Scenarios.MutualLeaves | mdepstar/Mdepstar.py:149-162 | two nodes that are each other's only neighbour depend on each other with value 1 |
| Scenarios.PairMatrix | mdepstar/Mdepstar.py:164-179 | the matrix of the single-edge network holds 1 in both directions |
| Scenarios.PairNetwork | mdepstar/Mdepstar.py:181-198 | the single edge survives in the mDep network iff 1 passes the threshold |
| Scenarios.PairNeighborDeps | mdepstar/Mdepstar.py:104-106 | node a reads the one dependency pair (1, 1) |
| Scenarios.PairCounts | mdepstar/Mdepstar.py:108-117 | for the pair (1, 1) under a threshold just above 1 that 1 reaches within the tolerance, the code's branch chain counts "no dependency" while the corrected classification counts mutual |
| Scenarios.NodeDepsToleranceGap | mdepstar/Mdepstar.py:105-117 | at threshold 1.0000001 the code counts the pair as "no dependency" although the mDep network joins it; the corrected count says mutual |
| Scenarios.StaleNetworkAfterSetter | mdepstar/Mdepstar.py:268-278 | after building at 0.5 and setting 2, the cached network keeps a–b while the network at 2 has none; the corrected setter drops it |
| Scenarios.LoopFirstEdge | mdepstar/Network.py:74-85 | `add_edge("x", "y", 1)` on an empty network gives the expected concrete network |
| Scenarios.LoopGraphBuilt | mdepstar/Network.py:74-85 | adding the loop y–y after x–y gives y the list [x, y, y] and lists both pairs |
| Scenarios.LoopGraphShape | mdepstar/Network.py:74-85 | the network with the loop lists every edge but is not well-formed |
| Scenarios.LoopDependency | mdepstar/Mdepstar.py:149-162 | with the loop on y, x depends on y by 3/2, outside [0, 1] |
| Scenarios.LoopEngine | mdepstar/Mdepstar.py:6-23 | the constructor accepts the network with the loop, and its matrix holds the dependency 3/2 |
| Scenarios.LoopEngineBuilt | mdepstar/Mdepstar.py:6-23 | the network with the loop is built, so its engine is built though not ready |
| Scenarios.LoopDegree | mdepstar/Network.py:117-118 | y, listed as [x, y, y], has the two neighbours x and y |
| Scenarios.LoopNodeDeps | mdepstar/Mdepstar.py:89-118 | `get_node_deps("y")` on the loop network classifies both of y's neighbours, itself included |
| Scenarios.ScenarioEnginesExist | mdepstar/Mdepstar.py:6-23 | the constructor builds the engines both scenarios start from |
| Scores.Overlap | mdepstar_analysis/scores.py:6-7 | the overlap raises ZeroDivisionError iff either complex is empty |
| Scores.OverlapSymmetric | mdepstar_analysis/scores.py:6-7 | overlap is symmetric |
| Scores.OverlapInUnit | mdepstar_analysis/scores.py:6-7 | overlap lies in [0, 1] |
| Scores.OverlapIsOne | mdepstar_analysis/scores.py:6-7 | overlap is 1 iff the complexes are equal and non-empty |
| Scores.OverlapIsZero | mdepstar_analysis/scores.py:6-7 | overlap is 0 iff the complexes are non-empty and disjoint |
| Scores.MatchesAny | mdepstar_analysis/scores.py:44-49 | the inner scan fails only with ZeroDivisionError |
| Scores.MatchesAnySpec | mdepstar_analysis/scores.py:44-49 | the inner scan with `break` reports whether some candidate overlaps above the threshold |
| Scores.CountMatched | mdepstar_analysis/scores.py:43-49 | the counter never exceeds the number of complexes scanned |
| Scores.MatchedCount | mdepstar_analysis/scores.py:43-49 | the number of matched complexes is at most the number of complexes |
| Scores.CountMatchedSpec | mdepstar_analysis/scores.py:43-49 | without empty complexes the counter is the number of matched complexes |
| Scores.MatchesAnySwap | mdepstar_analysis/scores.py:46 | argument order of the overlap does not change the scan |
| Scores.CountMatchedSwap | mdepstar_analysis/scores.py:53-61 | recall's loop counts what precision's loop counts, argument order aside |
| Scores.Precision | mdepstar_analysis/scores.py:42-50 | precision with no predictions raises ZeroDivisionError, and otherwise lies in [0, 1] |
| Scores.Recall | mdepstar_analysis/scores.py:53-61 | recall with no references raises ZeroDivisionError, and otherwise lies in [0, 1] |
| Scores.RecallIsSwappedPrecision | mdepstar_analysis/scores.py:42-61 | recall is precision with the two lists exchanged |
| Scores.PrecisionSpec | mdepstar_analysis/scores.py:42-50 | precision is the fraction of predictions matching some reference |
| Scores.MatchedCountOfCopies | mdepstar_analysis/scores.py:43-49 | with a threshold below 1, every prediction that is also a reference is matched |
| Scores.PrecisionOfCopies | mdepstar_analysis/scores.py:42-50 | predictions that all occur among the references have precision 1 for any threshold below 1 |
| Scores.FMeasure | mdepstar_analysis/scores.py:63-66 | the F-measure raises iff p + r = 0 with p and r not both 0 |
| Scores.FMeasureSymmetric | mdepstar_analysis/scores.py:63-66 | the F-measure is symmetric |
| Scores.FMeasureBetween | mdepstar_analysis/scores.py:63-66 | for non-negative p and r the F-measure is defined and lies between their minimum and maximum |
| Scores.HarmonicBetween | mdepstar_analysis/scores.py:63-66 | the harmonic mean of 0 ≤ lo ≤ hi lies between them |
| Scores.FMeasureOfEqual | mdepstar_analysis/scores.py:63-66 | the F-measure of p with itself is p |
| Scores.Overlaps | mdepstar_analysis/scores.py:31-35 | the overlap list has one entry per reference, in order, and raises ZeroDivisionError iff an empty complex is compared |
| Scores.SeqMax | mdepstar_analysis/scores.py:36 | the maximum is an element and bounds every element |
| Scores.BestOverlapSpec | mdepstar_analysis/scores.py:31-37 | a prediction's best overlap lies in [0, 1] and exceeds the threshold iff the prediction is matched |
| Scores.PredictiveMatchingRatio | mdepstar_analysis/scores.py:28-40 | no predictions raise ZeroDivisionError; predictions without references raise ValueError |
| Scores.MatchedScoreSumBound | mdepstar_analysis/scores.py:29-38 | the sum of best overlaps kept lies between 0 and the number of matched predictions |
| Scores.RatioBelowPrecision | mdepstar_analysis/scores.py:28-50 | whenever the predictive matching ratio is defined, precision is too, and the ratio lies between 0 and precision |

## Left out

- Reading and writing files (`read_file`, `export`, `export_mDep_network`, `save_to_file`), `print`, `__str__`, `to_networkx`, the command-line front end and packaging. They are I/O only.
- `maximum_matching_ratio`: it depends on an external maximum-weight matching routine (`mwmatching`) that is not part of this model.
- `edge_dependency` and `_avg_dependency`: unused by the core; both are plain matrix reads and averages that `DepEngine.GetDependency` and `DepEngine.Estimate` already cover.
- Floating point: all arithmetic is over exact reals. Rounding error, NaN and infinities are not modelled. `round(x, 3)` is the ideal half-to-even rounding of the real value.
- `defaultdict` side effects outside `get_dependency`: `weight` and `get_edge_weight` on an absent pair store 0 under it, after which `edge_exists` reports the pair as an edge. `Network.Weight` returns 0 and stores nothing. The engine reaches this store in `get_dependency`, which the model covers in both forms (see Findings), and in the constructor (next line).
- DepEngine.NewEngine: does not model the constructor's store into the caller's network. `_calc_dependency_matrix` computes `_dependency(i, j)` for every listed pair (i, j). For a pair that `remove_edge` left listed after deleting it (`Network.RemoveEdgeLeavesStaleEntry`), in a weighted network where i has non-zero weighted degree, the read of `_weight(i, j)` stores 0 under (i, j) in the caller's network. A later `add_edge(i, j, w)` on that network then changes nothing. The model's constructor computes the same dependency values and leaves the network as it was. An edge-list argument is estimated with the corrected read `DepEngine.GetDependency`, whereas `_estimate_dependency` (Mdepstar.py:76-77) calls `get_dependency` on each given pair in both orders. For a given pair that is not an edge of a weighted network, with non-zero weighted degree at its first end, the source stores 0 under it in the caller's network, as `DepEngine.GetDependencyAsWritten` does. A later `get_dependency` of that pair then raises KeyError, and a later `add_edge` of it changes nothing. When the list gives such a pair twice, the constructor itself raises KeyError (`DepEngine.RepeatedNonEdgeRead`). The modelled constructor neither stores into the network nor raises there.
- Network.RemoveEdge: an `Err` leaves the caller with the network as it was. The source raises only after earlier statements have mutated it. `remove_edge(y, y)` on a loop that is y's only edge drops y from `nodes()` at Network.py:90, then raises KeyError at line 93 when it removes y again. If y also has another neighbour, line 95 deletes the (y, y) weight before line 96 raises KeyError. y then stays on its own adjacency list, so `edge_exists(y, y)` is False while `degree(y)` still counts y. On a well-formed network `remove_edge` never raises (`Network.RemoveEdgeKeepsValid`).
- The engine keeps a reference to the caller's network (`self._G = graph`), so later `add_edge` or `remove_edge` calls on that network change what the engine reads afterwards. The model's engine holds the network as a value fixed at construction.
- Network.AddEdgeAdjacency: requires distinct ends. A self-loop puts the node twice on its own list (`Network.AddEdgeSelfLoop`), so the no-repeat invariant is not promised for it.
- Network.AddEdgeSymmetric: requires distinct ends. A self-loop keeps the weights symmetric but breaks loop-freedom (`Network.AddEdgeSelfLoop`).
- Network.AddEdgeValid: requires distinct ends. With a self-loop the network is no longer well-formed (`Network.AddEdgeValidIff`).
- DependencyScore.DependencyInUnit: holds for well-formed networks only. With a self-loop a dependency can exceed 1 (`Scenarios.LoopDependency` gives 3/2).
- DepEngine.CalibratedInRange: holds for well-formed networks only. With self-loops dependencies can exceed 1, and the estimate can then exceed 1/2.
- DepEngine.CalibratedThreshold: holds for well-formed networks only, for the same reason as `DepEngine.CalibratedInRange`.
- `frozenset` iteration order: Python walks `neighbors(v)` in hash order, and string hashes vary from one process to the next. The model walks it in adjacency-list order without repeats (`Network.NeighborList`). Nothing the model computes from that walk depends on its order over exact reals: it yields counts, sums and sets.
- Dictionary and set iteration order: the mDep network is built by scanning the network's edge list, not the matrix's nested keys. The two give the same edge set (`MDep.MDepGraphSpec`), but the edge-list order of the resulting network may differ.
- MDep.GetMDepNetwork: the cache holds the built network rather than the nested dictionary it is rebuilt from. Both yield the same network.
- DepEngine.Threshold: the first read of an unset threshold stores the rounded estimate in the object. The model recomputes the same value on each read and does not store it.
- A missing dependency matrix (`raise Exception(...)` in `get_dependency`, `get_complexes` and `_get_mDep_network`) cannot occur: construction always builds the matrix. The engine functions require only what the constructor leaves over any network `add_edge` builds, self-loops included (`DepEngine.EngineBuilt`, via `Network.AddEdgeBuilt` and `DepEngine.NewEngine`). The properties whose proofs need a well-formed, loop-free network (`DepEngine.EngineReady`) say so in their requires: the bounds that go through `DependencyScore.DependencyInUnit`, and the mDep facts stated through an exact edge list.
- `weighted` setter and `add_node`: not used by the core on their own. `AddEdge` adds the nodes.
- Complexes in the scores are sets of node names. The source accepts any Python sets, which behave the same for these functions.
- `induced_subgraph` takes its nodes as a sequence. A `set` argument's conversion to a list is covered by allowing any order.
- NetworkMeasures.NeighborsDepth: requires `current_depth <= max_depth`. With a larger starting depth the source recurses until Python's recursion limit.

## Findings

| source | as written | input that shows it | evidently intended | confidence | as-written member | corrected member |
|---|---|---|---|---|---|---|
| mdepstar/Network.py:101-105 | `remove_edge(a, b)` first removes `(a, b)` from `edges()`; when only `(b, a)` is listed, that first removal raises and the handler skips the second | `add_edge("a", "b", 1)`, then `remove_edge("b", "a")`: the edge is gone but `edges()` still lists `("a", "b")`; with `add_edge("b", "c", 1)` as well, `density` over the nodes b and c counts two edges where one remains and returns 2 | remove whichever orientation is listed | not executed | Network.RemoveEdgeLeavesStaleEntry | Network.RemoveEdgeFixedExact |
| mdepstar/Mdepstar.py:105-117 | `get_node_deps` tests `d1 < t and d2 < t` with a plain comparison before the tolerant ones | single edge a–b, threshold 1.0000001: both dependencies are 1, which pass the tolerant test, so the mDep network joins a and b, yet the pair is counted as "no dependency" | classify with the same tolerant comparison the mDep network uses | not executed | Scenarios.NodeDepsToleranceGap | MDep.NodeDepsMatchMDep |
| mdepstar/Mdepstar.py:33-35 | the threshold setter does not clear the cached mDep network | single edge a–b, threshold 0.5: build the network, set the threshold to 2, build again: a–b is still there although neither dependency reaches 2 | changing the threshold invalidates the cached network | not executed | Scenarios.StaleNetworkAfterSetter | MDep.SetThresholdFixed |
| mdepstar/Mdepstar.py:47-51 | `get_dependency` on a non-edge of a weighted network reaches `weight(a, b)`, whose `defaultdict` stores 0 under (a, b); the pair then counts as an edge, and the next read of it looks in the matrix, which has no entry | weighted edges x–z and y–z, `mDepStar(G, [("x", "y"), ("x", "y")])`: the second read of (x, y) raises KeyError | reading a dependency leaves the network unchanged | not executed | DepEngine.RepeatedNonEdgeRead | DepEngine.GetDependencyRepeatable |

=== FILE: arith.dfy ===
/**
 * Integer and real arithmetic the measures need. Products of two variables
 * are built by recursion so that the solver never reasons about them
 * directly.
 */
module Arith {

  /** The number of ordered pairs of distinct elements of an `n`-set, `n (n - 1)`. */
  function Pairs(n: nat): (r: nat)
    ensures n >= 2 ==> r >= 2
  {
    if n == 0 then 0 else Pairs(n - 1) + 2 * (n - 1)
  }

  /** Python's `min(a, b)` on two reals. */
  function Min(a: real, b: real): real {
    if a <= b then a else b
  }

  /** Python's `max(a, b)` on two reals. */
  function Max(a: real, b: real): real {
    if a <= b then b else a
  }

  /** `a` copies of `b`, that is `a * b`. */
  function Mul(a: nat, b: int): int {
    if a == 0 then 0 else Mul(a - 1, b) + b
  }

  lemma {:induction false} PairsIsProduct(n: nat)
    ensures Pairs(n) == n * (n - 1)
  {
    if n > 0 {
      PairsIsProduct(n - 1);
    }
  }

  lemma {:induction false} PairsMonotone(a: nat, b: nat)
    requires a <= b
    ensures Pairs(a) <= Pairs(b)
    decreases b
  {
    if a < b {
      PairsMonotone(a, b - 1);
    }
  }

  /** The guarded division the code writes as `0 if d == 0 else n / d`. */
  function Ratio(n: real, d: real): (r: real)
    ensures d == 0.0 ==> r == 0.0
    ensures d != 0.0 ==> r * d == n
    ensures 0.0 <= n <= d ==> 0.0 <= r <= 1.0
  {
    if d == 0.0 then 0.0
    else
      assert 0.0 <= n <= d ==> 0.0 <= n / d <= 1.0 by {
        if 0.0 <= n <= d {
          DivInUnit(n, d);
        }
      }
      n / d
  }

  lemma DivInUnit(x: real, y: real)
    requires 0.0 <= x <= y && 0.0 < y
    ensures 0.0 <= x / y <= 1.0
  {
    assert x / y * y == x;
  }

  lemma DivNonNegative(x: real, y: real)
    requires 0.0 <= x && 0.0 < y
    ensures 0.0 <= x / y
  {
    assert x / y * y == x;
  }

  lemma {:induction false} MulIsProduct(a: nat, b: int)
    ensures Mul(a, b) == a * b
  {
    if a > 0 {
      MulIsProduct(a - 1, b);
    }
  }

  /** A sum of `count` terms, each between `lo` and `hi`, has its mean between them too. */
  lemma MeanInRange(total: int, count: nat, lo: int, hi: int)
    requires count > 0 && Mul(count, lo) <= total <= Mul(count, hi)
    ensures lo as real <= total as real / count as real <= hi as real
  {
    MulIsProduct(count, lo);
    MulIsProduct(count, hi);
    assert total as real / count as real * count as real == total as real;
  }

  lemma ScaleByUnit(a: real, b: real)
    requires 0.0 <= a && 0.0 <= b <= 1.0
    ensures 0.0 <= a * b <= a
  {
  }

  /** `d` added up `n` times. */
  function Rep(n: nat, d: real): (r: real)
    ensures d >= 0.0 ==> r >= 0.0
  {
    if n == 0 then 0.0 else Rep(n - 1, d) + d
  }

  lemma {:induction false} RepScale(n: nat, d: real)
    ensures Rep(n, d * d) == d * Rep(n, d)
  {
    if n > 0 {
      RepScale(n - 1, d);
      Distribute(d, Rep(n - 1, d), d);
    }
  }

  /** The mean of `n > 0` copies of `d * d` against `n` copies of `d` is `d`. */
  lemma RepRatio(n: nat, d: real)
    requires n > 0 && d > 0.0
    ensures Rep(n, d) > 0.0 && Rep(n, d * d) / Rep(n, d) == d
  {
    assert Rep(n, d) == Rep(n - 1, d) + d;
    RepScale(n, d);
    CancelFactor(Rep(n, d * d), d, Rep(n, d));
  }

  lemma Distribute(a: real, b: real, c: real)
    ensures a * b + a * c == a * (b + c)
  {
  }

  lemma CancelFactor(x: real, d: real, b: real)
    requires b != 0.0 && x == d * b
    ensures x / b == d
  {
  }

  lemma SharesSumToOne(a: real, b: real)
    requires a + b != 0.0
    ensures b / (a + b) + a / (b + a) == 1.0
  {
    assert b / (a + b) + a / (a + b) == (a + b) / (a + b);
  }
}

=== FILE: dependency.dfy ===
/**
 * The dependency score of `mdepstar/Mdepstar.py`: edge weights as the
 * engine reads them, the split ratio `r`, the weighted degree and the
 * directed dependency of one node on another, all over one fixed graph.
 */
module DependencyScore {
  import opened Seqs
  import opened Arith
  import opened Network

  /** Every stored weight is non-negative. */
  ghost predicate NonNegative(g: Graph) {
    forall e :: e in g.weights ==> g.weights[e] >= 0.0
  }

  /** `_weight(x, y)`: the stored weight, or 1 for every pair (joined or not) of an unweighted graph. */
  function W(g: Graph, x: Node, y: Node): (r: real)
    ensures !g.weighted ==> r == 1.0
    ensures NonNegative(g) ==> r >= 0.0
    ensures Symmetric(g) && g.weighted ==> r == Weight(g, y, x)
  {
    if g.weighted then Weight(g, x, y) else 1.0
  }

  /** `_r(x, c, y)`: the share of the path x-c-y carried by its second edge; 0 when both weigh 0. */
  function R(g: Graph, x: Node, c: Node, y: Node): (r: real)
    ensures NonNegative(g) ==> 0.0 <= r <= 1.0
    ensures !g.weighted ==> r == 0.5
  {
    Ratio(W(g, c, y), W(g, x, c) + W(g, c, y))
  }

  /** The two directions of a path split it completely: r(x, c, y) + r(y, c, x) = 1. */
  lemma RComplement(g: Graph, x: Node, c: Node, y: Node)
    requires Symmetric(g) && W(g, x, c) + W(g, c, y) != 0.0
    ensures R(g, x, c, y) + R(g, y, c, x) == 1.0
  {
    var a := W(g, x, c);
    var b := W(g, c, y);
    assert W(g, c, x) == a && W(g, y, c) == b;
    SharesSumToOne(a, b);
    assert R(g, x, c, y) == b / (a + b);
    assert R(g, y, c, x) == a / (b + a);
  }

  /** The sum of `_weight(x, n)` over the nodes `n` of `s`. */
  function SumW(g: Graph, x: Node, s: seq<Node>): (r: real)
    ensures NonNegative(g) ==> r >= 0.0
    ensures !g.weighted ==> r == |s| as real
  {
    if s == [] then 0.0 else W(g, x, s[0]) + SumW(g, x, s[1..])
  }

  /** The sum of `_weight(x, n) * _r(x, n, y)` over the nodes `n` of `s`. */
  function CommonSum(g: Graph, x: Node, y: Node, s: seq<Node>): (r: real)
    ensures NonNegative(g) ==> 0.0 <= r <= SumW(g, x, s)
    ensures !g.weighted ==> r == |s| as real / 2.0
  {
    if s == [] then 0.0
    else
      var term := W(g, x, s[0]) * R(g, x, s[0], y);
      var rest := CommonSum(g, x, y, s[1..]);
      assert NonNegative(g) ==> 0.0 <= term <= W(g, x, s[0]) by {
        if NonNegative(g) {
          ScaleByUnit(W(g, x, s[0]), R(g, x, s[0], y));
        }
      }
      assert !g.weighted ==> term + rest == |s| as real / 2.0 by {
        if !g.weighted {
          assert term == 0.5 && rest == (|s| - 1) as real / 2.0;
        }
      }
      term + rest
  }

  /**
   * `_weighted_degree(x)`: the weight summed over the neighbours of `x`;
   * in an unweighted graph it is the degree.
   */
  function WeightedDegree(g: Graph, x: Node): (r: real)
    ensures NonNegative(g) ==> r >= 0.0
    ensures !g.weighted ==> r == Degree(g, x) as real
  {
    SumW(g, x, NeighborList(g, x))
  }

  /** The memo table of `_weighted_degree` holds only correct values. */
  ghost predicate CacheSound(g: Graph, cache: map<Node, real>) {
    forall x :: x in cache ==> cache[x] == WeightedDegree(g, x)
  }

  /**
   * `_weighted_degree(x)` with its memo table: returns the weighted degree
   * and the table afterwards, which gains `x` and stays correct.
   */
  function CachedWeightedDegree(g: Graph, cache: map<Node, real>, x: Node): (r: (real, map<Node, real>))
    requires CacheSound(g, cache)
    ensures r.0 == WeightedDegree(g, x)
    ensures CacheSound(g, r.1) && x in r.1 && cache.Keys <= r.1.Keys
    ensures x in cache ==> r.1 == cache
  {
    if x in cache then (cache[x], cache)
    else
      var s := WeightedDegree(g, x);
      (s, cache[x := s])
  }

  /** A second call returns the memoised value and leaves the table alone. */
  lemma CachedTwice(g: Graph, cache: map<Node, real>, x: Node)
    requires CacheSound(g, cache)
    ensures var (v, c1) := CachedWeightedDegree(g, cache, x);
      CachedWeightedDegree(g, c1, x) == (v, c1)
  {
  }

  /** `common_neighbors(x, y)` in the order the code walks it. */
  function CommonNeighborList(g: Graph, x: Node, y: Node): (r: seq<Node>)
    ensures NoDup(r)
    ensures Elements(r) == CommonNeighbors(g, x, y)
  {
    Keep(NeighborList(g, x), Neighbors(g, y))
  }

  /**
   * `_dependency(x, y)`: how much `x` depends on `y`; the weight of x-y plus
   * the shares of the paths through common neighbours, over the weighted
   * degree of `x`, and 0 when that degree is 0.
   */
  function Dependency(g: Graph, x: Node, y: Node): (r: real)
    ensures WeightedDegree(g, x) == 0.0 ==> r == 0.0
  {
    Ratio(W(g, x, y) + CommonSum(g, x, y, CommonNeighborList(g, x, y)), WeightedDegree(g, x))
  }

  lemma {:induction false} SumWithout(g: Graph, x: Node, s: seq<Node>, y: Node)
    requires NoDup(s) && y in s
    ensures SumW(g, x, s) == W(g, x, y) + SumW(g, x, Drop(s, {y}))
  {
    assert NoDup(s[1..]) && s[0] !in s[1..];
    if s[0] != y {
      SumWithout(g, x, s[1..], y);
    } else {
      assert Drop(s, {y}) == Drop(s[1..], {y}) == s[1..];
    }
  }

  lemma {:induction false} SumKeepBound(g: Graph, x: Node, s: seq<Node>, keep: set<Node>, y: Node)
    requires NonNegative(g) && y !in keep
    ensures SumW(g, x, Keep(s, keep)) <= SumW(g, x, Drop(s, {y}))
  {
    if s != [] {
      SumKeepBound(g, x, s[1..], keep, y);
    }
  }

  lemma NumeratorBound(g: Graph, x: Node, y: Node)
    requires NonNegative(g) && y in NeighborList(g, x) && y !in Neighbors(g, y)
    ensures 0.0 <= W(g, x, y) + CommonSum(g, x, y, CommonNeighborList(g, x, y)) <= WeightedDegree(g, x)
  {
    var nl := NeighborList(g, x);
    SumWithout(g, x, nl, y);
    SumKeepBound(g, x, nl, Neighbors(g, y), y);
  }

  /**
   * On a valid graph with non-negative weights the dependency of `x` on a
   * neighbour `y` lies in [0, 1]: the paths through common neighbours never
   * weigh more than the other edges of `x`.
   */
  lemma DependencyInUnit(g: Graph, x: Node, y: Node)
    requires Valid(g) && NonNegative(g) && EdgeExists(g, x, y)
    ensures 0.0 <= Dependency(g, x, y) <= 1.0
  {
    assert y in Adj(g, x);
    assert y in Elements(NeighborList(g, x));
    assert y !in Adj(g, y);
    NumeratorBound(g, x, y);
  }

  /**
   * In an unweighted graph the dependency of `x` on `y` is
   * (1 + |common neighbours| / 2) / degree(x), or 0 at degree 0.
   */
  lemma UnweightedDependency(g: Graph, x: Node, y: Node)
    requires !g.weighted
    ensures Degree(g, x) == 0 ==> Dependency(g, x, y) == 0.0
    ensures Degree(g, x) > 0 ==>
      Dependency(g, x, y) == (1.0 + |CommonNeighbors(g, x, y)| as real / 2.0) / Degree(g, x) as real
  {
    CardNoDup(CommonNeighborList(g, x, y));
  }

  /** In an unweighted graph a node whose only neighbour is `y` depends on `y` completely. */
  lemma LeafDependency(g: Graph, x: Node, y: Node)
    requires Valid(g) && !g.weighted && Neighbors(g, x) == {y}
    ensures Dependency(g, x, y) == 1.0
  {
    NeighborsAreEdges(g, y);
    assert CommonNeighbors(g, x, y) == {};
    UnweightedDependency(g, x, y);
  }
}

=== FILE: engine.dfy ===
/**
 * The dependency engine of `mdepstar/Mdepstar.py`: the dependency matrix
 * computed once by the constructor, `get_dependency`, the self-calibrating
 * threshold estimate, and the engine state (threshold and cached mDep
 * network).
 */
module DepEngine {
  import opened Wrappers
  import opened Seqs
  import opened Arith
  import opened Network
  import opened DependencyScore
  import opened Tolerance

  /**
   * The graph and `_dependency_matrix`, keyed by ordered pairs; the
   * constructor computes it once and nothing changes it afterwards.
   */
  datatype DepMatrix = DepMatrix(g: Graph, deps: map<Edge, real>)

  /**
   * `_calc_dependency_matrix`: both orientations of every listed edge, each
   * mapped to its dependency (later writes repeat the same value, so the
   * order of the writes does not matter).
   */
  function BuildMatrix(g: Graph, es: seq<Edge>): (m: map<Edge, real>)
    ensures forall p :: p in m <==> p in es || Flip(p) in es
    ensures forall p :: p in m ==> m[p] == Dependency(g, p.0, p.1)
  {
    if es == [] then map[]
    else
      var first := es[0];
      var rest := BuildMatrix(g, es[1..]);
      var m := rest[first := Dependency(g, first.0, first.1)][Flip(first) := Dependency(g, first.1, first.0)];
      assert forall p :: p in m <==> p in es || Flip(p) in es by {
        assert forall p :: p in es <==> p in es[1..] || p == first;
      }
      assert forall p :: p in m ==> m[p] == Dependency(g, p.0, p.1) by {
        forall p | p in m
          ensures m[p] == Dependency(g, p.0, p.1)
        {
          if p != Flip(first) && p != first {
            assert m[p] == rest[p];
          }
        }
      }
      m
  }

  /** Every edge of the graph has its matrix entry. */
  ghost predicate Covers(dm: DepMatrix) {
    forall a, b :: EdgeExists(dm.g, a, b) ==> (a, b) in dm.deps
  }

  /** Matrix keys come in both orientations and hold the dependency of the graph. */
  ghost predicate MatrixSound(dm: DepMatrix) {
    forall a, b :: (a, b) in dm.deps ==> (b, a) in dm.deps && dm.deps[(a, b)] == Dependency(dm.g, a, b)
  }

  /** The matrix keys are the listed edges, in both orientations. */
  ghost predicate KeysListed(dm: DepMatrix) {
    forall p :: p in dm.deps <==> p in dm.g.edges || Flip(p) in dm.g.edges
  }

  /** What construction establishes over a valid graph. */
  ghost predicate Ready(dm: DepMatrix) {
    Valid(dm.g) && Covers(dm) && MatrixSound(dm) && KeysListed(dm)
  }

  /**
   * `get_dependency(a, b)`: the matrix entry for an edge, a fresh
   * computation otherwise; on a sound matrix both are `_dependency(a, b)`.
   */
  function GetDependency(dm: DepMatrix, a: Node, b: Node): (r: real)
    requires Covers(dm)
    ensures MatrixSound(dm) ==> r == Dependency(dm.g, a, b)
  {
    if EdgeExists(dm.g, a, b) then dm.deps[(a, b)] else Dependency(dm.g, a, b)
  }

  /**
   * `get_dependency(a, b)` with the side effect of the `defaultdict` weight
   * store: for a pair that is not an edge of a weighted graph, `_dependency`
   * reads `weight(a, b)` once the weighted degree of `a` is non-zero, and the
   * read stores 0 under `(a, b)`. The value is the same, but the returned
   * matrix's graph now has `(a, b)` as an edge, with no matrix entry for it.
   */
  function GetDependencyAsWritten(dm: DepMatrix, a: Node, b: Node): (r: Result<(real, DepMatrix)>)
    ensures r.Err? <==> EdgeExists(dm.g, a, b) && (a, b) !in dm.deps
    ensures r.Err? ==> r.error == KeyError
    ensures Covers(dm) ==> r.Ok? && r.value.0 == GetDependency(dm, a, b)
    ensures r.Ok? ==> r.value.1.deps == dm.deps && r.value.1.g.adj == dm.g.adj && r.value.1.g.edges == dm.g.edges
    ensures r.Ok? ==> forall p :: p in dm.g.weights ==> p in r.value.1.g.weights && r.value.1.g.weights[p] == dm.g.weights[p]
    ensures r.Ok? && (a, b) in r.value.1.g.weights && (a, b) !in dm.g.weights ==> dm.g.weighted && WeightedDegree(dm.g, a) != 0.0
    ensures r.Ok? ==> r.value.1.g.weights.Keys <= dm.g.weights.Keys + {(a, b)}
  {
    if EdgeExists(dm.g, a, b) then
      if (a, b) in dm.deps then Ok((dm.deps[(a, b)], dm)) else Err(KeyError)
    else
      var d := Dependency(dm.g, a, b);
      if dm.g.weighted && WeightedDegree(dm.g, a) != 0.0 then
        Ok((d, DepMatrix(dm.g.(weights := dm.g.weights[(a, b) := 0.0]), dm.deps)))
      else
        Ok((d, dm))
  }

  /**
   * Reading the same non-edge twice: the first read returns the dependency
   * and turns the pair into an edge of the stored graph, so the second read
   * looks the pair up in the matrix and raises `KeyError`.
   */
  lemma RepeatedNonEdgeRead(dm: DepMatrix, a: Node, b: Node)
    requires Ready(dm) && ExactEdges(dm.g) && dm.g.weighted
    requires !EdgeExists(dm.g, a, b) && WeightedDegree(dm.g, a) != 0.0
    ensures var r1 := GetDependencyAsWritten(dm, a, b);
      && r1.Ok? && r1.value.0 == GetDependency(dm, a, b)
      && EdgeExists(r1.value.1.g, a, b)
      && GetDependencyAsWritten(r1.value.1, a, b) == Err(KeyError)
  {
    assert (a, b) !in dm.g.edges;
    assert (b, a) !in dm.g.edges by {
      assert (b, a) !in dm.g.weights;
    }
  }

  /** The pure read: the same matrix gives the same answer however often the pair is read. */
  lemma GetDependencyRepeatable(dm: DepMatrix, a: Node, b: Node)
    requires Covers(dm) && MatrixSound(dm)
    ensures GetDependency(dm, a, b) == Dependency(dm.g, a, b)
    ensures var r1 := GetDependencyAsWritten(dm, a, b);
      r1.Ok? && r1.value.0 == GetDependency(dm, a, b)
  {
  }

  /** The pair `(get_dependency(a, b), get_dependency(b, a))` of every listed edge `(a, b)`. */
  function PairDeps(dm: DepMatrix, es: seq<Edge>): (r: seq<(real, real)>)
    requires Covers(dm)
    ensures |r| == |es|
  {
    seq(|es|, i requires 0 <= i < |es| => (GetDependency(dm, es[i].0, es[i].1), GetDependency(dm, es[i].1, es[i].0)))
  }

  /** Both dependencies of every pair lie in [0, 1]. */
  predicate InUnit(ds: seq<(real, real)>) {
    forall i :: 0 <= i < |ds| ==> 0.0 <= ds[i].0 <= 1.0 && 0.0 <= ds[i].1 <= 1.0
  }

  lemma InUnitTail(ds: seq<(real, real)>)
    requires InUnit(ds) && ds != []
    ensures InUnit(ds[1..]) && 0.0 <= ds[0].0 <= 1.0 && 0.0 <= ds[0].1 <= 1.0
  {
    forall i | 0 <= i < |ds[1..]|
      ensures 0.0 <= ds[1..][i].0 <= 1.0 && 0.0 <= ds[1..][i].1 <= 1.0
    {
      assert ds[1..][i] == ds[i + 1];
    }
  }

  /** `min(d1, d2)`, the weight a pair gets in the estimate. */
  function PairWeight(p: (real, real)): real {
    if p.0 <= p.1 then p.0 else p.1
  }

  /** `(d1 + d2) / 2`, the pair's mean dependency. */
  function PairMean(p: (real, real)): real {
    (p.0 + p.1) / 2.0
  }

  /** `min(d1, d2) * (d1 + d2) / 2`, the pair's weighted mean; never above its weight. */
  function PairTerm(p: (real, real)): (r: real)
    ensures 0.0 <= p.0 <= 1.0 && 0.0 <= p.1 <= 1.0 ==> 0.0 <= r <= PairWeight(p)
  {
    assert 0.0 <= p.0 <= 1.0 && 0.0 <= p.1 <= 1.0 ==> 0.0 <= PairWeight(p) * PairMean(p) <= PairWeight(p) by {
      if 0.0 <= p.0 <= 1.0 && 0.0 <= p.1 <= 1.0 {
        ScaleByUnit(PairWeight(p), PairMean(p));
      }
    }
    PairWeight(p) * PairMean(p)
  }

  /** The sum of the weights, `wts` of `_estimate_dependency`. */
  function WeightTotal(ds: seq<(real, real)>): (r: real)
    ensures InUnit(ds) ==> 0.0 <= r
  {
    if ds == [] then 0.0
    else
      assert InUnit(ds) ==> InUnit(ds[1..]) && 0.0 <= ds[0].0 && 0.0 <= ds[0].1 by {
        if InUnit(ds) {
          InUnitTail(ds);
        }
      }
      PairWeight(ds[0]) + WeightTotal(ds[1..])
  }

  /** The weighted sum of the means, `ws` of `_estimate_dependency`; never above the weight total. */
  function WeightedTotal(ds: seq<(real, real)>): (r: real)
    ensures InUnit(ds) ==> 0.0 <= r <= WeightTotal(ds)
  {
    if ds == [] then 0.0
    else
      assert InUnit(ds) ==> InUnit(ds[1..]) && 0.0 <= PairTerm(ds[0]) <= PairWeight(ds[0]) by {
        if InUnit(ds) {
          InUnitTail(ds);
        }
      }
      PairTerm(ds[0]) + WeightedTotal(ds[1..])
  }

  /**
   * The estimate over dependency pairs: half the weighted mean of the
   * pairs' means, and 1 when the weights sum to 0. With dependencies in
   * [0, 1] it lies in [0, 1/2] unless it is 1.
   */
  function Estimate(ds: seq<(real, real)>): (r: real)
    ensures WeightTotal(ds) == 0.0 ==> r == 1.0
    ensures InUnit(ds) ==> r == 1.0 || 0.0 <= r <= 0.5
  {
    var wts := WeightTotal(ds);
    if wts == 0.0 then 1.0
    else
      var ws := WeightedTotal(ds);
      assert InUnit(ds) ==> 0.0 <= ws / wts <= 1.0 by {
        if InUnit(ds) {
          DivInUnit(ws, wts);
        }
      }
      ws / wts / 2.0
  }


  /** `_estimate_dependency(es)`. */
  function EstimateDependency(dm: DepMatrix, es: seq<Edge>): (r: real)
    requires Covers(dm)
    ensures InUnit(PairDeps(dm, es)) ==> r == 1.0 || 0.0 <= r <= 0.5
  {
    Estimate(PairDeps(dm, es))
  }

  /** Every pair has dependency `d` in both directions. */
  predicate Uniform(ds: seq<(real, real)>, d: real) {
    forall i :: 0 <= i < |ds| ==> ds[i] == (d, d)
  }

  lemma {:induction false} UniformWeights(ds: seq<(real, real)>, d: real)
    requires Uniform(ds, d)
    ensures WeightTotal(ds) == Rep(|ds|, d)
  {
    if ds != [] {
      assert Uniform(ds[1..], d) by {
        assert forall i :: 0 <= i < |ds[1..]| ==> ds[1..][i] == ds[i + 1];
      }
      UniformWeights(ds[1..], d);
      assert ds[0] == (d, d);
    }
  }

  lemma {:induction false} UniformTerms(ds: seq<(real, real)>, d: real)
    requires Uniform(ds, d)
    ensures WeightedTotal(ds) == Rep(|ds|, PairTerm((d, d)))
  {
    if ds != [] {
      assert Uniform(ds[1..], d) by {
        assert forall i :: 0 <= i < |ds[1..]| ==> ds[1..][i] == ds[i + 1];
      }
      UniformTerms(ds[1..], d);
      assert ds[0] == (d, d);
    }
  }

  /** Away from the zero-weight case the estimate is half the ratio of the two totals. */
  lemma EstimateOfTotals(ds: seq<(real, real)>)
    requires WeightTotal(ds) != 0.0
    ensures Estimate(ds) == WeightedTotal(ds) / WeightTotal(ds) / 2.0
  {
  }

  lemma PairTermDiagonal(d: real)
    ensures PairTerm((d, d)) == d * d
  {
    var w := PairWeight((d, d));
    var m := PairMean((d, d));
    assert w == d && m == d;
    assert PairTerm((d, d)) == w * m;
  }

  /** With uniform pairs the weighted mean of the means is `d`. */
  lemma UniformRatio(ds: seq<(real, real)>, d: real)
    requires Uniform(ds, d) && d > 0.0 && ds != []
    ensures WeightTotal(ds) > 0.0 && WeightedTotal(ds) / WeightTotal(ds) == d
  {
    UniformWeights(ds, d);
    UniformTerms(ds, d);
    PairTermDiagonal(d);
    RepRatio(|ds|, d);
  }

  /** When every listed pair depends on each other by `d > 0`, the estimate is `d / 2`. */
  lemma UniformEstimate(ds: seq<(real, real)>, d: real)
    requires Uniform(ds, d) && d > 0.0 && ds != []
    ensures Estimate(ds) == d / 2.0
  {
    UniformRatio(ds, d);
    EstimateOfTotals(ds);
  }

  /**
   * Calibrating on edges of a valid graph with non-negative weights gives
   * 1 or a value in [0, 1/2], since every dependency along an edge is in [0, 1].
   */
  lemma CalibratedInRange(dm: DepMatrix, es: seq<Edge>)
    requires Ready(dm) && NonNegative(dm.g)
    requires forall i :: 0 <= i < |es| ==> EdgeExists(dm.g, es[i].0, es[i].1)
    ensures var r := EstimateDependency(dm, es); r == 1.0 || 0.0 <= r <= 0.5
  {
    var ds := PairDeps(dm, es);
    forall i | 0 <= i < |ds|
      ensures 0.0 <= ds[i].0 <= 1.0 && 0.0 <= ds[i].1 <= 1.0
    {
      var (a, b) := es[i];
      assert EdgeExists(dm.g, b, a) by {
        assert Symmetric(dm.g);
      }
      DependencyInUnit(dm.g, a, b);
      DependencyInUnit(dm.g, b, a);
    }
  }

  /* ---------------------------------------------------------------- */
  /* Engine state                                                      */
  /* ---------------------------------------------------------------- */

  /**
   * An `mDepStar` object: the matrix, `_dependency_threshold` (`None` until
   * set or first read) and `_mDep_network_dict`, kept here as the network
   * `get_mDep_network` builds from it (`None` until first built).
   */
  datatype Engine = Engine(dm: DepMatrix, threshold: Option<real>, cache: Option<Graph>)

  /** The constructor's `dependency` argument. */
  datatype ThresholdArg =
    | FloatArg(t: real)          // a float: used as the threshold
    | EdgeListArg(es: seq<Edge>) // a list of edges: the estimate over them
    | IntArg(n: int)             // an int: not a float, so ignored
    | NoArg                      // None

  /** The engine invariant the properties of the model rest on: a ready matrix over a valid graph. */
  ghost predicate EngineReady(e: Engine) {
    Ready(e.dm)
  }

  /**
   * What the constructor leaves over any graph `add_edge` builds, self-loops
   * included: a sound matrix over the listed edges, so that the matrix holds
   * both orientations of every pair of neighbours.
   */
  ghost predicate EngineBuilt(e: Engine) {
    Built(e.dm.g) && Covers(e.dm) && MatrixSound(e.dm) && KeysListed(e.dm)
  }

  /**
   * The constructor `mDepStar(graph, dependency)`, over any graph whose
   * edges are all listed (every graph `add_edge` and `remove_edge` build);
   * the engine invariant holds when the graph is also valid.
   */
  function NewEngine(g: Graph, arg: ThresholdArg): (r: Engine)
    requires Covered(g)
    ensures r.dm.g == g && r.cache == None
    ensures Covers(r.dm) && MatrixSound(r.dm) && KeysListed(r.dm)
    ensures Built(g) ==> EngineBuilt(r)
    ensures Valid(g) ==> EngineReady(r)
    ensures forall p :: p in r.dm.deps <==> p in g.edges || Flip(p) in g.edges
    ensures arg.FloatArg? ==> r.threshold == Some(arg.t)
    ensures arg.EdgeListArg? ==> r.threshold == Some(EstimateDependency(r.dm, arg.es))
    ensures arg.IntArg? || arg.NoArg? ==> r.threshold == None
  {
    var dm := DepMatrix(g, BuildMatrix(g, g.edges));
    var t := match arg
      case FloatArg(t) => Some(t)
      case EdgeListArg(es) => Some(EstimateDependency(dm, es))
      case _ => None;
    Engine(dm, t, None)
  }

  /**
   * The `dependency_threshold` property: the stored value, or the estimate
   * over `edges()` rounded to three decimals when none is stored (the
   * property stores it on first read; the value is the same on every read).
   */
  function Threshold(e: Engine): (r: real)
    requires Covers(e.dm)
    ensures e.threshold.Some? ==> r == e.threshold.value
  {
    match e.threshold
    case Some(t) => t
    case None => Round3(EstimateDependency(e.dm, e.dm.g.edges))
  }

  /**
   * Without a stored value the threshold is a multiple of 1/1000 within
   * 1/2000 of the estimate over `edges()`.
   */
  lemma ThresholdCalibrated(e: Engine)
    requires Covers(e.dm) && e.threshold.None?
    ensures var r := Threshold(e);
      && Abs(r - EstimateDependency(e.dm, e.dm.g.edges)) <= 0.0005
      && OnGrid(r)
  {
    var x := EstimateDependency(e.dm, e.dm.g.edges);
    var r := Round3(x);
    assert Threshold(e) == r;
  }

  /** A calibrated threshold on a graph with non-negative weights is 1 or within [0, 1/2]. */
  lemma CalibratedThreshold(e: Engine)
    requires EngineReady(e) && NonNegative(e.dm.g) && e.threshold.None?
    requires forall i :: 0 <= i < |e.dm.g.edges| ==> EdgeExists(e.dm.g, e.dm.g.edges[i].0, e.dm.g.edges[i].1)
    ensures var t := Threshold(e); t == 1.0 || 0.0 <= t <= 0.5
  {
    var x := EstimateDependency(e.dm, e.dm.g.edges);
    CalibratedInRange(e.dm, e.dm.g.edges);
    assert Threshold(e) == Round3(x);
    Round3Ends(x);
  }

  /** An `int` argument is not a float: the threshold is calibrated as if none were given. */
  lemma IntArgIgnored(g: Graph, n: int)
    requires Covered(g)
    ensures Threshold(NewEngine(g, IntArg(n))) == Threshold(NewEngine(g, NoArg))
  {
  }
}

=== FILE: mdep.dfy ===
/**
 * The set-level rules of `mdepstar/Mdepstar.py`: the per-node dependency
 * counts, the mDep network of mutually dependent pairs (and its cache), and
 * the complexes grown around its nodes.
 */
module MDep {
  import opened Wrappers
  import opened Seqs
  import opened Network
  import opened DependencyScore
  import opened Tolerance
  import opened DepEngine

  /* ---------------------------------------------------------------- */
  /* get_node_deps                                                     */
  /* ---------------------------------------------------------------- */

  /** The four kinds of pair `get_node_deps` counts. */
  datatype Bucket = MutualDep | NoDep | NodeOnNeighbor | NeighborOnNode

  /** The four counters `get_node_deps` returns, in its order. */
  datatype NodeDeps = NodeDeps(mutual: nat, noDep: nat, nodeOnNeighbor: nat, neighborOnNode: nat)

  function Total(c: NodeDeps): nat {
    c.mutual + c.noDep + c.nodeOnNeighbor + c.neighborOnNode
  }

  function Bump(c: NodeDeps, b: Bucket): (r: NodeDeps)
    ensures Total(r) == Total(c) + 1
  {
    match b
    case MutualDep => c.(mutual := c.mutual + 1)
    case NoDep => c.(noDep := c.noDep + 1)
    case NodeOnNeighbor => c.(nodeOnNeighbor := c.nodeOnNeighbor + 1)
    case NeighborOnNode => c.(neighborOnNode := c.neighborOnNode + 1)
  }

  /**
   * The branch chain of `get_node_deps` for one neighbour, as written: a
   * strict `<` test for "no dependency" first, then the tolerant comparison
   * for the other three; `None` when no branch is taken. Some branch is
   * always taken: the last guard holds whenever the earlier ones fail.
   */
  function ClassifyAsWritten(d1: real, d2: real, t: real): (r: Option<Bucket>)
    ensures r.Some?
  {
    if d1 < t && d2 < t then Some(NoDep)
    else if GreaterOrEqual(d1, t) && GreaterOrEqual(d2, t) then Some(MutualDep)
    else if GreaterOrEqual(d1, t) then Some(NodeOnNeighbor)
    else
      assert GreaterOrEqual(d2, t) by {
        GreaterOrEqualCases(d1, t);
        GreaterOrEqualCases(d2, t);
      }
      if GreaterOrEqual(d2, t) then Some(NeighborOnNode) else None
  }

  /** The classification with one comparison throughout: the tolerant one. */
  function Classify(d1: real, d2: real, t: real): (r: Bucket)
    ensures !(d1 < t && d2 < t) ==> ClassifyAsWritten(d1, d2, t) == Some(r)
    ensures r == NoDep ==> d1 < t && d2 < t
  {
    match (GreaterOrEqual(d1, t), GreaterOrEqual(d2, t))
    case (true, true) => MutualDep
    case (true, false) => NodeOnNeighbor
    case (false, true) => NeighborOnNode
    case (false, false) => NoDep
  }

  /**
   * The two classifications disagree exactly on pairs whose dependencies
   * are both below `t` while one of them is within the tolerance of it.
   */
  lemma ClassifyAgreement(d1: real, d2: real, t: real)
    ensures ClassifyAsWritten(d1, d2, t) == Some(Classify(d1, d2, t))
      <==> !(d1 < t && d2 < t && (GreaterOrEqual(d1, t) || GreaterOrEqual(d2, t)))
  {
    GreaterOrEqualCases(d1, t);
    GreaterOrEqualCases(d2, t);
  }

  /** The corrected classification puts a pair in the mutual bucket exactly when both directions pass. */
  lemma ClassifyMutual(d1: real, d2: real, t: real)
    ensures Classify(d1, d2, t) == MutualDep <==> GreaterOrEqual(d1, t) && GreaterOrEqual(d2, t)
    ensures Classify(d1, d2, t) == NoDep <==> !GreaterOrEqual(d1, t) && !GreaterOrEqual(d2, t)
  {
  }

  /** `(dependency(v, n), dependency(n, v))` from the matrix, for each `n` in `ns`. */
  function NeighborDeps(dm: DepMatrix, v: Node, ns: seq<Node>): (r: seq<(real, real)>)
    requires forall n :: n in ns ==> (v, n) in dm.deps && (n, v) in dm.deps
    ensures |r| == |ns|
  {
    if ns == [] then []
    else [(dm.deps[(v, ns[0])], dm.deps[(ns[0], v)])] + NeighborDeps(dm, v, ns[1..])
  }

  /** The four counters after counting each bucket in `bs`; `None` counts nowhere. */
  function Tally(bs: seq<Option<Bucket>>): (r: NodeDeps)
    ensures Total(r) <= |bs|
    ensures (forall i :: 0 <= i < |bs| ==> bs[i].Some?) ==> Total(r) == |bs|
  {
    if bs == [] then NodeDeps(0, 0, 0, 0)
    else
      var rest := Tally(bs[1..]);
      assert (forall i :: 0 <= i < |bs| ==> bs[i].Some?) ==> (forall i :: 0 <= i < |bs[1..]| ==> bs[1..][i].Some?) by {
        assert forall i :: 0 <= i < |bs[1..]| ==> bs[1..][i] == bs[i + 1];
      }
      if bs[0].Some? then Bump(rest, bs[0].value) else rest
  }

  /** One classified pair is counted once, in its own bucket. */
  lemma TallySingle(b: Bucket)
    ensures Tally([Some(b)]) == Bump(NodeDeps(0, 0, 0, 0), b)
  {
    assert [Some(b)][1..] == [];
  }

  /** The bucket of every pair under the as-written branch chain. */
  function ClassifyAllAsWritten(ps: seq<(real, real)>, t: real): (r: seq<Option<Bucket>>)
    ensures |r| == |ps|
    ensures forall i :: 0 <= i < |r| ==> r[i].Some?
  {
    if ps == [] then [] else [ClassifyAsWritten(ps[0].0, ps[0].1, t)] + ClassifyAllAsWritten(ps[1..], t)
  }

  /** The bucket of every pair under the corrected classification. */
  function ClassifyAll(ps: seq<(real, real)>, t: real): (r: seq<Option<Bucket>>)
    ensures |r| == |ps|
    ensures forall i :: 0 <= i < |r| ==> r[i].Some?
  {
    if ps == [] then [] else [Some(Classify(ps[0].0, ps[0].1, t))] + ClassifyAll(ps[1..], t)
  }

  /**
   * Neighbours of `v` are matrix keys in both orientations once the graph
   * is built and the keys are its listed edges, self-loops included.
   */
  lemma NeighborsAreKeys(dm: DepMatrix, v: Node)
    requires Built(dm.g) && KeysListed(dm)
    ensures forall n :: n in NeighborList(dm.g, v) ==> (v, n) in dm.deps && (n, v) in dm.deps
  {
    var g := dm.g;
    forall n | n in NeighborList(g, v)
      ensures (v, n) in dm.deps && (n, v) in dm.deps
    {
      assert n in Elements(NeighborList(g, v));
      assert n in Adj(g, v);
      assert (v, n) in g.weights;
    }
  }

  /**
   * `get_node_deps(v)` as written: one count per neighbour, so the four
   * counters add up to the degree of `v`.
   */
  function GetNodeDepsAsWritten(e: Engine, v: Node): (r: NodeDeps)
    requires EngineBuilt(e)
    ensures Total(r) == Degree(e.dm.g, v)
  {
    NeighborsAreKeys(e.dm, v);
    Tally(ClassifyAllAsWritten(NeighborDeps(e.dm, v, NeighborList(e.dm.g, v)), Threshold(e)))
  }

  /** `get_node_deps(v)` with the corrected classification; the counters add up to the degree. */
  function GetNodeDeps(e: Engine, v: Node): (r: NodeDeps)
    requires EngineBuilt(e)
    ensures Total(r) == Degree(e.dm.g, v)
  {
    NeighborsAreKeys(e.dm, v);
    Tally(ClassifyAll(NeighborDeps(e.dm, v, NeighborList(e.dm.g, v)), Threshold(e)))
  }

  /* ---------------------------------------------------------------- */
  /* The mDep network                                                  */
  /* ---------------------------------------------------------------- */

  /** Both orientations of every listed pair are matrix keys. */
  ghost predicate PairsAreKeys(dm: DepMatrix, es: seq<Edge>) {
    forall p :: p in es ==> p in dm.deps && Flip(p) in dm.deps
  }

  /** No listed pair joins a node to itself. */
  ghost predicate PairsLoopFree(es: seq<Edge>) {
    forall p :: p in es ==> p.0 != p.1
  }

  /** `p` is listed in one of its orientations. */
  ghost predicate Listed(p: Edge, es: seq<Edge>) {
    p in es || Flip(p) in es
  }

  /** Both directions of a pair pass the tolerant comparison against `t`. */
  predicate Passes(dm: DepMatrix, t: real, p: Edge)
    requires p in dm.deps && Flip(p) in dm.deps
  {
    GreaterOrEqual(dm.deps[p], t) && GreaterOrEqual(dm.deps[Flip(p)], t)
  }

  /** Every stored weight is 1, as `add_edge(a, b, 1)` leaves it. */
  ghost predicate UnitWeights(g: Graph) {
    forall p :: p in g.weights ==> g.weights[p] == 1.0
  }

  /**
   * `_get_mDep_network` followed by `get_mDep_network`: `add_edge(a, b, 1)`
   * for every matrix key whose two directions pass. The matrix keys are the
   * listed edges in both orientations and the test is the same for both, so
   * one pass over the listed edges adds the same edges.
   */
  function MDepFold(dm: DepMatrix, t: real, es: seq<Edge>, acc: Graph): (r: Graph)
    requires PairsAreKeys(dm, es)
    ensures r.weighted == acc.weighted
  {
    if es == [] then acc
    else
      var p := es[0];
      var acc' := if Passes(dm, t, p) then AddEdge(acc, p.0, p.1, 1.0) else acc;
      MDepFold(dm, t, es[1..], acc')
  }

  /** The fold keeps every graph invariant and an exact edge listing. */
  lemma {:induction false} MDepFoldValid(dm: DepMatrix, t: real, es: seq<Edge>, acc: Graph)
    requires PairsAreKeys(dm, es) && PairsLoopFree(es) && Valid(acc) && ExactEdges(acc)
    ensures Valid(MDepFold(dm, t, es, acc)) && ExactEdges(MDepFold(dm, t, es, acc))
  {
    if es != [] {
      var p := es[0];
      if Passes(dm, t, p) {
        AddEdgeValid(acc, p.0, p.1, 1.0);
        AddEdgeExact(acc, p.0, p.1, 1.0);
      }
      MDepFoldValid(dm, t, es[1..], if Passes(dm, t, p) then AddEdge(acc, p.0, p.1, 1.0) else acc);
    }
  }

  /** The fold adds exactly the listed pairs that pass, each with weight 1. */
  lemma {:induction false} MDepFoldEdges(dm: DepMatrix, t: real, es: seq<Edge>, acc: Graph)
    requires PairsAreKeys(dm, es) && PairsLoopFree(es) && Symmetric(acc) && LoopFree(acc) && UnitWeights(acc)
    ensures var r := MDepFold(dm, t, es, acc);
      && UnitWeights(r)
      && forall p :: p in r.weights <==> p in acc.weights || (Listed(p, es) && Passes(dm, t, p))
  {
    if es != [] {
      var p := es[0];
      var acc' := if Passes(dm, t, p) then AddEdge(acc, p.0, p.1, 1.0) else acc;
      if Passes(dm, t, p) {
        AddEdgeFrame(acc, p.0, p.1, 1.0);
        AddEdgeSymmetric(acc, p.0, p.1, 1.0);
      }
      assert PairsAreKeys(dm, es[1..]) && PairsLoopFree(es[1..]);
      MDepFoldEdges(dm, t, es[1..], acc');
      forall q
        ensures Listed(q, es) <==> q == p || Flip(q) == p || Listed(q, es[1..])
      {
        assert q in es <==> q == p || q in es[1..];
        assert Flip(q) in es <==> Flip(q) == p || Flip(q) in es[1..];
      }
    }
  }

  /**
   * The fold over any pairs, loops included, adds exactly the listed pairs
   * that pass, each with weight 1, and keeps the weights symmetric.
   */
  lemma {:induction false} MDepFoldKeys(dm: DepMatrix, t: real, es: seq<Edge>, acc: Graph)
    requires PairsAreKeys(dm, es) && Symmetric(acc) && UnitWeights(acc)
    ensures var r := MDepFold(dm, t, es, acc);
      && Symmetric(r) && UnitWeights(r)
      && forall p :: p in r.weights <==> p in acc.weights || (Listed(p, es) && Passes(dm, t, p))
  {
    if es != [] {
      var p := es[0];
      var acc' := if Passes(dm, t, p) then AddEdge(acc, p.0, p.1, 1.0) else acc;
      if Passes(dm, t, p) {
        AddEdgeFrame(acc, p.0, p.1, 1.0);
        AddEdgeKeepsSymmetric(acc, p.0, p.1, 1.0);
      }
      assert PairsAreKeys(dm, es[1..]);
      MDepFoldKeys(dm, t, es[1..], acc');
      forall q
        ensures Listed(q, es) <==> q == p || Flip(q) == p || Listed(q, es[1..])
      {
        assert q in es <==> q == p || q in es[1..];
        assert Flip(q) in es <==> Flip(q) == p || Flip(q) in es[1..];
      }
    }
  }

  /** `_get_mDep_network()` at threshold `t`: the fold over `edges()` from an empty network. */
  function MDepGraph(dm: DepMatrix, t: real): (r: Graph)
    requires KeysListed(dm)
    ensures !r.weighted
  {
    assert PairsAreKeys(dm, dm.g.edges);
    MDepFold(dm, t, dm.g.edges, EmptyGraph)
  }

  /**
   * Loops included, the mDep network joins exactly the matrix keys whose two
   * directions pass, each with weight 1.
   */
  lemma MDepGraphKeys(dm: DepMatrix, t: real)
    requires KeysListed(dm)
    ensures var r := MDepGraph(dm, t);
      && UnitWeights(r)
      && forall p: Edge :: EdgeExists(r, p.0, p.1) <==> p in dm.deps && Passes(dm, t, p)
  {
    assert PairsAreKeys(dm, dm.g.edges);
    MDepFoldKeys(dm, t, dm.g.edges, EmptyGraph);
    assert forall p: Edge :: Listed(p, dm.g.edges) <==> p in dm.deps;
  }

  /** `MDepGraphSpec` for a graph whose listed edges may include loops. */
  lemma MDepGraphSpecIfLoopFree(dm: DepMatrix, t: real)
    requires KeysListed(dm)
    ensures PairsLoopFree(dm.g.edges) ==>
      var r := MDepGraph(dm, t);
      && Valid(r) && ExactEdges(r) && UnitWeights(r)
      && forall p: Edge :: EdgeExists(r, p.0, p.1) <==> p in dm.deps && Passes(dm, t, p)
  {
    if PairsLoopFree(dm.g.edges) {
      MDepGraphSpec(dm, t);
    }
  }

  /**
   * `get_mDep_network()` computed afresh at the engine's threshold: an
   * unweighted network whose edges are the matrix keys passing in both
   * directions, loops included, and a valid one when no listed edge is a loop.
   */
  function MDepNetwork(e: Engine): (r: Graph)
    requires EngineBuilt(e)
    ensures !r.weighted && UnitWeights(r)
    ensures forall p: Edge :: EdgeExists(r, p.0, p.1) <==> p in e.dm.deps && Passes(e.dm, Threshold(e), p)
    ensures PairsLoopFree(e.dm.g.edges) ==> Valid(r) && ExactEdges(r)
  {
    MDepGraphKeys(e.dm, Threshold(e));
    MDepGraphSpecIfLoopFree(e.dm, Threshold(e));
    MDepGraph(e.dm, Threshold(e))
  }

  /** The matrix keys of a ready matrix are loop-free when the listed edges are. */
  lemma KeysLoopFree(dm: DepMatrix)
    requires Ready(dm) && PairsLoopFree(dm.g.edges)
    ensures forall p :: p in dm.deps ==> p.0 != p.1
  {
  }

  /** An exact edge listing of a valid graph joins no node to itself. */
  lemma ExactLoopFree(g: Graph)
    requires Valid(g) && ExactEdges(g)
    ensures PairsLoopFree(g.edges)
  {
    forall p | p in g.edges
      ensures p.0 != p.1
    {
      assert p in g.weights;
    }
  }

  /** The fold from an empty network: a valid unweighted graph joining exactly the listed pairs that pass. */
  lemma MDepFoldSpec(dm: DepMatrix, t: real, es: seq<Edge>)
    requires PairsAreKeys(dm, es) && PairsLoopFree(es)
    ensures var r := MDepFold(dm, t, es, EmptyGraph);
      && Valid(r) && ExactEdges(r) && UnitWeights(r)
      && forall p :: p in r.weights <==> Listed(p, es) && Passes(dm, t, p)
  {
    EmptyGraphValid();
    MDepFoldValid(dm, t, es, EmptyGraph);
    MDepFoldEdges(dm, t, es, EmptyGraph);
  }

  /**
   * The mDep network is a valid unweighted graph with exact edge listing
   * whose edges are exactly the matrix keys passing in both directions, each
   * with weight 1.
   */
  lemma MDepGraphSpec(dm: DepMatrix, t: real)
    requires KeysListed(dm) && PairsLoopFree(dm.g.edges)
    ensures var r := MDepGraph(dm, t);
      && Valid(r) && ExactEdges(r) && UnitWeights(r)
      && forall p: Edge :: EdgeExists(r, p.0, p.1) <==> p in dm.deps && Passes(dm, t, p)
  {
    var es := dm.g.edges;
    assert PairsAreKeys(dm, es);
    MDepFoldSpec(dm, t, es);
    forall p: Edge
      ensures Listed(p, es) <==> p in dm.deps
    {
    }
  }

  /**
   * When every listed edge exists, the mDep network is a subgraph of the
   * graph: an mDep edge is a graph edge whose two dependencies pass.
   */
  lemma MDepGraphEdges(dm: DepMatrix, t: real)
    requires Ready(dm) && ExactEdges(dm.g)
    ensures forall a, b :: EdgeExists(MDepGraph(dm, t), a, b) <==>
      EdgeExists(dm.g, a, b) && Passes(dm, t, (a, b))
  {
    var g := dm.g;
    ExactLoopFree(g);
    MDepGraphSpec(dm, t);
    forall a, b
      ensures (a, b) in dm.deps <==> EdgeExists(g, a, b)
    {
      if (a, b) in g.edges {
        assert (a, b) in g.weights;
      } else if (b, a) in g.edges {
        assert (b, a) in g.weights;
      }
    }
  }

  /** The neighbours in `ns` whose pair with `v` passes in both directions. */
  ghost function MutualIn(dm: DepMatrix, t: real, v: Node, ns: seq<Node>): set<Node>
    requires forall n :: n in ns ==> (v, n) in dm.deps && (n, v) in dm.deps
  {
    set n | n in ns && Passes(dm, t, (v, n))
  }

  /** The corrected mutual counter counts exactly the neighbours whose pair passes. */
  lemma {:induction false} TallyMutual(dm: DepMatrix, t: real, v: Node, ns: seq<Node>)
    requires NoDup(ns) && forall n :: n in ns ==> (v, n) in dm.deps && (n, v) in dm.deps
    ensures Tally(ClassifyAll(NeighborDeps(dm, v, ns), t)).mutual == |MutualIn(dm, t, v, ns)|
  {
    if ns != [] {
      var n := ns[0];
      var ps := NeighborDeps(dm, v, ns);
      assert ps[1..] == NeighborDeps(dm, v, ns[1..]);
      var bs := ClassifyAll(ps, t);
      assert bs[1..] == ClassifyAll(ps[1..], t);
      assert NoDup(ns[1..]) && n !in ns[1..];
      TallyMutual(dm, t, v, ns[1..]);
      ClassifyMutual(ps[0].0, ps[0].1, t);
      var rest := MutualIn(dm, t, v, ns[1..]);
      assert forall m :: m in ns <==> m == n || m in ns[1..];
      if Passes(dm, t, (v, n)) {
        assert MutualIn(dm, t, v, ns) == rest + {n};
      } else {
        assert MutualIn(dm, t, v, ns) == rest;
      }
    }
  }

  /** The mDep neighbours of `v` are its graph neighbours whose pair passes. */
  lemma MDepNeighbors(dm: DepMatrix, t: real, v: Node)
    requires Ready(dm) && ExactEdges(dm.g)
    ensures forall n :: n in NeighborList(dm.g, v) ==> (v, n) in dm.deps && (n, v) in dm.deps
    ensures Neighbors(MDepGraph(dm, t), v) == MutualIn(dm, t, v, NeighborList(dm.g, v))
  {
    var g := dm.g;
    var m := MDepGraph(dm, t);
    var ns := NeighborList(g, v);
    NeighborsAreKeys(dm, v);
    assert forall n :: n in Neighbors(m, v) <==> EdgeExists(m, v, n) by {
      ExactLoopFree(g);
      MDepGraphSpec(dm, t);
      NeighborsAreEdges(m, v);
    }
    assert forall n :: n in ns <==> EdgeExists(g, v, n) by {
      NeighborsAreEdges(g, v);
      assert forall n :: n in ns <==> n in Elements(ns);
    }
    assert forall n :: EdgeExists(m, v, n) <==> EdgeExists(g, v, n) && Passes(dm, t, (v, n)) by {
      MDepGraphEdges(dm, t);
    }
  }

  /**
   * With the corrected classification, the mutual counter of a node is its
   * degree in the mDep network.
   */
  lemma NodeDepsMatchMDep(e: Engine, v: Node)
    requires EngineReady(e) && ExactEdges(e.dm.g)
    ensures GetNodeDeps(e, v).mutual == Degree(MDepNetwork(e), v)
  {
    var t := Threshold(e);
    MDepNeighbors(e.dm, t, v);
    TallyMutual(e.dm, t, v, NeighborList(e.dm.g, v));
  }

  /* ---------------------------------------------------------------- */
  /* The cached mDep network and the threshold setter                  */
  /* ---------------------------------------------------------------- */

  /** The cache, when filled, holds the network for the current threshold. */
  ghost predicate CacheFresh(e: Engine)
    requires EngineBuilt(e)
  {
    e.cache.None? || e.cache.value == MDepNetwork(e)
  }

  /**
   * `get_mDep_network()`: the cached network when there is one, otherwise
   * the network computed now and stored. On a fresh cache it is the network
   * for the current threshold.
   */
  function GetMDepNetwork(e: Engine): (r: (Graph, Engine))
    requires EngineBuilt(e)
    ensures EngineBuilt(r.1) && r.1.dm == e.dm && r.1.threshold == e.threshold
    ensures r.1.cache == Some(r.0)
    ensures CacheFresh(e) ==> r.0 == MDepNetwork(e) && CacheFresh(r.1)
  {
    match e.cache
    case Some(n) => (n, e)
    case None =>
      var n := MDepNetwork(e);
      var e' := e.(cache := Some(n));
      assert Threshold(e') == Threshold(e);
      (n, e')
  }

  /** The `dependency_threshold` setter as written: it leaves the cached network in place. */
  function SetThreshold(e: Engine, t: real): (r: Engine)
    ensures r.dm == e.dm && r.cache == e.cache
    ensures Covers(e.dm) ==> Threshold(r) == t
  {
    e.(threshold := Some(t))
  }

  /** The setter with the cache dropped, so that the next network is built at the new threshold. */
  function SetThresholdFixed(e: Engine, t: real): (r: Engine)
    ensures r.dm == e.dm
    ensures Covers(e.dm) ==> Threshold(r) == t
    ensures EngineBuilt(e) ==> CacheFresh(r) && GetMDepNetwork(r).0 == MDepGraph(e.dm, t)
  {
    e.(threshold := Some(t), cache := None)
  }

  /* ---------------------------------------------------------------- */
  /* get_mDep_network_edges                                            */
  /* ---------------------------------------------------------------- */

  /**
   * `_get_mDep_network_edges(es)` followed by `get_mDep_network_edges`:
   * the same test over the given pairs, with a KeyError when a pair is not
   * a matrix key in both orientations.
   */
  function MDepEdgesFold(dm: DepMatrix, t: real, es: seq<Edge>, acc: Graph): (r: Result<Graph>)
    ensures r.Ok? <==> PairsAreKeys(dm, es)
    ensures r.Err? ==> r.error == KeyError
    ensures r.Ok? ==> r.value == MDepFold(dm, t, es, acc)
  {
    if es == [] then Ok(acc)
    else
      var p := es[0];
      assert forall q :: q in es <==> q == p || q in es[1..];
      if p !in dm.deps || Flip(p) !in dm.deps then Err(KeyError)
      else
        var acc' := if Passes(dm, t, p) then AddEdge(acc, p.0, p.1, 1.0) else acc;
        MDepEdgesFold(dm, t, es[1..], acc')
  }

  /** `MDepFoldSpec` through the checked fold, for any list of pairs. */
  lemma MDepEdgesFoldSpec(dm: DepMatrix, t: real, es: seq<Edge>)
    ensures var r := MDepEdgesFold(dm, t, es, EmptyGraph);
      r.Ok? ==>
        && UnitWeights(r.value) && !r.value.weighted
        && (forall p :: p in r.value.weights <==> Listed(p, es) && Passes(dm, t, p))
        && (PairsLoopFree(es) ==> Valid(r.value) && ExactEdges(r.value))
  {
    if PairsAreKeys(dm, es) {
      MDepFoldKeys(dm, t, es, EmptyGraph);
      if PairsLoopFree(es) {
        MDepFoldSpec(dm, t, es);
      }
    }
  }

  /**
   * `get_mDep_network_edges(es)`: a `KeyError` unless both orientations of
   * every pair are matrix keys; otherwise an unweighted network joining
   * exactly the given pairs that pass, loops included, and a valid one when
   * no pair is a loop.
   */
  function GetMDepNetworkEdges(e: Engine, es: seq<Edge>): (r: Result<Graph>)
    requires Covers(e.dm)
    ensures r.Ok? <==> PairsAreKeys(e.dm, es)
    ensures r.Err? ==> r.error == KeyError
    ensures r.Ok? ==>
      && UnitWeights(r.value) && !r.value.weighted
      && (forall p :: p in r.value.weights <==> Listed(p, es) && Passes(e.dm, Threshold(e), p))
      && (PairsLoopFree(es) ==> Valid(r.value) && ExactEdges(r.value))
  {
    MDepEdgesFoldSpec(e.dm, Threshold(e), es);
    MDepEdgesFold(e.dm, Threshold(e), es, EmptyGraph)
  }

  /** Over `edges()` it builds the same network as `get_mDep_network()`. */
  lemma MDepEdgesOfAllEdges(e: Engine)
    requires EngineBuilt(e)
    ensures GetMDepNetworkEdges(e, e.dm.g.edges) == Ok(MDepNetwork(e))
  {
  }

  /* ---------------------------------------------------------------- */
  /* Complexes                                                         */
  /* ---------------------------------------------------------------- */

  /**
   * `_check_condition(node, s)` at threshold `t`: the members of `s` on
   * which `node` depends, or which depend on `node`, by at least `2 t`.
   */
  function CheckCondition(dm: DepMatrix, t: real, node: Node, s: set<Node>): (r: set<Node>)
    requires Covers(dm)
    ensures r <= s
  {
    set n | n in s && (GreaterOrEqual(GetDependency(dm, n, node), 2.0 * t) || GreaterOrEqual(GetDependency(dm, node, n), 2.0 * t))
  }

  /** Neither direction of a graph edge reaches twice a threshold above one half. */
  lemma NeighborNotDoubleDependent(dm: DepMatrix, t: real, node: Node, n: Node)
    requires Ready(dm) && NonNegative(dm.g) && EdgeExists(dm.g, node, n)
    requires (1.0 - 0.000001) * (2.0 * t) > 1.0
    ensures !GreaterOrEqual(GetDependency(dm, n, node), 2.0 * t)
    ensures !GreaterOrEqual(GetDependency(dm, node, n), 2.0 * t)
  {
    assert EdgeExists(dm.g, n, node);
    DependencyInUnit(dm.g, n, node);
    DependencyInUnit(dm.g, node, n);
    BelowDouble(GetDependency(dm, n, node), t);
    BelowDouble(GetDependency(dm, node, n), t);
  }

  /**
   * Over neighbours in a graph with non-negative weights, no dependency
   * reaches twice a threshold above one half (beyond the tolerance), so the
   * condition keeps nobody.
   */
  lemma CheckConditionEmpty(dm: DepMatrix, t: real, node: Node, s: set<Node>)
    requires Ready(dm) && NonNegative(dm.g)
    requires s <= Neighbors(dm.g, node)
    requires (1.0 - 0.000001) * (2.0 * t) > 1.0
    ensures CheckCondition(dm, t, node, s) == {}
  {
    NeighborsAreEdges(dm.g, node);
    forall n | n in s
      ensures n !in CheckCondition(dm, t, node, s)
    {
      NeighborNotDoubleDependent(dm, t, node, n);
    }
  }

  /** The complex grown around `n`: `n` and the mDep neighbours that meet the condition. */
  function ComplexAt(dm: DepMatrix, t: real, m: Graph, n: Node): (r: set<Node>)
    requires Covers(dm)
    ensures n in r && r <= {n} + Neighbors(m, n)
  {
    {n} + CheckCondition(dm, t, n, Neighbors(m, n))
  }

  /** Every complex of at least three nodes grown around a node of `m`. */
  function Complexes(dm: DepMatrix, t: real, m: Graph): (r: set<set<Node>>)
    requires Covers(dm)
    ensures forall c :: c in r ==> |c| >= 3 && exists n :: n in m.nodes && c == ComplexAt(dm, t, m, n)
  {
    set n | n in m.nodes && |ComplexAt(dm, t, m, n)| >= 3 :: ComplexAt(dm, t, m, n)
  }

  /**
   * `get_complexes(node)`: for a node of the mDep network, the one complex
   * grown around it; otherwise every complex of at least three nodes.
   */
  function GetComplexes(e: Engine, node: Option<Node>): (r: (set<set<Node>>, Engine))
    requires EngineBuilt(e)
    ensures r.1 == GetMDepNetwork(e).1
    ensures var m := GetMDepNetwork(e).0;
      && (node.Some? && node.value in m.nodes ==> r.0 == {ComplexAt(e.dm, Threshold(e), m, node.value)})
      && (node.None? || node.value !in m.nodes ==> r.0 == Complexes(e.dm, Threshold(e), m))
  {
    var t := Threshold(e);
    var m := GetMDepNetwork(e).0;
    var e' := GetMDepNetwork(e).1;
    if node.Some? && node.value in m.nodes then ({ComplexAt(e.dm, t, m, node.value)}, e')
    else (Complexes(e.dm, t, m), e')
  }

  /** A node outside the mDep network gives the same complexes as no node at all. */
  lemma ComplexesFallThrough(e: Engine, v: Node)
    requires EngineBuilt(e) && v !in GetMDepNetwork(e).0.nodes
    ensures GetComplexes(e, Some(v)) == GetComplexes(e, None)
  {
  }

  /**
   * Every complex of three or more nodes grown around a node of the mDep
   * network is reported, and each reported complex lies within the network.
   */
  lemma ComplexesComplete(dm: DepMatrix, t: real, n: Node)
    requires Ready(dm) && PairsLoopFree(dm.g.edges)
    ensures var m := MDepGraph(dm, t);
      && (n in m.nodes && |ComplexAt(dm, t, m, n)| >= 3 ==> ComplexAt(dm, t, m, n) in Complexes(dm, t, m))
      && forall c :: c in Complexes(dm, t, m) ==> c <= m.nodes
  {
    var m := MDepGraph(dm, t);
    assert Valid(m) by {
      MDepGraphSpec(dm, t);
    }
    ComplexesWithin(dm, t, m);
  }

  /** In a valid network every complex lies within the network's nodes. */
  lemma ComplexesWithin(dm: DepMatrix, t: real, m: Graph)
    requires Covers(dm) && Valid(m)
    ensures forall c :: c in Complexes(dm, t, m) ==> c <= m.nodes
  {
    forall c | c in Complexes(dm, t, m)
      ensures c <= m.nodes
    {
      var k :| k in m.nodes && c == ComplexAt(dm, t, m, k);
      NeighborsAreEdges(m, k);
      forall x | x in Neighbors(m, k)
        ensures x in m.nodes
      {
        assert k in Adj(m, x);
      }
    }
  }

  /**
   * On a graph with non-negative weights and exact edge listing, a threshold
   * above one half (beyond the tolerance) leaves no complex.
   */
  lemma ComplexesEmptyAboveHalf(dm: DepMatrix, t: real)
    requires Ready(dm) && NonNegative(dm.g) && ExactEdges(dm.g)
    requires (1.0 - 0.000001) * (2.0 * t) > 1.0
    ensures Complexes(dm, t, MDepGraph(dm, t)) == {}
  {
    var m := MDepGraph(dm, t);
    forall n | n in m.nodes
      ensures |ComplexAt(dm, t, m, n)| < 3
    {
      MDepNeighbors(dm, t, n);
      assert Neighbors(m, n) <= Neighbors(dm.g, n);
      CheckConditionEmpty(dm, t, n, Neighbors(m, n));
      assert ComplexAt(dm, t, m, n) == {n};
    }
  }

  /** `get_complexes()` on a fresh cache with a threshold above one half reports nothing. */
  lemma GetComplexesEmptyAboveHalf(e: Engine)
    requires EngineReady(e) && CacheFresh(e) && NonNegative(e.dm.g) && ExactEdges(e.dm.g)
    requires (1.0 - 0.000001) * (2.0 * Threshold(e)) > 1.0
    ensures GetComplexes(e, None).0 == {}
  {
    ComplexesEmptyAboveHalf(e.dm, Threshold(e));
  }
}

=== FILE: measures.dfy ===
/**
 * The whole-graph measures, induced subgraphs and breadth-limited
 * neighbourhood expansion of `mdepstar/Network.py`.
 */
module NetworkMeasures {
  import opened Wrappers
  import opened Seqs
  import opened Arith
  import opened Network

  /** `density`: counts the entries of `edges()`, stale ones included. */
  function Density(g: Graph): (r: real)
    ensures |g.nodes| == 0 ==> r == 0.0
    ensures |g.nodes| == 1 ==> r == 1.0
    ensures r >= 0.0
  {
    var n := |g.nodes|;
    if n == 0 then 0.0
    else if n == 1 then 1.0
    else
      DivNonNegative((2 * |g.edges|) as real, Pairs(n) as real);
      (2 * |g.edges|) as real / Pairs(n) as real
  }

  /** The listed edges taken in both orientations. */
  ghost function BothWays(es: seq<Edge>): (r: set<Edge>)
    ensures forall e :: e in r <==> e in es || Flip(e) in es
  {
    if es == [] then {}
    else
      var last := es[|es| - 1];
      assert forall e :: e in es <==> e in es[..|es| - 1] || e == last by {
        assert es == es[..|es| - 1] + [last];
      }
      BothWays(es[..|es| - 1]) + {last, Flip(last)}
  }

  /** Listed once, never with its flip and never a loop, each edge gives two pairs. */
  lemma {:induction false} BothWaysCard(es: seq<Edge>)
    requires NoDup(es)
    requires forall e :: e in es ==> Flip(e) !in es && e.0 != e.1
    ensures |BothWays(es)| == 2 * |es|
  {
    if es != [] {
      var init, last := es[..|es| - 1], es[|es| - 1];
      assert es == init + [last];
      assert NoDup(init);
      BothWaysCard(init);
      assert last !in init && Flip(last) !in init;
      assert last !in BothWays(init) && Flip(last) !in BothWays(init);
    }
  }

  /** The ordered pairs of distinct elements of `s`. */
  ghost function OffDiagonal(s: set<Node>): set<Edge> {
    set a, b | a in s && b in s && a != b :: (a, b)
  }

  ghost function Row(x: Node, s: set<Node>): set<Edge> {
    set b | b in s :: (x, b)
  }

  ghost function Column(x: Node, s: set<Node>): set<Edge> {
    set a | a in s :: (a, x)
  }

  lemma RowStep(x: Node, s: set<Node>, y: Node)
    requires y in s
    ensures Row(x, s) == Row(x, s - {y}) + {(x, y)}
    ensures (x, y) !in Row(x, s - {y})
  {
    forall e | e in Row(x, s)
      ensures e in Row(x, s - {y}) + {(x, y)}
    {
      var b :| b in s && e == (x, b);
      if b != y {
        assert b in s - {y};
      }
    }
  }

  lemma ColumnStep(x: Node, s: set<Node>, y: Node)
    requires y in s
    ensures Column(x, s) == Column(x, s - {y}) + {(y, x)}
    ensures (y, x) !in Column(x, s - {y})
  {
    forall e | e in Column(x, s)
      ensures e in Column(x, s - {y}) + {(y, x)}
    {
      var a :| a in s && e == (a, x);
      if a != y {
        assert a in s - {y};
      }
    }
  }

  lemma {:induction false} RowCard(x: Node, s: set<Node>)
    ensures |Row(x, s)| == |s|
    decreases s
  {
    if s != {} {
      var y :| y in s;
      RowCard(x, s - {y});
      RowStep(x, s, y);
    }
  }

  lemma {:induction false} ColumnCard(x: Node, s: set<Node>)
    ensures |Column(x, s)| == |s|
    decreases s
  {
    if s != {} {
      var y :| y in s;
      ColumnCard(x, s - {y});
      ColumnStep(x, s, y);
    }
  }

  /** The pairs of `s` are those of `s - {x}`, those leaving `x` and those entering it, with no overlap. */
  lemma OffDiagonalStep(s: set<Node>, x: Node)
    requires x in s
    ensures OffDiagonal(s) == OffDiagonal(s - {x}) + Row(x, s - {x}) + Column(x, s - {x})
    ensures OffDiagonal(s - {x}) * Row(x, s - {x}) == {}
    ensures (OffDiagonal(s - {x}) + Row(x, s - {x})) * Column(x, s - {x}) == {}
  {
    var rest := s - {x};
    forall e | e in OffDiagonal(s)
      ensures e in OffDiagonal(rest) + Row(x, rest) + Column(x, rest)
    {
      var a, b :| a in s && b in s && a != b && e == (a, b);
      if a == x {
        assert b in rest;
      } else if b == x {
        assert a in rest;
      } else {
        assert a in rest && b in rest;
      }
    }
  }

  /** An `n`-set has `n (n - 1)` ordered pairs of distinct elements. */
  lemma {:induction false} OffDiagonalCard(s: set<Node>)
    ensures |OffDiagonal(s)| == Pairs(|s|)
    decreases s
  {
    if s != {} {
      var x :| x in s;
      var rest := s - {x};
      OffDiagonalCard(rest);
      RowCard(x, rest);
      ColumnCard(x, rest);
      OffDiagonalStep(s, x);
      DisjointUnionCard(OffDiagonal(rest), Row(x, rest), Column(x, rest));
      assert |rest| == |s| - 1;
    }
  }

  lemma DisjointUnionCard(a: set<Edge>, b: set<Edge>, c: set<Edge>)
    requires a * b == {} && (a + b) * c == {}
    ensures |a + b + c| == |a| + |b| + |c|
  {
  }

  /** In a valid graph both orientations of every listed edge join two distinct listed nodes. */
  lemma ListedPairsOffDiagonal(g: Graph)
    requires Valid(g) && ExactEdges(g)
    ensures BothWays(g.edges) <= OffDiagonal(g.nodes)
  {
    forall e | e in BothWays(g.edges)
      ensures e in OffDiagonal(g.nodes)
    {
      assert e in g.weights && Flip(e) in g.weights;
      assert e.1 in Adj(g, e.0) && e.0 in Adj(g, e.1);
    }
  }

  /** `density` of a valid graph whose `edges()` lists every edge once is at most 1. */
  lemma DensityAtMostOne(g: Graph)
    requires Valid(g) && ExactEdges(g)
    ensures Density(g) <= 1.0
  {
    if |g.nodes| >= 2 {
      BothWaysCard(g.edges);
      ListedPairsOffDiagonal(g);
      SubsetCard(BothWays(g.edges), OffDiagonal(g.nodes));
      OffDiagonalCard(g.nodes);
      DivInUnit((2 * |g.edges|) as real, Pairs(|g.nodes|) as real);
    }
  }

  /** Every listed node has between 1 and |V| - 1 neighbours. */
  ghost predicate DegreesBounded(g: Graph) {
    forall v :: v in g.nodes ==> 1 <= Degree(g, v) <= |g.nodes| - 1
  }

  /** Three listed edges among three nodes give density 1. */
  lemma CompleteDensity(g: Graph)
    requires |g.nodes| == 3 && |g.edges| == 3
    ensures Density(g) == 1.0
  {
    assert Pairs(3) == 6 by {
      assert Pairs(2) == 2;
    }
  }

  /** In a valid graph every listed node has between 1 and |V| - 1 neighbours. */
  lemma DegreeBounds(g: Graph)
    requires Valid(g)
    ensures DegreesBounded(g)
  {
    forall v | v in g.nodes
      ensures 1 <= Degree(g, v) <= |g.nodes| - 1
    {
      NeighborsAreEdges(g, v);
      assert Adj(g, v)[0] in Neighbors(g, v);
      forall n | n in Neighbors(g, v)
        ensures n in g.nodes - {v}
      {
        assert (n, v) in g.weights;
        assert v in Adj(g, n);
      }
      SubsetCard(Neighbors(g, v), g.nodes - {v});
    }
  }

  /** The degrees `len(neighbors(v))` of the nodes in `s`, added up: the reference for `avg_degree`. */
  ghost function DegreeSum(g: Graph, s: set<Node>): int
    decreases s
  {
    if s == {} then 0
    else
      var v :| v in s;
      |Neighbors(g, v)| + DegreeSum(g, s - {v})
  }

  /** The sum does not depend on the order in which the nodes are taken. */
  lemma {:induction false} DegreeSumRemove(g: Graph, s: set<Node>, v: Node)
    requires v in s
    ensures DegreeSum(g, s) == |Neighbors(g, v)| + DegreeSum(g, s - {v})
    decreases s
  {
    var u :| u in s && DegreeSum(g, s) == |Neighbors(g, u)| + DegreeSum(g, s - {u});
    if u != v {
      DegreeSumRemove(g, s - {u}, v);
      DegreeSumRemove(g, s - {v}, u);
      assert s - {u} - {v} == s - {v} - {u};
    }
  }

  /** Degrees between 1 and `k` add up to between |s| and |s| k. */
  lemma {:induction false} DegreeSumBounds(g: Graph, s: set<Node>, k: int)
    requires forall v :: v in s ==> 1 <= |Neighbors(g, v)| <= k
    ensures Mul(|s|, 1) <= DegreeSum(g, s) <= Mul(|s|, k)
    decreases s
  {
    if s != {} {
      var v :| v in s;
      DegreeSumRemove(g, s, v);
      DegreeSumBounds(g, s - {v}, k);
      assert |s - {v}| == |s| - 1;
    }
  }

  /** On a graph with bounded degrees, the degree total lies between |V| and |V| (|V| - 1). */
  lemma DegreeSumBounded(g: Graph)
    requires DegreesBounded(g)
    ensures Mul(|g.nodes|, 1) <= DegreeSum(g, g.nodes) <= Mul(|g.nodes|, |g.nodes| - 1)
  {
    NeighborCountsBounded(g);
    DegreeSumBounds(g, g.nodes, |g.nodes| - 1);
  }

  lemma NeighborCountsBounded(g: Graph)
    requires DegreesBounded(g)
    ensures forall v :: v in g.nodes ==> 1 <= |Neighbors(g, v)| <= |g.nodes| - 1
  {
    forall v | v in g.nodes
      ensures 1 <= |Neighbors(g, v)| <= |g.nodes| - 1
    {
      assert 1 <= Degree(g, v) <= |g.nodes| - 1;
    }
  }

  /** `degree(v)`, within the bounds `DegreesBounded` gives for a listed node. */
  method NodeDegree(g: Graph, v: Node) returns (d: nat)
    ensures d == Degree(g, v) == |Neighbors(g, v)|
    ensures DegreesBounded(g) && v in g.nodes ==> 1 <= d <= |g.nodes| - 1
  {
    d := Degree(g, v);
  }

  /** The loop of `avg_degree`: the degrees over `nodes()`, added up. */
  method DegreeTotal(g: Graph) returns (total: int)
    ensures total == DegreeSum(g, g.nodes)
  {
    total := 0;
    var rest := g.nodes;
    while rest != {}
      invariant rest <= g.nodes
      invariant total + DegreeSum(g, rest) == DegreeSum(g, g.nodes)
      decreases rest
    {
      var v :| v in rest;
      var d := NodeDegree(g, v);
      DegreeSumRemove(g, rest, v);
      total := total + d;
      rest := rest - {v};
    }
  }

  /**
   * `avg_degree`: the degrees over `nodes()` added up and divided by |V|,
   * 0 for an empty graph; on a graph whose degrees are bounded (every valid
   * graph, by `DegreeBounds`) it lies between 1 and |V| - 1.
   */
  method AvgDegree(g: Graph) returns (r: real)
    ensures |g.nodes| == 0 ==> r == 0.0
    ensures |g.nodes| > 0 ==> r == DegreeSum(g, g.nodes) as real / |g.nodes| as real
    ensures DegreesBounded(g) && |g.nodes| > 0 ==> 1.0 <= r <= (|g.nodes| - 1) as real
  {
    var size := |g.nodes|;
    var total := DegreeTotal(g);
    if size == 0 {
      return 0.0;
    }
    r := total as real / size as real;
    if DegreesBounded(g) {
      DegreeSumBounded(g);
      MeanInRange(total, size, 1, size - 1);
    }
  }

  /* ---------------------------------------------------------------- */
  /* induced_subgraph                                                  */
  /* ---------------------------------------------------------------- */

  /** The inner loop of `induced_subgraph`: pairs `x` with each later node, in order. */
  function InducedRow(g: Graph, x: Node, rest: seq<Node>, acc: Graph): (r: Graph)
    ensures |r.edges| <= |acc.edges| + |rest|
    ensures r.weighted == acc.weighted
    decreases |rest|
  {
    if rest == [] then acc
    else
      var y := rest[0];
      InducedRow(g, x, rest[1..], if EdgeExists(g, x, y) then AddEdge(acc, x, y, Weight(g, x, y)) else acc)
  }

  /** The outer loop of `induced_subgraph`: every pair `i < j` of positions, in order. */
  function InducedFold(g: Graph, s: seq<Node>, acc: Graph): (r: Graph)
    ensures 2 * |r.edges| <= 2 * |acc.edges| + Pairs(|s|)
    ensures r.weighted == acc.weighted
    decreases |s|
  {
    if s == [] then acc
    else
      InducedFold(g, s[1..], InducedRow(g, s[0], s[1..], acc))
  }

  /** `induced_subgraph(nodes)` for the list `nodes`; at most one edge per pair of positions. */
  function InducedSubgraph(g: Graph, s: seq<Node>): (r: Graph)
    ensures 2 * |r.edges| <= Pairs(|s|)
    ensures !r.weighted
  {
    InducedFold(g, s, EmptyGraph)
  }

  /** Every edge of `h` joins members of `S` and is an edge of `g` with the same weight. */
  ghost predicate Within(h: Graph, g: Graph, S: set<Node>) {
    forall a, b :: (a, b) in h.weights ==> a in S && b in S && (a, b) in g.weights && h.weights[(a, b)] == g.weights[(a, b)]
  }

  /** Adding an edge of `g` between members of `S` keeps the accumulator within `g`. */
  lemma AddInducedWithin(g: Graph, acc: Graph, x: Node, y: Node, S: set<Node>)
    requires Symmetric(g) && Symmetric(acc) && x != y && Within(acc, g, S) && x in S && y in S && EdgeExists(g, x, y)
    ensures var r := AddEdge(acc, x, y, Weight(g, x, y));
      Within(r, g, S) && acc.weights.Keys <= r.weights.Keys && EdgeExists(r, x, y)
  {
    var w := Weight(g, x, y);
    if !EdgeExists(acc, x, y) && !EdgeExists(acc, y, x) {
      AddEdgeShape(acc, x, y, w);
      var r := AddEdge(acc, x, y, w);
      assert g.weights[(y, x)] == w;
      forall a, b | (a, b) in r.weights
        ensures a in S && b in S && (a, b) in g.weights && r.weights[(a, b)] == g.weights[(a, b)]
      {
        if (a, b) != (x, y) && (a, b) != (y, x) {
          assert (a, b) in acc.weights;
        }
      }
    }
  }

  lemma {:induction false} InducedRowProps(g: Graph, x: Node, rest: seq<Node>, acc: Graph, S: set<Node>)
    requires Valid(g) && Valid(acc) && Within(acc, g, S) && x in S
    requires forall y :: y in rest ==> y in S
    ensures var r := InducedRow(g, x, rest, acc);
      && Valid(r) && Within(r, g, S) && acc.weights.Keys <= r.weights.Keys
      && (forall y :: y in rest && EdgeExists(g, x, y) ==> EdgeExists(r, x, y))
    decreases |rest|
  {
    if rest != [] {
      var y := rest[0];
      var next := if EdgeExists(g, x, y) then AddEdge(acc, x, y, Weight(g, x, y)) else acc;
      if EdgeExists(g, x, y) {
        assert x != y;
        AddInducedWithin(g, acc, x, y, S);
        AddEdgeValid(acc, x, y, Weight(g, x, y));
      }
      InducedRowProps(g, x, rest[1..], next, S);
      assert forall z :: z in rest ==> z == y || z in rest[1..];
    }
  }

  lemma {:induction false} InducedFoldProps(g: Graph, s: seq<Node>, acc: Graph, S: set<Node>)
    requires Valid(g) && Valid(acc) && Within(acc, g, S)
    requires forall y :: y in s ==> y in S
    ensures var r := InducedFold(g, s, acc);
      && Valid(r) && Within(r, g, S) && acc.weights.Keys <= r.weights.Keys
      && (forall a, b :: a in s && b in s && EdgeExists(g, a, b) ==> EdgeExists(r, a, b))
    decreases |s|
  {
    if s != [] {
      var x := s[0];
      var row := InducedRow(g, x, s[1..], acc);
      InducedRowProps(g, x, s[1..], acc, S);
      InducedFoldProps(g, s[1..], row, S);
      var r := InducedFold(g, s, acc);
      assert r == InducedFold(g, s[1..], row);
      forall a, b | a in s && b in s && EdgeExists(g, a, b)
        ensures EdgeExists(r, a, b)
      {
        assert a != b;
        assert a == x || a in s[1..];
        assert b == x || b in s[1..];
        if a == x {
          assert EdgeExists(row, x, b);
        } else if b == x {
          assert EdgeExists(g, x, a);
          assert EdgeExists(row, x, a);
        }
      }
    }
  }

  /**
   * On a valid graph the induced subgraph holds exactly the edges of `g`
   * between members of `s`, with their weights, and is itself valid.
   */
  lemma InducedSubgraphSpec(g: Graph, s: seq<Node>)
    requires Valid(g)
    ensures var h := InducedSubgraph(g, s);
      && Valid(h)
      && (forall a, b :: EdgeExists(h, a, b) <==> a in s && b in s && EdgeExists(g, a, b))
      && (forall a, b :: EdgeExists(h, a, b) ==> Weight(h, a, b) == Weight(g, a, b))
  {
    EmptyGraphValid();
    InducedFoldProps(g, s, EmptyGraph, Elements(s));
  }

  /* ---------------------------------------------------------------- */
  /* neighbors_depth                                                   */
  /* ---------------------------------------------------------------- */

  /** One round of `neighbors_depth`: the set plus every neighbour of its members. */
  function Expand(g: Graph, S: set<Node>): (r: set<Node>)
    ensures S <= r
    ensures forall v, n :: v in S && n in Neighbors(g, v) ==> n in r
    ensures forall n :: n in r && n !in S ==> exists v :: v in S && n in Neighbors(g, v)
  {
    S + set v, n | v in S && n in Adj(g, v) :: n
  }

  /** `neighbors_depth(S, current, max)`; Python recurses forever when `current > max`. */
  function NeighborsDepth(g: Graph, S: set<Node>, current: nat, maxDepth: nat): (r: set<Node>)
    requires current <= maxDepth
    ensures S <= r
    decreases maxDepth - current
  {
    if current == maxDepth then S
    else NeighborsDepth(g, Expand(g, S), current + 1, maxDepth)
  }

  /** Consecutive entries of `p` are neighbours. */
  ghost predicate IsWalk(g: Graph, p: seq<Node>) {
    forall i :: 0 <= i < |p| - 1 ==> p[i + 1] in Adj(g, p[i])
  }

  /** `p` is a walk of at most `k` steps from a member of `S` to `n`. */
  ghost predicate WalkFrom(g: Graph, S: set<Node>, p: seq<Node>, n: Node, k: nat) {
    IsWalk(g, p) && 1 <= |p| <= k + 1 && p[0] in S && p[|p| - 1] == n
  }

  ghost predicate ReachableWithin(g: Graph, S: set<Node>, n: Node, k: nat) {
    exists p :: WalkFrom(g, S, p, n, k)
  }

  /** A walk that starts with a step out of `S` is a shorter walk from the expanded set. */
  lemma {:induction false} NeighborsDepthComplete(g: Graph, S: set<Node>, current: nat, maxDepth: nat, p: seq<Node>, n: Node)
    requires current <= maxDepth && WalkFrom(g, S, p, n, maxDepth - current)
    ensures n in NeighborsDepth(g, S, current, maxDepth)
    decreases maxDepth - current
  {
    if current < maxDepth {
      if |p| == 1 {
        assert n in S;
      } else {
        var q := p[1..];
        assert q[0] in Neighbors(g, p[0]);
        assert WalkFrom(g, Expand(g, S), q, n, maxDepth - (current + 1)) by {
          forall i | 0 <= i < |q| - 1
            ensures q[i + 1] in Adj(g, q[i])
          {
            assert q[i] == p[i + 1] && q[i + 1] == p[i + 2];
          }
        }
        NeighborsDepthComplete(g, Expand(g, S), current + 1, maxDepth, q, n);
      }
    }
  }

  lemma {:induction false} NeighborsDepthSound(g: Graph, S: set<Node>, current: nat, maxDepth: nat, n: Node)
    requires current <= maxDepth && n in NeighborsDepth(g, S, current, maxDepth)
    ensures ReachableWithin(g, S, n, maxDepth - current)
    decreases maxDepth - current
  {
    if current == maxDepth {
      assert WalkFrom(g, S, [n], n, 0);
    } else {
      var T := Expand(g, S);
      NeighborsDepthSound(g, T, current + 1, maxDepth, n);
      var q :| WalkFrom(g, T, q, n, maxDepth - (current + 1));
      if q[0] in S {
        assert WalkFrom(g, S, q, n, maxDepth - current);
      } else {
        var v :| v in S && q[0] in Neighbors(g, v);
        var p := [v] + q;
        assert WalkFrom(g, S, p, n, maxDepth - current) by {
          forall i | 0 <= i < |p| - 1
            ensures p[i + 1] in Adj(g, p[i])
          {
            if i > 0 {
              assert p[i] == q[i - 1] && p[i + 1] == q[i];
            }
          }
        }
      }
    }
  }

  /**
   * `neighbors_depth(S, current, max)` is exactly the set of nodes reachable
   * from `S` in at most `max - current` steps.
   */
  lemma NeighborsDepthReach(g: Graph, S: set<Node>, current: nat, maxDepth: nat, n: Node)
    requires current <= maxDepth
    ensures n in NeighborsDepth(g, S, current, maxDepth) <==> ReachableWithin(g, S, n, maxDepth - current)
  {
    if n in NeighborsDepth(g, S, current, maxDepth) {
      NeighborsDepthSound(g, S, current, maxDepth, n);
    }
    if ReachableWithin(g, S, n, maxDepth - current) {
      var p :| WalkFrom(g, S, p, n, maxDepth - current);
      NeighborsDepthComplete(g, S, current, maxDepth, p, n);
    }
  }

  /* ---------------------------------------------------------------- */
  /* clustering coefficient                                            */
  /* ---------------------------------------------------------------- */

  /**
   * `clustering_coeficient_node(v)`: twice the number of edges among the
   * neighbours of `v`, over `deg(v) (deg(v) - 1)`; 0 at degree 1; a
   * ZeroDivisionError at degree 0. The neighbour set is walked in the
   * order of `NeighborList`.
   */
  function ClusteringCoefficientNode(g: Graph, v: Node): (r: Result<real>)
    ensures r.Err? <==> Degree(g, v) == 0
    ensures Degree(g, v) == 1 ==> r == Ok(0.0)
    ensures r.Ok? ==> 0.0 <= r.value <= 1.0
  {
    var around := Drop(NeighborList(g, v), {v});
    var k := Degree(g, v);
    if k == 1 then Ok(0.0)
    else if k == 0 then Err(ZeroDivisionError)
    else
      var h := InducedSubgraph(g, around);
      PairsMonotone(|around|, k);
      DivInUnit((2 * |h.edges|) as real, Pairs(k) as real);
      Ok((2 * |h.edges|) as real / Pairs(k) as real)
  }

  /** The list walked by `ClusteringCoefficientNode` is `neighbors_depth({v}, 0, 1)` without `v`. */
  lemma ClusteringNeighborhood(g: Graph, v: Node)
    ensures Elements(Drop(NeighborList(g, v), {v})) == NeighborsDepth(g, {v}, 0, 1) - {v}
  {
    assert NeighborsDepth(g, {v}, 0, 1) == Expand(g, {v});
  }

  /** The subgraph induced by two joined nodes has one edge. */
  lemma InducedPair(g: Graph, x: Node, y: Node)
    requires EdgeExists(g, x, y)
    ensures |InducedSubgraph(g, [x, y]).edges| == 1
  {
    var row := AddEdge(EmptyGraph, x, y, Weight(g, x, y));
    assert [x, y][1..] == [y];
    assert InducedRow(g, x, [y], EmptyGraph) == InducedRow(g, x, [], row);
    assert InducedSubgraph(g, [x, y]) == InducedFold(g, [y], row);
    assert InducedFold(g, [y], row) == InducedFold(g, [], InducedRow(g, y, [], row));
  }

  lemma ClusteringOfJoinedList(g: Graph, v: Node, x: Node, y: Node)
    requires Drop(NeighborList(g, v), {v}) == [x, y] && Degree(g, v) == 2 && EdgeExists(g, x, y)
    ensures ClusteringCoefficientNode(g, v) == Ok(1.0)
  {
    InducedPair(g, x, y);
    assert Pairs(2) == 2;
  }

  /** A node whose two neighbours are joined has clustering coefficient 1. */
  lemma ClusteringOfJoinedPair(g: Graph, v: Node, p: Node, q: Node)
    requires Neighbors(g, v) == {p, q} && p != q && v != p && v != q
    requires EdgeExists(g, p, q) && EdgeExists(g, q, p)
    ensures ClusteringCoefficientNode(g, v) == Ok(1.0)
  {
    var around := Drop(NeighborList(g, v), {v});
    forall y | y in NeighborList(g, v)
      ensures y !in {v}
    {
      assert y in Elements(NeighborList(g, v));
    }
    assert around == NeighborList(g, v);
    TwoElements(around, p, q);
    if around == [p, q] {
      ClusteringOfJoinedList(g, v, p, q);
    } else {
      ClusteringOfJoinedList(g, v, q, p);
    }
  }

  /** The coefficient of `v`, or 0 where `clustering_coeficient_node` raises. */
  ghost function Coefficient(g: Graph, v: Node): real {
    var c := ClusteringCoefficientNode(g, v);
    if c.Ok? then c.value else 0.0
  }

  /** The coefficients of the nodes in `s`, added up: the reference for `clustering_coeficient`. */
  ghost function CoefficientSum(g: Graph, s: set<Node>): real
    decreases s
  {
    if s == {} then 0.0
    else
      var v :| v in s;
      Coefficient(g, v) + CoefficientSum(g, s - {v})
  }

  /** The sum does not depend on the order in which the nodes are taken. */
  lemma {:induction false} CoefficientSumRemove(g: Graph, s: set<Node>, v: Node)
    requires v in s
    ensures CoefficientSum(g, s) == Coefficient(g, v) + CoefficientSum(g, s - {v})
    decreases s
  {
    var u :| u in s && CoefficientSum(g, s) == Coefficient(g, u) + CoefficientSum(g, s - {u});
    if u != v {
      CoefficientSumRemove(g, s - {u}, v);
      CoefficientSumRemove(g, s - {v}, u);
      assert s - {u} - {v} == s - {v} - {u};
    }
  }

  /** `clustering_coeficient_node(v)` as the mean over all nodes calls it. */
  method NodeClustering(g: Graph, v: Node) returns (c: Result<real>)
    ensures c == ClusteringCoefficientNode(g, v)
    ensures c.Err? <==> Degree(g, v) == 0
    ensures c.Ok? ==> c.value == Coefficient(g, v) && 0.0 <= c.value <= 1.0
  {
    c := ClusteringCoefficientNode(g, v);
  }

  /**
   * `clustering_coeficient()`: the coefficients over `nodes()` added up and
   * divided by |V|, 0 for an empty graph; the first node of degree 0 makes it
   * raise.
   */
  method ClusteringCoefficient(g: Graph) returns (r: Result<real>)
    ensures |g.nodes| == 0 ==> r == Ok(0.0)
    ensures |g.nodes| > 0 && r.Ok? ==> r.value == CoefficientSum(g, g.nodes) / |g.nodes| as real
    ensures r.Ok? ==> 0.0 <= r.value <= 1.0
    ensures r.Err? <==> exists v :: v in g.nodes && Degree(g, v) == 0
  {
    var size := |g.nodes|;
    if size == 0 {
      return Ok(0.0);
    }
    var total := 0.0;
    var rest := g.nodes;
    var count := 0;
    while rest != {}
      invariant rest <= g.nodes && count + |rest| == size
      invariant 0.0 <= total <= count as real
      invariant total + CoefficientSum(g, rest) == CoefficientSum(g, g.nodes)
      invariant forall v :: v in g.nodes && v !in rest ==> Degree(g, v) != 0
      decreases rest
    {
      var v :| v in rest;
      var c := NodeClustering(g, v);
      if c.Err? {
        return Err(c.error);
      }
      CoefficientSumRemove(g, rest, v);
      total := total + c.value;
      rest := rest - {v};
      count := count + 1;
    }
    DivInUnit(total, size as real);
    r := Ok(total / size as real);
  }

  /** The graph built by three `add_edge` calls on the pairs of `x`, `y`, `z`. */
  function TriangleGraph(x: Node, y: Node, z: Node, w1: real, w2: real, w3: real): Graph {
    AddEdge(AddEdge(AddEdge(EmptyGraph, x, y, w1), y, z, w2), x, z, w3)
  }

  lemma TriangleValid(x: Node, y: Node, z: Node, w1: real, w2: real, w3: real)
    requires x != y && y != z && x != z
    ensures Valid(TriangleGraph(x, y, z, w1, w2, w3))
  {
    EmptyGraphValid();
    AddEdgeValid(EmptyGraph, x, y, w1);
    AddEdgeValid(AddEdge(EmptyGraph, x, y, w1), y, z, w2);
    AddEdgeValid(AddEdge(AddEdge(EmptyGraph, x, y, w1), y, z, w2), x, z, w3);
  }

  /** One `add_edge` on the empty graph joins exactly its two ends. */
  lemma FirstEdge(x: Node, y: Node, w: real)
    requires x != y
    ensures var g := AddEdge(EmptyGraph, x, y, w);
      && Symmetric(g) && LoopFree(g)
      && forall u, v :: EdgeExists(g, u, v) <==> (u, v) == (x, y) || (u, v) == (y, x)
  {
    EmptyGraphValid();
    AddEdgeFrame(EmptyGraph, x, y, w);
    AddEdgeSymmetric(EmptyGraph, x, y, w);
  }

  /** A second `add_edge` on a single-edge graph joins exactly the two pairs. */
  lemma SecondEdge(g1: Graph, x: Node, y: Node, z: Node, w: real)
    requires y != z
    requires Symmetric(g1) && LoopFree(g1)
    requires forall u, v :: EdgeExists(g1, u, v) <==> (u, v) == (x, y) || (u, v) == (y, x)
    ensures var g := AddEdge(g1, y, z, w);
      && Symmetric(g)
      && forall u, v :: EdgeExists(g, u, v) <==> (u, v) in {(x, y), (y, x), (y, z), (z, y)}
  {
    AddEdgeFrame(g1, y, z, w);
    AddEdgeSymmetric(g1, y, z, w);
  }

  lemma TriangleEdges(x: Node, y: Node, z: Node, w1: real, w2: real, w3: real)
    requires x != y && y != z && x != z
    ensures var t := TriangleGraph(x, y, z, w1, w2, w3);
      forall u, v :: EdgeExists(t, u, v) <==> u != v && u in {x, y, z} && v in {x, y, z}
  {
    var g1 := AddEdge(EmptyGraph, x, y, w1);
    FirstEdge(x, y, w1);
    SecondEdge(g1, x, y, z, w2);
    AddEdgeFrame(AddEdge(g1, y, z, w2), x, z, w3);
  }

  lemma TriangleCounts(x: Node, y: Node, z: Node, w1: real, w2: real, w3: real)
    requires x != y && y != z && x != z
    ensures var t := TriangleGraph(x, y, z, w1, w2, w3);
      |t.nodes| == 3 && |t.edges| == 3
  {
    var g1 := AddEdge(EmptyGraph, x, y, w1);
    var g2 := AddEdge(g1, y, z, w2);
    AddEdgeShape(EmptyGraph, x, y, w1);
    assert g1.weights == map[(x, y) := w1, (y, x) := w1];
    AddEdgeShape(g1, y, z, w2);
    assert g2.weights.Keys == {(x, y), (y, x), (y, z), (z, y)};
    AddEdgeShape(g2, x, z, w3);
    assert TriangleGraph(x, y, z, w1, w2, w3).nodes == {x, y} + {z};
  }

  /** A corner of a complete graph on three nodes has clustering coefficient 1. */
  lemma TriangleCorner(t: Graph, S: set<Node>, a: Node, b: Node, c: Node)
    requires Valid(t) && a != b && b != c && a != c && a in S && b in S && c in S
    requires forall n :: n in S ==> n == a || n == b || n == c
    requires forall u, v :: EdgeExists(t, u, v) <==> u != v && u in S && v in S
    ensures ClusteringCoefficientNode(t, a) == Ok(1.0)
  {
    forall n
      ensures n in Neighbors(t, a) <==> n in {b, c}
    {
      assert n in Adj(t, a) <==> EdgeExists(t, a, n);
    }
    assert EdgeExists(t, b, c) && EdgeExists(t, c, b);
    ClusteringOfJoinedPair(t, a, b, c);
  }

  /** The graph built by three `add_edge` calls is a valid triangle with three listed edges. */
  lemma TriangleGraphShape(x: Node, y: Node, z: Node, w1: real, w2: real, w3: real)
    requires x != y && y != z && x != z
    ensures var t := TriangleGraph(x, y, z, w1, w2, w3);
      && Valid(t)
      && (forall u, v :: EdgeExists(t, u, v) <==> u != v && u in {x, y, z} && v in {x, y, z})
      && |t.nodes| == 3 && |t.edges| == 3
  {
    TriangleValid(x, y, z, w1, w2, w3);
    TriangleEdges(x, y, z, w1, w2, w3);
    TriangleCounts(x, y, z, w1, w2, w3);
  }

  /**
   * In a valid graph on three pairwise-joined nodes with three listed
   * edges (such as `TriangleGraph`), the density is 1 and every node has
   * clustering coefficient 1.
   */
  lemma Triangle(t: Graph, x: Node, y: Node, z: Node)
    requires x != y && y != z && x != z && Valid(t)
    requires forall u, v :: EdgeExists(t, u, v) <==> u != v && u in {x, y, z} && v in {x, y, z}
    requires |t.nodes| == 3 && |t.edges| == 3
    ensures Density(t) == 1.0
    ensures ClusteringCoefficientNode(t, x) == Ok(1.0)
    ensures ClusteringCoefficientNode(t, y) == Ok(1.0)
    ensures ClusteringCoefficientNode(t, z) == Ok(1.0)
  {
    var S := {x, y, z};
    TriangleCorner(t, S, x, y, z);
    TriangleCorner(t, S, y, x, z);
    TriangleCorner(t, S, z, x, y);
    CompleteDensity(t);
  }
}

=== FILE: network.dfy ===
/**
 * The graph store of `mdepstar/Network.py`: an undirected weighted graph kept
 * as a weight map (both orientations of every edge), insertion-ordered
 * adjacency lists, a node set and an insertion-ordered edge list.
 */
module Network {
  import opened Wrappers
  import opened Seqs

  type Node = string
  type Edge = (Node, Node)

  /**
   * `weights` holds the key `(a, b)` exactly when `edge_exists(a, b)`;
   * `adj` maps a node to its neighbour list (a missing key reads as `[]`);
   * `edges` is the list returned by `edges()`, in insertion order.
   */
  datatype Graph = Graph(
    weights: map<Edge, real>,
    adj: map<Node, seq<Node>>,
    nodes: set<Node>,
    edges: seq<Edge>,
    weighted: bool)

  /** `Network()`: no nodes, no edges, unweighted. */
  const EmptyGraph: Graph := Graph(map[], map[], {}, [], false)

  function Flip(e: Edge): Edge {
    (e.1, e.0)
  }

  /** `_neighbors[v]`, reading a missing entry as the empty list. */
  function Adj(g: Graph, v: Node): seq<Node> {
    if v in g.adj then g.adj[v] else []
  }

  /** `edge_exists(a, b)`. */
  predicate EdgeExists(g: Graph, a: Node, b: Node) {
    (a, b) in g.weights
  }

  /**
   * `weight(a, b)` / `get_edge_weight(a, b)`: the stored weight, 0 for an
   * absent pair; with symmetric storage both orientations read the same.
   */
  function Weight(g: Graph, a: Node, b: Node): (r: real)
    ensures r != 0.0 ==> EdgeExists(g, a, b)
    ensures Symmetric(g) ==> r == (if (b, a) in g.weights then g.weights[(b, a)] else 0.0)
  {
    if (a, b) in g.weights then g.weights[(a, b)] else 0.0
  }

  /** `neighbors(v)`: the frozenset of the adjacency list (its contract: `NeighborsAreEdges`). */
  function Neighbors(g: Graph, v: Node): set<Node> {
    Elements(Adj(g, v))
  }

  /** The order in which the code iterates over `neighbors(v)`. */
  function NeighborList(g: Graph, v: Node): (r: seq<Node>)
    ensures NoDup(r)
    ensures Elements(r) == Neighbors(g, v)
  {
    Dedup(Adj(g, v))
  }

  /** `common_neighbors(x, y)`. */
  function CommonNeighbors(g: Graph, x: Node, y: Node): (r: set<Node>)
    ensures r <= Neighbors(g, x) && r <= Neighbors(g, y)
    ensures forall n :: n in r <==> n in Adj(g, x) && n in Adj(g, y)
  {
    Neighbors(g, x) * Neighbors(g, y)
  }

  /** `degree(v)`: the number of distinct neighbours. */
  function Degree(g: Graph, v: Node): (r: nat)
    ensures r == |NeighborList(g, v)|
    ensures r <= |Adj(g, v)|
  {
    CardNoDup(NeighborList(g, v));
    |Neighbors(g, v)|
  }

  /* ---------------------------------------------------------------- */
  /* Invariants kept by `add_edge` and `remove_edge`                   */
  /* ---------------------------------------------------------------- */

  /** Every edge is stored in both orientations with one weight. */
  ghost predicate Symmetric(g: Graph) {
    forall a, b :: (a, b) in g.weights ==> (b, a) in g.weights && g.weights[(b, a)] == g.weights[(a, b)]
  }

  /** The adjacency lists say exactly what the weight map says. */
  ghost predicate AdjacencyAgrees(g: Graph) {
    forall a, b :: b in Adj(g, a) <==> (a, b) in g.weights
  }

  /** No adjacency list holds a neighbour twice. */
  ghost predicate AdjacencyDistinct(g: Graph) {
    forall v :: NoDup(Adj(g, v))
  }

  /** No node is joined to itself. */
  ghost predicate LoopFree(g: Graph) {
    forall v :: (v, v) !in g.weights
  }

  /** `nodes()` holds exactly the nodes that have a neighbour. */
  ghost predicate NodesAreEndpoints(g: Graph) {
    forall v :: v in g.nodes <==> Adj(g, v) != []
  }

  /** Every edge appears in `edges()` in one of its orientations. */
  ghost predicate Covered(g: Graph) {
    forall a, b :: (a, b) in g.weights ==> (a, b) in g.edges || (b, a) in g.edges
  }

  ghost predicate Valid(g: Graph) {
    && Symmetric(g)
    && AdjacencyAgrees(g)
    && AdjacencyDistinct(g)
    && LoopFree(g)
    && NodesAreEndpoints(g)
    && Covered(g)
  }

  /**
   * What every graph built by `add_edge` keeps, self-loops included: the
   * adjacency lists agree with the weight map and every edge is listed.
   */
  ghost predicate Built(g: Graph) {
    AdjacencyAgrees(g) && Covered(g)
  }

  /** `edges()` lists every edge exactly once and nothing else. */
  ghost predicate ExactEdges(g: Graph) {
    && (forall e :: e in g.edges ==> e in g.weights)
    && NoDup(g.edges)
    && (forall e :: e in g.edges ==> Flip(e) !in g.edges)
  }

  /** In a valid graph a neighbour is exactly the other end of an edge. */
  lemma NeighborsAreEdges(g: Graph, v: Node)
    requires Valid(g)
    ensures forall n :: n in Neighbors(g, v) <==> EdgeExists(g, v, n)
    ensures v !in Neighbors(g, v)
    ensures NeighborList(g, v) == Adj(g, v)
  {
    DedupOfNoDup(Adj(g, v));
  }

  /* ---------------------------------------------------------------- */
  /* add_edge                                                          */
  /* ---------------------------------------------------------------- */

  /** `add_edge(a, b, w)`. */
  function AddEdge(g: Graph, a: Node, b: Node, w: real): (r: Graph)
    ensures EdgeExists(g, a, b) || EdgeExists(g, b, a) ==> r == g
    ensures !EdgeExists(g, a, b) && !EdgeExists(g, b, a) ==>
      && Weight(r, a, b) == w && Weight(r, b, a) == w
      && a in r.nodes && b in r.nodes
      && b in Neighbors(r, a) && a in Neighbors(r, b)
      && r.edges == g.edges + [(a, b)]
    ensures r.weighted == g.weighted
  {
    if EdgeExists(g, a, b) || EdgeExists(g, b, a) then g
    else
      var adj1 := g.adj[a := Adj(g, a) + [b]];
      var adj2 := adj1[b := (if b in adj1 then adj1[b] else []) + [a]];
      var r := Graph(g.weights[(a, b) := w][(b, a) := w], adj2, g.nodes + {a, b}, g.edges + [(a, b)], g.weighted);
      assert b in Adj(r, a) && a in Adj(r, b);
      r
  }

  /** What `add_edge` of a new pair of distinct nodes does to each part of the graph. */
  lemma AddEdgeShape(g: Graph, a: Node, b: Node, w: real)
    requires !EdgeExists(g, a, b) && !EdgeExists(g, b, a) && a != b
    ensures var r := AddEdge(g, a, b, w);
      && r.weights == g.weights[(a, b) := w][(b, a) := w]
      && Adj(r, a) == Adj(g, a) + [b]
      && Adj(r, b) == Adj(g, b) + [a]
      && (forall v :: v != a && v != b ==> Adj(r, v) == Adj(g, v))
      && r.nodes == g.nodes + {a, b}
      && r.edges == g.edges + [(a, b)]
  {
  }

  /**
   * What `add_edge(a, a, w)` of a new self-loop does: one weight entry, `a`
   * appended twice to its own list and `(a, a)` listed.
   */
  lemma AddEdgeLoopShape(g: Graph, a: Node, w: real)
    requires !EdgeExists(g, a, a)
    ensures var r := AddEdge(g, a, a, w);
      && r.weights == g.weights[(a, a) := w]
      && Adj(r, a) == Adj(g, a) + [a, a]
      && (forall v :: v != a ==> Adj(r, v) == Adj(g, v))
      && r.nodes == g.nodes + {a}
      && r.edges == g.edges + [(a, a)]
  {
  }

  /** `add_edge` changes no edge or weight except those of the pair it adds. */
  lemma AddEdgeFrame(g: Graph, a: Node, b: Node, w: real)
    requires Symmetric(g)
    ensures var r := AddEdge(g, a, b, w);
      && (forall u, v :: EdgeExists(r, u, v) <==> EdgeExists(g, u, v) || (u == a && v == b) || (u == b && v == a))
      && (forall u, v :: EdgeExists(g, u, v) ==> Weight(r, u, v) == Weight(g, u, v))
      && (!EdgeExists(g, a, b) ==> Weight(r, a, b) == w && Weight(r, b, a) == w)
      && g.nodes <= r.nodes
  {
  }

  lemma AddEdgeAdjacency(g: Graph, a: Node, b: Node, w: real)
    requires AdjacencyAgrees(g) && AdjacencyDistinct(g) && a != b
    ensures AdjacencyAgrees(AddEdge(g, a, b, w)) && AdjacencyDistinct(AddEdge(g, a, b, w))
  {
    if !EdgeExists(g, a, b) && !EdgeExists(g, b, a) {
      var r := AddEdge(g, a, b, w);
      AddEdgeShape(g, a, b, w);
      assert b !in Adj(g, a) && a !in Adj(g, b);
      forall v
        ensures NoDup(Adj(r, v))
      {
        assert NoDup(Adj(g, v));
      }
      forall u, v
        ensures v in Adj(r, u) <==> (u, v) in r.weights
      {
        assert v in Adj(g, u) <==> (u, v) in g.weights;
      }
    }
  }

  lemma AddEdgeNodes(g: Graph, a: Node, b: Node, w: real)
    requires NodesAreEndpoints(g)
    ensures NodesAreEndpoints(AddEdge(g, a, b, w))
  {
    if !EdgeExists(g, a, b) && !EdgeExists(g, b, a) {
      var r := AddEdge(g, a, b, w);
      if a == b {
        AddEdgeLoopShape(g, a, w);
      } else {
        AddEdgeShape(g, a, b, w);
      }
      forall v
        ensures v in r.nodes <==> Adj(r, v) != []
      {
        assert v in g.nodes <==> Adj(g, v) != [];
      }
    }
  }

  /** Every graph `add_edge` builds lists each of its edges, self-loops included. */
  lemma AddEdgeCovered(g: Graph, a: Node, b: Node, w: real)
    requires Covered(g)
    ensures Covered(AddEdge(g, a, b, w))
  {
    if !EdgeExists(g, a, b) && !EdgeExists(g, b, a) {
      var r := AddEdge(g, a, b, w);
      if a == b {
        AddEdgeLoopShape(g, a, w);
      } else {
        AddEdgeShape(g, a, b, w);
      }
      forall u, v | (u, v) in r.weights
        ensures (u, v) in r.edges || (v, u) in r.edges
      {
        if (u, v) != (a, b) && (u, v) != (b, a) {
          assert (u, v) in g.edges || (v, u) in g.edges;
        }
      }
    }
  }

  /** Any insertion, self-loops included, keeps the adjacency lists agreeing with the weight map. */
  lemma AddEdgeAgrees(g: Graph, a: Node, b: Node, w: real)
    requires AdjacencyAgrees(g)
    ensures AdjacencyAgrees(AddEdge(g, a, b, w))
  {
    if !EdgeExists(g, a, b) && !EdgeExists(g, b, a) {
      if a == b {
        LoopAgrees(g, a, w);
      } else {
        PairAgrees(g, a, b, w);
      }
    }
  }

  /** A new edge between distinct ends appends each end to the other's list alone. */
  lemma PairAgrees(g: Graph, a: Node, b: Node, w: real)
    requires AdjacencyAgrees(g) && !EdgeExists(g, a, b) && !EdgeExists(g, b, a) && a != b
    ensures AdjacencyAgrees(AddEdge(g, a, b, w))
  {
    var r := AddEdge(g, a, b, w);
    AddEdgeShape(g, a, b, w);
    forall u, v
      ensures v in Adj(r, u) <==> (u, v) in r.weights
    {
      assert v in Adj(g, u) <==> (u, v) in g.weights;
      if u == a {
        assert v in Adj(r, u) <==> v in Adj(g, a) || v == b;
      } else if u == b {
        assert v in Adj(r, u) <==> v in Adj(g, b) || v == a;
      } else {
        assert Adj(r, u) == Adj(g, u);
      }
    }
  }

  /** A new self-loop appends its node to its own list alone. */
  lemma LoopAgrees(g: Graph, a: Node, w: real)
    requires AdjacencyAgrees(g) && !EdgeExists(g, a, a)
    ensures AdjacencyAgrees(AddEdge(g, a, a, w))
  {
    var r := AddEdge(g, a, a, w);
    AddEdgeLoopShape(g, a, w);
    forall u, v
      ensures v in Adj(r, u) <==> (u, v) in r.weights
    {
      assert v in Adj(g, u) <==> (u, v) in g.weights;
      if u == a {
        assert v in Adj(r, u) <==> v in Adj(g, a) || v == a;
      } else {
        assert Adj(r, u) == Adj(g, u);
      }
    }
  }

  /** Every graph `add_edge` builds from a built graph is built, whatever the two ends. */
  lemma AddEdgeBuilt(g: Graph, a: Node, b: Node, w: real)
    requires Built(g)
    ensures Built(AddEdge(g, a, b, w))
  {
    AddEdgeAgrees(g, a, b, w);
    AddEdgeCovered(g, a, b, w);
  }

  /** Any insertion, self-loops included, keeps both orientations of every edge at one weight. */
  lemma AddEdgeKeepsSymmetric(g: Graph, a: Node, b: Node, w: real)
    requires Symmetric(g)
    ensures Symmetric(AddEdge(g, a, b, w))
  {
  }

  lemma AddEdgeSymmetric(g: Graph, a: Node, b: Node, w: real)
    requires Symmetric(g) && LoopFree(g) && a != b
    ensures Symmetric(AddEdge(g, a, b, w)) && LoopFree(AddEdge(g, a, b, w))
  {
  }

  /** `add_edge` of a pair of distinct nodes keeps every invariant. */
  lemma AddEdgeValid(g: Graph, a: Node, b: Node, w: real)
    requires Valid(g) && a != b
    ensures Valid(AddEdge(g, a, b, w))
  {
    AddEdgeSymmetric(g, a, b, w);
    AddEdgeAdjacency(g, a, b, w);
    AddEdgeNodes(g, a, b, w);
    AddEdgeCovered(g, a, b, w);
  }

  /**
   * `add_edge(a, a, w)` is accepted: the pair `(a, a)` becomes an edge and
   * is listed, `a` lands twice on its own list, and the graph is no longer
   * valid.
   */
  lemma AddEdgeSelfLoop(g: Graph, a: Node, w: real)
    requires !EdgeExists(g, a, a)
    ensures var r := AddEdge(g, a, a, w);
      && EdgeExists(r, a, a) && Weight(r, a, a) == w
      && (a, a) in r.edges
      && Adj(r, a) == Adj(g, a) + [a, a]
      && !LoopFree(r) && !AdjacencyDistinct(r) && !Valid(r)
  {
    var r := AddEdge(g, a, a, w);
    AddEdgeLoopShape(g, a, w);
    var n := |Adj(g, a)|;
    assert Adj(r, a)[n] == a == Adj(r, a)[n + 1];
  }

  /** On a valid graph, `add_edge(a, b, w)` keeps the graph valid exactly when `a` and `b` differ. */
  lemma AddEdgeValidIff(g: Graph, a: Node, b: Node, w: real)
    requires Valid(g)
    ensures Valid(AddEdge(g, a, b, w)) <==> a != b
  {
    if a == b {
      AddEdgeSelfLoop(g, a, w);
    } else {
      AddEdgeValid(g, a, b, w);
    }
  }

  /** `add_edge` keeps `edges()` an exact listing. */
  lemma AddEdgeExact(g: Graph, a: Node, b: Node, w: real)
    requires ExactEdges(g) && a != b
    ensures ExactEdges(AddEdge(g, a, b, w))
  {
    var r := AddEdge(g, a, b, w);
    if !EdgeExists(g, a, b) && !EdgeExists(g, b, a) {
      AddEdgeShape(g, a, b, w);
      assert (a, b) !in g.edges && (b, a) !in g.edges;
      forall e | e in r.edges
        ensures e in r.weights && Flip(e) !in r.edges
      {
        if e == (a, b) {
          assert Flip(e) == (b, a);
        } else {
          assert e in g.edges;
          assert Flip(e) != (a, b);
        }
      }
      forall i, j | 0 <= i < j < |r.edges|
        ensures r.edges[i] != r.edges[j]
      {
        if j < |g.edges| {
          assert g.edges[i] != g.edges[j];
        } else {
          assert g.edges[i] in g.edges;
        }
      }
    }
  }

  /* ---------------------------------------------------------------- */
  /* remove_edge                                                       */
  /* ---------------------------------------------------------------- */

  /** `_remove_node(v)`: `set.remove`, a KeyError for an absent node. */
  function RemoveNode(nodes: set<Node>, v: Node): (r: Result<set<Node>>)
    ensures r.Ok? <==> v in nodes
    ensures r.Ok? ==> r.value + {v} == nodes && v !in r.value
  {
    if v in nodes then Ok(nodes - {v}) else Err(KeyError)
  }

  /**
   * The part of `remove_edge(a, b)` before the edge list is touched, for an
   * existing edge: prune endpoints left without neighbours, delete both
   * weight entries and both adjacency entries. Every step that Python
   * performs with `set.remove`, `del` or `list.remove` fails when its target
   * is missing.
   */
  function Unlink(g: Graph, a: Node, b: Node): (r: Result<Graph>)
    requires EdgeExists(g, a, b)
    ensures r.Ok? ==> r.value.edges == g.edges && r.value.weighted == g.weighted
  {
    var n1 :- if |Neighbors(g, a)| == 1 then RemoveNode(g.nodes, a) else Ok(g.nodes);
    var n2 :- if |Neighbors(g, b)| == 1 then RemoveNode(n1, b) else Ok(n1);
    var w1 := g.weights - {(a, b)};
    if (b, a) !in w1 then Err(KeyError)
    else if b !in Adj(g, a) then Err(ValueError)
    else
      var adj1 := g.adj[a := RemoveFirst(Adj(g, a), b)];
      var la := if b in adj1 then adj1[b] else [];
      if a !in la then Err(ValueError)
      else
        Ok(Graph(w1 - {(b, a)}, adj1[b := RemoveFirst(la, a)], n2, g.edges, g.weighted))
  }

  /**
   * The edge-list step of `remove_edge(a, b)`: `_edges.remove((a, b))` then
   * `_edges.remove((b, a))` inside one `try`, so the second removal is not
   * attempted when the first finds nothing.
   */
  function RemoveListed(es: seq<Edge>, a: Node, b: Node): (r: seq<Edge>)
    ensures (a, b) !in es ==> r == es
    ensures forall e :: e in r ==> e in es
    ensures forall e :: e != (a, b) && e != (b, a) ==> (e in r <==> e in es)
  {
    if (a, b) in es then RemoveFirst(RemoveFirst(es, (a, b)), (b, a)) else es
  }

  /** `remove_edge(a, b)` as written. */
  function RemoveEdge(g: Graph, a: Node, b: Node): (r: Result<Graph>)
    ensures !EdgeExists(g, a, b) ==> r == Ok(g)
  {
    if !EdgeExists(g, a, b) then Ok(g)
    else
      var h :- Unlink(g, a, b);
      Ok(h.(edges := RemoveListed(g.edges, a, b)))
  }

  /** `remove_edge(a, b)` with the edge removed from `edges()` in whichever orientation it is listed. */
  function RemoveEdgeFixed(g: Graph, a: Node, b: Node): (r: Result<Graph>)
    ensures !EdgeExists(g, a, b) ==> r == Ok(g)
    ensures r.Ok? && EdgeExists(g, a, b) ==> (a, b) !in r.value.edges && (b, a) !in r.value.edges
  {
    if !EdgeExists(g, a, b) then Ok(g)
    else
      var h :- Unlink(g, a, b);
      Ok(h.(edges := Drop(g.edges, {(a, b), (b, a)})))
  }

  /** What the unlinking step does when every lookup it makes succeeds. */
  lemma UnlinkShape(g: Graph, a: Node, b: Node)
    requires EdgeExists(g, a, b) && EdgeExists(g, b, a) && a != b
    requires a in g.nodes && b in g.nodes && b in Adj(g, a) && a in Adj(g, b)
    ensures Unlink(g, a, b).Ok?
    ensures var h := Unlink(g, a, b).value;
      && h.weights == g.weights - {(a, b), (b, a)}
      && Adj(h, a) == RemoveFirst(Adj(g, a), b)
      && Adj(h, b) == RemoveFirst(Adj(g, b), a)
      && (forall v :: v != a && v != b ==> Adj(h, v) == Adj(g, v))
      && h.nodes == g.nodes - (if |Neighbors(g, a)| == 1 then {a} else {}) - (if |Neighbors(g, b)| == 1 then {b} else {})
  {
  }

  lemma UnlinkSymmetric(g: Graph, a: Node, b: Node)
    requires Symmetric(g) && LoopFree(g) && EdgeExists(g, a, b)
    requires a in g.nodes && b in g.nodes && b in Adj(g, a) && a in Adj(g, b)
    ensures Unlink(g, a, b).Ok?
    ensures Symmetric(Unlink(g, a, b).value) && LoopFree(Unlink(g, a, b).value)
  {
    UnlinkShape(g, a, b);
  }

  lemma UnlinkDistinct(g: Graph, a: Node, b: Node)
    requires Symmetric(g) && LoopFree(g) && AdjacencyAgrees(g) && AdjacencyDistinct(g) && EdgeExists(g, a, b)
    requires a in g.nodes && b in g.nodes
    ensures Unlink(g, a, b).Ok?
    ensures AdjacencyDistinct(Unlink(g, a, b).value)
  {
    assert b in Adj(g, a) && a in Adj(g, b);
    UnlinkShape(g, a, b);
    var h := Unlink(g, a, b).value;
    forall v
      ensures NoDup(Adj(h, v))
    {
      assert NoDup(Adj(g, v));
    }
  }

  lemma UnlinkAgrees(g: Graph, a: Node, b: Node)
    requires Symmetric(g) && LoopFree(g) && AdjacencyAgrees(g) && AdjacencyDistinct(g) && EdgeExists(g, a, b)
    requires a in g.nodes && b in g.nodes
    ensures Unlink(g, a, b).Ok?
    ensures AdjacencyAgrees(Unlink(g, a, b).value)
  {
    assert b in Adj(g, a) && a in Adj(g, b);
    UnlinkShape(g, a, b);
    AgreesWithout(g, Unlink(g, a, b).value, a, b);
  }

  /** Deleting b from the list of a and a from the list of b matches deleting the two weight entries. */
  lemma AgreesWithout(g: Graph, h: Graph, a: Node, b: Node)
    requires AdjacencyAgrees(g) && NoDup(Adj(g, a)) && NoDup(Adj(g, b)) && a != b
    requires h.weights == g.weights - {(a, b), (b, a)}
    requires Adj(h, a) == RemoveFirst(Adj(g, a), b) && Adj(h, b) == RemoveFirst(Adj(g, b), a)
    requires forall v :: v != a && v != b ==> Adj(h, v) == Adj(g, v)
    ensures AdjacencyAgrees(h)
  {
    forall u, v
      ensures v in Adj(h, u) <==> (u, v) in h.weights
    {
      if u == a {
        assert v in Adj(h, a) <==> v in Adj(g, a) && v != b;
      } else if u == b {
        assert v in Adj(h, b) <==> v in Adj(g, b) && v != a;
      } else {
        assert Adj(h, u) == Adj(g, u);
      }
    }
  }

  /** A node leaves `nodes()` exactly when the removed edge was its last one. */
  lemma UnlinkNodes(g: Graph, a: Node, b: Node)
    requires Symmetric(g) && LoopFree(g) && AdjacencyAgrees(g) && AdjacencyDistinct(g) && NodesAreEndpoints(g)
    requires EdgeExists(g, a, b)
    ensures Unlink(g, a, b).Ok?
    ensures var h := Unlink(g, a, b).value;
      && NodesAreEndpoints(h)
      && (a in h.nodes <==> |Neighbors(g, a)| != 1)
      && (b in h.nodes <==> |Neighbors(g, b)| != 1)
  {
    assert b in Adj(g, a) && a in Adj(g, b);
    assert a in g.nodes && b in g.nodes;
    UnlinkShape(g, a, b);
    var h := Unlink(g, a, b).value;
    CardNoDup(Adj(g, a));
    CardNoDup(Adj(g, b));
    assert Adj(h, a) == [] <==> |Neighbors(g, a)| == 1;
    assert Adj(h, b) == [] <==> |Neighbors(g, b)| == 1;
    forall v
      ensures v in h.nodes <==> Adj(h, v) != []
    {
      assert v in g.nodes <==> Adj(g, v) != [];
    }
  }

  /** On a valid graph the unlinking step succeeds and keeps all invariants but the edge-list one. */
  lemma UnlinkValid(g: Graph, a: Node, b: Node)
    requires Valid(g) && EdgeExists(g, a, b)
    ensures Unlink(g, a, b).Ok?
    ensures var h := Unlink(g, a, b).value;
      && h.weights == g.weights - {(a, b), (b, a)}
      && (a in h.nodes <==> |Neighbors(g, a)| != 1)
      && (b in h.nodes <==> |Neighbors(g, b)| != 1)
      && (forall v :: v != a && v != b ==> Adj(h, v) == Adj(g, v))
      && Symmetric(h) && AdjacencyAgrees(h) && AdjacencyDistinct(h) && LoopFree(h) && NodesAreEndpoints(h)
  {
    assert b in Adj(g, a) && a in Adj(g, b);
    assert a in g.nodes && b in g.nodes;
    UnlinkShape(g, a, b);
    UnlinkSymmetric(g, a, b);
    UnlinkDistinct(g, a, b);
    UnlinkAgrees(g, a, b);
    UnlinkNodes(g, a, b);
  }

  /** Replacing the edge list by one that still lists every remaining edge keeps the graph valid. */
  lemma RelistValid(g: Graph, h: Graph, es: seq<Edge>, a: Node, b: Node)
    requires Covered(g) && h.weights == g.weights - {(a, b), (b, a)}
    requires Symmetric(h) && AdjacencyAgrees(h) && AdjacencyDistinct(h) && LoopFree(h) && NodesAreEndpoints(h)
    requires forall e :: e != (a, b) && e != (b, a) && e in g.edges ==> e in es
    ensures Valid(h.(edges := es))
  {
    var k := h.(edges := es);
    forall v
      ensures Adj(k, v) == Adj(h, v)
    {
    }
    forall u, v | (u, v) in k.weights
      ensures (u, v) in k.edges || (v, u) in k.edges
    {
      assert (u, v) in g.edges || (v, u) in g.edges;
    }
  }

  /** Unlinking an edge and relisting the rest of the edges keeps a valid graph valid. */
  lemma UnlinkRelisted(g: Graph, a: Node, b: Node, es: seq<Edge>)
    requires Valid(g) && EdgeExists(g, a, b)
    requires forall e :: e != (a, b) && e != (b, a) && e in g.edges ==> e in es
    ensures Unlink(g, a, b).Ok? && Valid(Unlink(g, a, b).value.(edges := es))
  {
    UnlinkValid(g, a, b);
    RelistValid(g, Unlink(g, a, b).value, es, a, b);
  }

  lemma RemoveEdgeUnfold(g: Graph, a: Node, b: Node)
    requires EdgeExists(g, a, b) && Unlink(g, a, b).Ok?
    ensures RemoveEdge(g, a, b) == Ok(Unlink(g, a, b).value.(edges := RemoveListed(g.edges, a, b)))
    ensures RemoveEdgeFixed(g, a, b) == Ok(Unlink(g, a, b).value.(edges := Drop(g.edges, {(a, b), (b, a)})))
  {
  }

  lemma RemoveEdgeKeepsValid(g: Graph, a: Node, b: Node)
    requires Valid(g)
    ensures RemoveEdge(g, a, b).Ok? && Valid(RemoveEdge(g, a, b).value)
  {
    if EdgeExists(g, a, b) {
      UnlinkValid(g, a, b);
      RemoveEdgeUnfold(g, a, b);
      RelistValid(g, Unlink(g, a, b).value, RemoveListed(g.edges, a, b), a, b);
    }
  }

  lemma RemoveEdgeEndpoints(g: Graph, a: Node, b: Node)
    requires Valid(g)
    ensures RemoveEdge(g, a, b).Ok?
    ensures var h := RemoveEdge(g, a, b).value;
      && !EdgeExists(h, a, b) && !EdgeExists(h, b, a)
      && (EdgeExists(g, a, b) ==> (a in h.nodes <==> Degree(g, a) != 1) && (b in h.nodes <==> Degree(g, b) != 1))
  {
    if EdgeExists(g, a, b) {
      UnlinkValid(g, a, b);
      RemoveEdgeUnfold(g, a, b);
    }
  }

  lemma RemoveEdgeFrame(g: Graph, a: Node, b: Node)
    requires Valid(g)
    ensures RemoveEdge(g, a, b).Ok?
    ensures var h := RemoveEdge(g, a, b).value;
      && (forall v :: v != a && v != b ==> Adj(h, v) == Adj(g, v))
      && (forall u, v :: (u, v) != (a, b) && (u, v) != (b, a) ==> (EdgeExists(h, u, v) <==> EdgeExists(g, u, v)))
  {
    if EdgeExists(g, a, b) {
      RemoveEdgeShape(g, a, b);
    }
  }

  /** Removing an existing edge deletes its two weight entries and leaves other adjacency lists alone. */
  lemma RemoveEdgeShape(g: Graph, a: Node, b: Node)
    requires Valid(g) && EdgeExists(g, a, b)
    ensures RemoveEdge(g, a, b).Ok?
    ensures RemoveEdge(g, a, b).value.weights == g.weights - {(a, b), (b, a)}
    ensures forall v :: v != a && v != b ==> Adj(RemoveEdge(g, a, b).value, v) == Adj(g, v)
  {
    assert EdgeExists(g, b, a) && a != b && a in g.nodes && b in g.nodes && b in Adj(g, a) && a in Adj(g, b);
    UnlinkShape(g, a, b);
    RemoveEdgeUnfold(g, a, b);
  }

  /** `remove_edge` on a valid graph succeeds, keeps every invariant and leaves other nodes alone. */
  lemma RemoveEdgeValid(g: Graph, a: Node, b: Node)
    requires Valid(g)
    ensures RemoveEdge(g, a, b).Ok?
    ensures var h := RemoveEdge(g, a, b).value;
      && Valid(h)
      && !EdgeExists(h, a, b) && !EdgeExists(h, b, a)
      && (EdgeExists(g, a, b) ==> (a in h.nodes <==> Degree(g, a) != 1) && (b in h.nodes <==> Degree(g, b) != 1))
      && (forall v :: v != a && v != b ==> Adj(h, v) == Adj(g, v))
      && (forall u, v :: (u, v) != (a, b) && (u, v) != (b, a) ==> (EdgeExists(h, u, v) <==> EdgeExists(g, u, v)))
  {
    RemoveEdgeKeepsValid(g, a, b);
    RemoveEdgeEndpoints(g, a, b);
    RemoveEdgeFrame(g, a, b);
  }

  lemma RemoveEdgeFixedKeepsValid(g: Graph, a: Node, b: Node)
    requires Valid(g)
    ensures RemoveEdgeFixed(g, a, b).Ok? && Valid(RemoveEdgeFixed(g, a, b).value)
  {
    if EdgeExists(g, a, b) {
      var es := Drop(g.edges, {(a, b), (b, a)});
      assert Unlink(g, a, b).Ok? && Valid(Unlink(g, a, b).value.(edges := es)) by {
        UnlinkRelisted(g, a, b, es);
      }
      RemoveEdgeUnfold(g, a, b);
    }
  }

  lemma RemoveEdgeFixedRemoves(g: Graph, a: Node, b: Node)
    requires Valid(g)
    ensures RemoveEdgeFixed(g, a, b).Ok?
    ensures !EdgeExists(RemoveEdgeFixed(g, a, b).value, a, b) && !EdgeExists(RemoveEdgeFixed(g, a, b).value, b, a)
  {
    if EdgeExists(g, a, b) {
      UnlinkValid(g, a, b);
      RemoveEdgeUnfold(g, a, b);
    } else {
      assert !EdgeExists(g, b, a);
    }
  }

  lemma RemoveEdgeFixedKeepsExact(g: Graph, a: Node, b: Node)
    requires Valid(g) && ExactEdges(g)
    ensures RemoveEdgeFixed(g, a, b).Ok? && ExactEdges(RemoveEdgeFixed(g, a, b).value)
  {
    if EdgeExists(g, a, b) {
      UnlinkValid(g, a, b);
      RemoveEdgeUnfold(g, a, b);
      var h := RemoveEdgeFixed(g, a, b).value;
      assert h.weights == g.weights - {(a, b), (b, a)};
      assert h.edges == Drop(g.edges, {(a, b), (b, a)});
      forall e | e in h.edges
        ensures e in h.weights && Flip(e) !in h.edges
      {
        assert e in g.edges;
      }
    }
  }

  /** The corrected removal keeps every invariant and keeps `edges()` exact. */
  lemma RemoveEdgeFixedExact(g: Graph, a: Node, b: Node)
    requires Valid(g) && ExactEdges(g)
    ensures RemoveEdgeFixed(g, a, b).Ok?
    ensures var h := RemoveEdgeFixed(g, a, b).value;
      && Valid(h) && ExactEdges(h)
      && !EdgeExists(h, a, b) && !EdgeExists(h, b, a)
  {
    RemoveEdgeFixedKeepsValid(g, a, b);
    RemoveEdgeFixedRemoves(g, a, b);
    RemoveEdgeFixedKeepsExact(g, a, b);
  }

  lemma EmptyGraphValid()
    ensures Valid(EmptyGraph) && ExactEdges(EmptyGraph)
  {
  }

  /** The graph with the single edge a-b, as `add_edge("a", "b", 1)` leaves it. */
  lemma SingleEdgeGraph()
    ensures AddEdge(EmptyGraph, "a", "b", 1.0)
      == Graph(map[("a", "b") := 1.0, ("b", "a") := 1.0], map["a" := ["b"], "b" := ["a"]], {"a", "b"}, [("a", "b")], false)
    ensures Valid(AddEdge(EmptyGraph, "a", "b", 1.0)) && ExactEdges(AddEdge(EmptyGraph, "a", "b", 1.0))
  {
    var r := AddEdge(EmptyGraph, "a", "b", 1.0);
    assert ("a", "b") != ("b", "a") && "a" != "b";
    assert r.adj == map["a" := ["b"], "b" := ["a"]] by {
      AddEdgeShape(EmptyGraph, "a", "b", 1.0);
      assert Adj(r, "a") == ["b"] && Adj(r, "b") == ["a"];
      assert r.adj.Keys == {"a", "b"};
    }
    assert r.edges == [("a", "b")];
    assert Valid(r) && ExactEdges(r) by {
      EmptyGraphValid();
      AddEdgeValid(EmptyGraph, "a", "b", 1.0);
      AddEdgeExact(EmptyGraph, "a", "b", 1.0);
    }
  }

  /**
   * The as-written removal leaves a stale entry: after `add_edge("a", "b", 1)`
   * and `remove_edge("b", "a")` the edge is gone but `edges()` still lists it;
   * the corrected removal empties the list.
   */
  lemma RemoveEdgeLeavesStaleEntry()
    ensures var g := AddEdge(EmptyGraph, "a", "b", 1.0);
      var r := RemoveEdge(g, "b", "a");
      && Valid(g) && ExactEdges(g)
      && r.Ok? && !EdgeExists(r.value, "a", "b") && !EdgeExists(r.value, "b", "a")
      && r.value.edges == [("a", "b")]
      && !ExactEdges(r.value)
      && RemoveEdgeFixed(g, "b", "a").Ok? && RemoveEdgeFixed(g, "b", "a").value.edges == []
  {
    SingleEdgeGraph();
    var g := Graph(map[("a", "b") := 1.0, ("b", "a") := 1.0], map["a" := ["b"], "b" := ["a"]], {"a", "b"}, [("a", "b")], false);
    assert Neighbors(g, "a") == {"b"} && Neighbors(g, "b") == {"a"};
    var u := Graph(map[], map["a" := [], "b" := []], {}, [("a", "b")], false);
    assert "a" != "b" by { assert "a"[0] != "b"[0]; }
    assert g.nodes - {"b"} == {"a"};
    assert RemoveNode(g.nodes, "b") == Ok({"a"});
    assert {"a"} - {"a"} == {};
    assert RemoveNode({"a"}, "a") == Ok({});
    assert RemoveFirst(["a"], "a") == [] && RemoveFirst(["b"], "b") == [];
    assert g.weights - {("b", "a")} - {("a", "b")} == map[];
    assert g.adj["b" := []]["a" := []] == map["a" := [], "b" := []];
    assert Unlink(g, "b", "a") == Ok(u);
    assert ("b", "a") !in g.edges;
    assert RemoveEdge(g, "b", "a") == Ok(u);
    assert Drop(g.edges, {("b", "a"), ("a", "b")}) == [];
    assert ("a", "b") in u.edges && ("a", "b") !in u.weights;
  }
}

=== FILE: scenarios.dfy ===
/**
 * Worked examples: what the engine computes on the graph with the single
 * edge a-b, stated and proved. They exhibit the two places where the engine
 * as written departs from the rule it states elsewhere, and show the
 * corrected members behaving as intended. A last example adds a self-loop,
 * which `add_edge` accepts, and shows a dependency leaving [0, 1].
 */
module Scenarios {
  import opened Wrappers
  import opened Seqs
  import opened Network
  import opened DependencyScore
  import opened Tolerance
  import opened DepEngine
  import opened MDep

  /** The network `add_edge("a", "b", 1)` builds from an empty one (see `SingleEdgeGraph`). */
  function PairGraph(): Graph {
    Graph(map[("a", "b") := 1.0, ("b", "a") := 1.0], map["a" := ["b"], "b" := ["a"]], {"a", "b"}, [("a", "b")], false)
  }

  /** `PairGraph()` is what `add_edge` builds: a valid graph listing its one edge exactly. */
  lemma PairGraphShape()
    ensures PairGraph() == AddEdge(EmptyGraph, "a", "b", 1.0)
    ensures Valid(PairGraph()) && ExactEdges(PairGraph()) && NonNegative(PairGraph())
  {
    SingleEdgeGraph();
  }

  /** In the single-edge graph each end is the other's only neighbour. */
  lemma PairNeighbors()
    ensures Neighbors(PairGraph(), "a") == {"b"} && Neighbors(PairGraph(), "b") == {"a"}
  {
    assert Adj(PairGraph(), "a") == ["b"] && Adj(PairGraph(), "b") == ["a"];
  }

  /** Two nodes that are each other's only neighbour in an unweighted graph depend on each other completely. */
  lemma MutualLeaves(g: Graph, a: Node, b: Node)
    requires Valid(g) && !g.weighted && Neighbors(g, a) == {b} && Neighbors(g, b) == {a}
    ensures Dependency(g, a, b) == 1.0 && Dependency(g, b, a) == 1.0
  {
    LeafDependency(g, a, b);
    LeafDependency(g, b, a);
  }

  /** In the single-edge graph each end depends on the other completely. */
  lemma PairDependencies()
    ensures PairGraph() == AddEdge(EmptyGraph, "a", "b", 1.0)
    ensures Valid(PairGraph()) && ExactEdges(PairGraph()) && NonNegative(PairGraph())
    ensures Dependency(PairGraph(), "a", "b") == 1.0 && Dependency(PairGraph(), "b", "a") == 1.0
  {
    PairGraphShape();
    PairNeighbors();
    MutualLeaves(PairGraph(), "a", "b");
  }

  /** On any ready matrix of the single-edge graph both matrix entries are 1. */
  lemma PairMatrix(dm: DepMatrix)
    requires Ready(dm) && dm.g == PairGraph()
    ensures ("a", "b") in dm.deps && ("b", "a") in dm.deps
    ensures dm.deps[("a", "b")] == 1.0 && dm.deps[("b", "a")] == 1.0
  {
    assert ("a", "b") in dm.deps && ("b", "a") in dm.deps by {
      assert ("a", "b") in dm.g.edges;
    }
    assert Dependency(dm.g, "a", "b") == 1.0 && Dependency(dm.g, "b", "a") == 1.0 by {
      PairDependencies();
    }
  }

  /** The mDep network of the single-edge graph keeps a-b exactly when 1 passes the threshold. */
  lemma PairNetwork(dm: DepMatrix, t: real)
    requires Ready(dm) && dm.g == PairGraph()
    ensures EdgeExists(MDepGraph(dm, t), "a", "b") <==> GreaterOrEqual(1.0, t)
  {
    PairMatrix(dm);
    assert ExactEdges(dm.g) && EdgeExists(dm.g, "a", "b") by {
      PairDependencies();
    }
    MDepGraphEdges(dm, t);
  }

  /** The one neighbour pair of a, read from a ready matrix of the single-edge graph. */
  lemma PairNeighborDeps(dm: DepMatrix)
    requires Ready(dm) && dm.g == PairGraph()
    ensures forall n :: n in NeighborList(dm.g, "a") ==> ("a", n) in dm.deps && (n, "a") in dm.deps
    ensures NeighborDeps(dm, "a", NeighborList(dm.g, "a")) == [(1.0, 1.0)]
  {
    PairMatrix(dm);
    assert NeighborList(dm.g, "a") == ["b"] by {
      PairDependencies();
      NeighborsAreEdges(dm.g, "a");
    }
  }

  /**
   * A neighbour pair with both dependencies 1, under a threshold just above 1
   * that 1 still reaches within the tolerance: the code's branch chain counts
   * it as "no dependency", the corrected classification as mutual.
   */
  lemma PairCounts(t: real)
    requires 1.0 < t && GreaterOrEqual(1.0, t)
    ensures Tally(ClassifyAllAsWritten([(1.0, 1.0)], t)) == NodeDeps(0, 1, 0, 0)
    ensures Tally(ClassifyAll([(1.0, 1.0)], t)) == NodeDeps(1, 0, 0, 0)
  {
    var ps := [(1.0, 1.0)];
    assert ps[1..] == [];
    assert ClassifyAllAsWritten(ps, t) == [Some(NoDep)];
    assert ClassifyAll(ps, t) == [Some(MutualDep)];
    TallySingle(NoDep);
    TallySingle(MutualDep);
  }

  /**
   * At threshold 1.0000001 both dependencies of the pair a-b (1 and 1) are
   * within the tolerance, so the mDep network joins a and b; `get_node_deps`
   * as written counts the pair as "no dependency" because its strict `<`
   * test comes first, while the corrected count calls it mutual.
   * `NewEngine(PairGraph(), FloatArg(1.0000001))` is such an engine.
   */
  lemma NodeDepsToleranceGap(e: Engine)
    requires EngineReady(e) && e.dm.g == PairGraph() && e.threshold == Some(1.0000001)
    ensures GetNodeDepsAsWritten(e, "a") == NodeDeps(0, 1, 0, 0)
    ensures GetNodeDeps(e, "a") == NodeDeps(1, 0, 0, 0)
    ensures EdgeExists(MDepNetwork(e), "a", "b")
  {
    var t := 1.0000001;
    assert EngineBuilt(e);
    assert Threshold(e) == t;
    PairNeighborDeps(e.dm);
    var ps := NeighborDeps(e.dm, "a", NeighborList(e.dm.g, "a"));
    assert ps == [(1.0, 1.0)];
    assert GreaterOrEqual(1.0, t);
    PairCounts(t);
    assert GetNodeDepsAsWritten(e, "a") == Tally(ClassifyAllAsWritten(ps, t));
    assert GetNodeDeps(e, "a") == Tally(ClassifyAll(ps, t));
    PairNetwork(e.dm, t);
  }

  /**
   * The setter as written: after the network is built at threshold 0.5,
   * raising the threshold to 2 leaves the cached network with the edge a-b,
   * although the network at threshold 2 has none; the corrected setter
   * drops the cache and the next network has no edge.
   * `NewEngine(PairGraph(), FloatArg(0.5))` is such a starting engine.
   */
  lemma StaleNetworkAfterSetter(e0: Engine)
    requires EngineReady(e0) && e0.dm.g == PairGraph() && e0.threshold == Some(0.5) && e0.cache == None
    ensures var e1 := GetMDepNetwork(e0).1;
      && EdgeExists(GetMDepNetwork(SetThreshold(e1, 2.0)).0, "a", "b")
      && !EdgeExists(MDepNetwork(SetThreshold(e1, 2.0)), "a", "b")
      && !EdgeExists(GetMDepNetwork(SetThresholdFixed(e1, 2.0)).0, "a", "b")
  {
    assert Threshold(e0) == 0.5;
    PairNetwork(e0.dm, 0.5);
    PairNetwork(e0.dm, 2.0);
    assert GetMDepNetwork(e0).0 == MDepGraph(e0.dm, 0.5);
  }

  /** Both scenarios start from engines the constructor builds. */
  lemma ScenarioEnginesExist()
    ensures Valid(PairGraph())
    ensures var e := NewEngine(PairGraph(), FloatArg(1.0000001));
      EngineReady(e) && e.dm.g == PairGraph() && e.threshold == Some(1.0000001)
    ensures var e := NewEngine(PairGraph(), FloatArg(0.5));
      EngineReady(e) && e.dm.g == PairGraph() && e.threshold == Some(0.5) && e.cache == None
  {
    PairDependencies();
  }

  /** The network `add_edge("x", "y", 1)` then `add_edge("y", "y", 1)` builds from an empty one. */
  function LoopGraph(): Graph {
    Graph(
      map[("x", "y") := 1.0, ("y", "x") := 1.0, ("y", "y") := 1.0],
      map["x" := ["y"], "y" := ["x", "y", "y"]],
      {"x", "y"}, [("x", "y"), ("y", "y")], false)
  }

  /** The graph `add_edge("x", "y", 1)` builds from an empty one. */
  lemma LoopFirstEdge()
    ensures AddEdge(EmptyGraph, "x", "y", 1.0)
      == Graph(map[("x", "y") := 1.0, ("y", "x") := 1.0], map["x" := ["y"], "y" := ["x"]], {"x", "y"}, [("x", "y")], false)
  {
    var r := AddEdge(EmptyGraph, "x", "y", 1.0);
    assert ("x", "y") != ("y", "x") && "x" != "y";
    assert r.adj == map["x" := ["y"], "y" := ["x"]] by {
      AddEdgeShape(EmptyGraph, "x", "y", 1.0);
      assert Adj(r, "x") == ["y"] && Adj(r, "y") == ["x"];
      assert r.adj.Keys == {"x", "y"};
    }
    assert r.edges == [("x", "y")];
  }

  /** `LoopGraph()` is what the two `add_edge` calls build. */
  lemma LoopGraphBuilt()
    ensures LoopGraph() == AddEdge(AddEdge(EmptyGraph, "x", "y", 1.0), "y", "y", 1.0)
  {
    var g1 := AddEdge(EmptyGraph, "x", "y", 1.0);
    LoopFirstEdge();
    var r := AddEdge(g1, "y", "y", 1.0);
    AddEdgeLoopShape(g1, "y", 1.0);
    assert r.adj == LoopGraph().adj by {
      assert Adj(r, "x") == ["y"] && Adj(r, "y") == ["x", "y", "y"];
      assert r.adj.Keys == {"x", "y"};
    }
    assert r.weights == LoopGraph().weights;
  }

  /** The self-loop graph lists every edge but is not a valid graph. */
  lemma LoopGraphShape()
    ensures LoopGraph() == AddEdge(AddEdge(EmptyGraph, "x", "y", 1.0), "y", "y", 1.0)
    ensures Covered(LoopGraph()) && !Valid(LoopGraph())
  {
    LoopGraphBuilt();
    LoopFirstEdge();
    AddEdgeSelfLoop(AddEdge(EmptyGraph, "x", "y", 1.0), "y", 1.0);
  }

  /**
   * With the self-loop on y, x depends on y by 3/2: y is both x's neighbour
   * and a common neighbour of x and y, so the path x-y-y adds half a weight.
   */
  lemma LoopDependency()
    ensures Dependency(LoopGraph(), "x", "y") == 1.5
  {
    var g := LoopGraph();
    assert Adj(g, "x") == ["y"] && Adj(g, "y") == ["x", "y", "y"];
    assert NeighborList(g, "x") == ["y"] by {
      assert Dedup(["y"]) == ["y"];
    }
    assert Neighbors(g, "y") == {"x", "y"};
    assert CommonNeighborList(g, "x", "y") == ["y"];
    assert Degree(g, "x") == 1;
    assert WeightedDegree(g, "x") == 1.0;
  }

  /** The constructor accepts the self-loop graph, and its matrix holds the dependency 3/2. */
  lemma LoopEngine()
    ensures Covered(LoopGraph())
    ensures var e := NewEngine(LoopGraph(), NoArg);
      ("x", "y") in e.dm.deps && e.dm.deps[("x", "y")] == 1.5
  {
    LoopGraphShape();
    LoopDependency();
    assert ("x", "y") in LoopGraph().edges;
  }

  /**
   * The self-loop graph is built, so the engine over it is built though not
   * ready: `get_node_deps`, the mDep network and `get_complexes` all accept it.
   */
  lemma LoopEngineBuilt()
    ensures Built(LoopGraph())
    ensures var e := NewEngine(LoopGraph(), NoArg);
      EngineBuilt(e) && !EngineReady(e)
  {
    var g1 := AddEdge(EmptyGraph, "x", "y", 1.0);
    EmptyGraphValid();
    AddEdgeBuilt(EmptyGraph, "x", "y", 1.0);
    AddEdgeBuilt(g1, "y", "y", 1.0);
    LoopGraphShape();
  }

  /** y has two distinct neighbours in the self-loop graph: x and itself. */
  lemma LoopDegree()
    ensures NeighborList(LoopGraph(), "y") == ["x", "y"]
    ensures Degree(LoopGraph(), "y") == 2
  {
    var g := LoopGraph();
    assert Adj(g, "y") == ["x", "y", "y"];
    assert Neighbors(g, "y") == {"x", "y"};
    assert Dedup(["x", "y", "y"][..2]) == ["x", "y"] by {
      assert Dedup(["x"]) == ["x"];
      assert ["x", "y"][..1] == ["x"];
    }
    assert ["x", "y", "y"][..2] == ["x", "y"];
  }

  /**
   * `get_node_deps("y")` on an engine over the self-loop graph, such as
   * `NewEngine(LoopGraph(), NoArg)`, reads both x and y itself from the
   * matrix: either count gives y two classified neighbours.
   */
  lemma LoopNodeDeps(e: Engine)
    requires EngineBuilt(e) && e.dm.g == LoopGraph()
    ensures Total(GetNodeDeps(e, "y")) == 2
    ensures Total(GetNodeDepsAsWritten(e, "y")) == 2
  {
    LoopDegree();
  }
}

=== FILE: scores.dfy ===
/**
 * The agreement scores of `mdepstar_analysis/scores.py` between a list of
 * reference complexes and a list of predicted ones: the overlap score of
 * two complexes, precision, recall, their F-measure and the predictive
 * matching ratio.
 */
module Scores {
  import opened Wrappers
  import opened Seqs
  import opened Arith

  /** A protein complex: a set of protein names. */
  type Complex = set<string>

  /** No complex in the list is empty. */
  predicate NoEmpty(cs: seq<Complex>) {
    forall k :: 0 <= k < |cs| ==> |cs[k]| > 0
  }

  /* ---------------------------------------------------------------- */
  /* overlap_score                                                     */
  /* ---------------------------------------------------------------- */

  /** `|a & b|^2 / (|a| |b|)` for two non-empty complexes. */
  function OverlapValue(a: Complex, b: Complex): real
    requires |a| > 0 && |b| > 0
  {
    var i := |a * b|;
    (i * i) as real / (|a| * |b|) as real
  }

  /** `overlap_score(a, b)`: the division fails when either complex is empty. */
  function Overlap(a: Complex, b: Complex): (r: Result<real>)
    ensures r.Err? <==> |a| == 0 || |b| == 0
    ensures r.Err? ==> r.error == ZeroDivisionError
    ensures r.Ok? ==> r.value == OverlapValue(a, b)
  {
    if |a| == 0 || |b| == 0 then Err(ZeroDivisionError) else Ok(OverlapValue(a, b))
  }

  lemma OverlapSymmetric(a: Complex, b: Complex)
    ensures Overlap(a, b) == Overlap(b, a)
  {
    assert a * b == b * a;
    if |a| > 0 && |b| > 0 {
      assert |a| * |b| == |b| * |a|;
    }
  }

  lemma SquareBelowProduct(i: nat, x: nat, y: nat)
    requires i <= x && i <= y
    ensures i * i <= x * y
  {
    assert i * i <= i * y;
  }

  lemma SquareIsProduct(i: nat, x: nat, y: nat)
    requires i <= x && i <= y && 0 < x && 0 < y && i * i == x * y
    ensures i == x && i == y
  {
    var u := (x - i) * y;
    var v := i * (y - i);
    assert x * y - i * i == u + v;
    NonNegativeProduct(x - i, y);
    NonNegativeProduct(i, y - i);
    PositiveProduct(x - i, y);
    PositiveProduct(i, y - i);
  }

  lemma NonNegativeProduct(a: int, b: int)
    ensures a >= 0 && b >= 0 ==> a * b >= 0
  {
  }

  lemma PositiveProduct(a: int, b: int)
    ensures a > 0 && b > 0 ==> a * b > 0
  {
  }

  lemma EqualCardSubset(s: Complex, t: Complex)
    requires s <= t && |s| == |t|
    ensures s == t
  {
    assert |t - s| == |t| - |s|;
  }

  /** Scores lie in the unit interval. */
  lemma OverlapInUnit(a: Complex, b: Complex)
    requires |a| > 0 && |b| > 0
    ensures 0.0 <= OverlapValue(a, b) <= 1.0
  {
    var i := |a * b|;
    SubsetCard(a * b, a);
    SubsetCard(a * b, b);
    SquareBelowProduct(i, |a|, |b|);
    DivInUnit((i * i) as real, (|a| * |b|) as real);
  }

  /** The score is 1 exactly for two equal non-empty complexes. */
  lemma OverlapIsOne(a: Complex, b: Complex)
    ensures Overlap(a, b) == Ok(1.0) <==> |a| > 0 && a == b
  {
    if |a| > 0 && |b| > 0 {
      var i := |a * b|;
      var d := (|a| * |b|) as real;
      if OverlapValue(a, b) == 1.0 {
        assert (i * i) as real == d;
        SubsetCard(a * b, a);
        SubsetCard(a * b, b);
        SquareIsProduct(i, |a|, |b|);
        EqualCardSubset(a * b, a);
        EqualCardSubset(a * b, b);
      }
      if a == b {
        assert a * b == a;
      }
    }
  }

  /** The score is 0 exactly for two disjoint non-empty complexes. */
  lemma OverlapIsZero(a: Complex, b: Complex)
    ensures Overlap(a, b) == Ok(0.0) <==> |a| > 0 && |b| > 0 && a * b == {}
  {
    if |a| > 0 && |b| > 0 {
      var i := |a * b|;
      assert OverlapValue(a, b) == 0.0 <==> i * i == 0;
    }
  }

  /* ---------------------------------------------------------------- */
  /* precision and recall                                              */
  /* ---------------------------------------------------------------- */

  /** Some complex of `cs` overlaps `c` by more than `threshold`. */
  ghost predicate Matched(c: Complex, cs: seq<Complex>, threshold: real)
    requires |c| > 0 && NoEmpty(cs)
  {
    exists k :: 0 <= k < |cs| && OverlapValue(cs[k], c) > threshold
  }

  /**
   * The inner loop of `precision` and `recall`: scan `cs` in order and
   * stop at the first complex that overlaps `c` by more than `threshold`.
   * `precision` scores `overlap_score(ref, pred)` with `c` the prediction,
   * `recall` scores it with `c` the reference (`cIsRef`).
   */
  function MatchesAny(c: Complex, cs: seq<Complex>, threshold: real, cIsRef: bool): (r: Result<bool>)
    ensures r.Err? ==> r.error == ZeroDivisionError
  {
    if cs == [] then Ok(false)
    else
      var s :- if cIsRef then Overlap(c, cs[0]) else Overlap(cs[0], c);
      if s > threshold then Ok(true) else MatchesAny(c, cs[1..], threshold, cIsRef)
  }

  /** The scan stops at the first match and so agrees with "some complex matches". */
  lemma {:induction false} MatchesAnySpec(c: Complex, cs: seq<Complex>, threshold: real, cIsRef: bool)
    requires |c| > 0 && NoEmpty(cs)
    ensures MatchesAny(c, cs, threshold, cIsRef) == Ok(Matched(c, cs, threshold))
  {
    if cs != [] {
      OverlapSymmetric(c, cs[0]);
      assert NoEmpty(cs[1..]) by {
        assert forall k :: 0 <= k < |cs[1..]| ==> cs[1..][k] == cs[k + 1];
      }
      MatchesAnySpec(c, cs[1..], threshold, cIsRef);
      if !(OverlapValue(cs[0], c) > threshold) {
        if Matched(c, cs, threshold) {
          var k :| 0 <= k < |cs| && OverlapValue(cs[k], c) > threshold;
          assert cs[1..][k - 1] == cs[k];
        }
        if Matched(c, cs[1..], threshold) {
          var k :| 0 <= k < |cs[1..]| && OverlapValue(cs[1..][k], c) > threshold;
          assert cs[k + 1] == cs[1..][k];
        }
      }
    }
  }

  /**
   * The outer loop: the number of complexes of `outer` for which the scan
   * over `inner` finds a match; the first failing overlap aborts the count.
   */
  function CountMatched(outer: seq<Complex>, inner: seq<Complex>, threshold: real, outerIsRef: bool): (r: Result<nat>)
    ensures r.Ok? ==> r.value <= |outer|
    ensures r.Err? ==> r.error == ZeroDivisionError
  {
    if outer == [] then Ok(0)
    else
      var hit :- MatchesAny(outer[0], inner, threshold, outerIsRef);
      var rest :- CountMatched(outer[1..], inner, threshold, outerIsRef);
      Ok(if hit then rest + 1 else rest)
  }

  /** The number of complexes of `outer` that some complex of `inner` matches. */
  ghost function MatchedCount(outer: seq<Complex>, inner: seq<Complex>, threshold: real): (r: nat)
    requires NoEmpty(outer) && NoEmpty(inner)
    ensures r <= |outer|
  {
    if outer == [] then 0
    else
      assert NoEmpty(outer[1..]) by {
        assert forall k :: 0 <= k < |outer[1..]| ==> outer[1..][k] == outer[k + 1];
      }
      (if Matched(outer[0], inner, threshold) then 1 else 0) + MatchedCount(outer[1..], inner, threshold)
  }

  /** Without empty complexes the count never fails and counts the matched complexes. */
  lemma {:induction false} CountMatchedSpec(outer: seq<Complex>, inner: seq<Complex>, threshold: real, outerIsRef: bool)
    requires NoEmpty(outer) && NoEmpty(inner)
    ensures CountMatched(outer, inner, threshold, outerIsRef) == Ok(MatchedCount(outer, inner, threshold))
  {
    if outer != [] {
      MatchesAnySpec(outer[0], inner, threshold, outerIsRef);
      assert NoEmpty(outer[1..]) by {
        assert forall k :: 0 <= k < |outer[1..]| ==> outer[1..][k] == outer[k + 1];
      }
      CountMatchedSpec(outer[1..], inner, threshold, outerIsRef);
    }
  }

  /** The order of the arguments of `overlap_score` does not change the scan. */
  lemma {:induction false} MatchesAnySwap(c: Complex, cs: seq<Complex>, threshold: real)
    ensures MatchesAny(c, cs, threshold, true) == MatchesAny(c, cs, threshold, false)
  {
    if cs != [] {
      OverlapSymmetric(c, cs[0]);
      MatchesAnySwap(c, cs[1..], threshold);
    }
  }

  lemma {:induction false} CountMatchedSwap(outer: seq<Complex>, inner: seq<Complex>, threshold: real)
    ensures CountMatched(outer, inner, threshold, true) == CountMatched(outer, inner, threshold, false)
  {
    if outer != [] {
      MatchesAnySwap(outer[0], inner, threshold);
      CountMatchedSwap(outer[1..], inner, threshold);
    }
  }

  /**
   * `precision(reference, predicted, threshold)`: the share of predicted
   * complexes that overlap some reference complex by more than the
   * threshold; it fails on an empty prediction list.
   */
  function Precision(reference: seq<Complex>, predicted: seq<Complex>, threshold: real): (r: Result<real>)
    ensures |predicted| == 0 ==> r == Err(ZeroDivisionError)
    ensures r.Ok? ==> 0.0 <= r.value <= 1.0
  {
    var counter :- CountMatched(predicted, reference, threshold, false);
    if |predicted| == 0 then Err(ZeroDivisionError)
    else
      DivInUnit(counter as real, |predicted| as real);
      Ok(counter as real / |predicted| as real)
  }

  /**
   * `recall(reference, predicted, threshold)`: the share of reference
   * complexes that some predicted complex overlaps by more than the
   * threshold; it fails on an empty reference list.
   */
  function Recall(reference: seq<Complex>, predicted: seq<Complex>, threshold: real): (r: Result<real>)
    ensures |reference| == 0 ==> r == Err(ZeroDivisionError)
    ensures r.Ok? ==> 0.0 <= r.value <= 1.0
  {
    var counter :- CountMatched(reference, predicted, threshold, true);
    if |reference| == 0 then Err(ZeroDivisionError)
    else
      DivInUnit(counter as real, |reference| as real);
      Ok(counter as real / |reference| as real)
  }

  /** Recall is precision with the two lists exchanged, failures included. */
  lemma RecallIsSwappedPrecision(reference: seq<Complex>, predicted: seq<Complex>, threshold: real)
    ensures Recall(reference, predicted, threshold) == Precision(predicted, reference, threshold)
  {
    CountMatchedSwap(reference, predicted, threshold);
  }

  /** Without empty complexes, precision is the matched share of the predictions. */
  lemma PrecisionSpec(reference: seq<Complex>, predicted: seq<Complex>, threshold: real)
    requires NoEmpty(reference) && NoEmpty(predicted) && |predicted| > 0
    ensures Precision(reference, predicted, threshold)
      == Ok(MatchedCount(predicted, reference, threshold) as real / |predicted| as real)
  {
    CountMatchedSpec(predicted, reference, threshold, false);
  }

  /** Every complex of `outer` that also occurs in `inner` is matched below a threshold under 1. */
  lemma {:induction false} MatchedCountOfCopies(outer: seq<Complex>, inner: seq<Complex>, threshold: real)
    requires NoEmpty(outer) && NoEmpty(inner) && threshold < 1.0
    requires forall k :: 0 <= k < |outer| ==> outer[k] in inner
    ensures MatchedCount(outer, inner, threshold) == |outer|
  {
    if outer != [] {
      var c := outer[0];
      var j :| 0 <= j < |inner| && inner[j] == c;
      OverlapIsOne(inner[j], c);
      assert Matched(c, inner, threshold);
      assert NoEmpty(outer[1..]) by {
        assert forall k :: 0 <= k < |outer[1..]| ==> outer[1..][k] == outer[k + 1];
      }
      assert forall k :: 0 <= k < |outer[1..]| ==> outer[1..][k] in inner by {
        assert forall k :: 0 <= k < |outer[1..]| ==> outer[1..][k] == outer[k + 1];
      }
      MatchedCountOfCopies(outer[1..], inner, threshold);
    }
  }

  /** Predicting only complexes of the reference gives precision 1 below a threshold under 1. */
  lemma PrecisionOfCopies(reference: seq<Complex>, predicted: seq<Complex>, threshold: real)
    requires NoEmpty(reference) && NoEmpty(predicted) && |predicted| > 0 && threshold < 1.0
    requires forall k :: 0 <= k < |predicted| ==> predicted[k] in reference
    ensures Precision(reference, predicted, threshold) == Ok(1.0)
  {
    var n := |predicted| as real;
    assert n / n == 1.0;
    PrecisionSpec(reference, predicted, threshold);
    MatchedCountOfCopies(predicted, reference, threshold);
  }

  /* ---------------------------------------------------------------- */
  /* F_measure                                                         */
  /* ---------------------------------------------------------------- */

  /**
   * `F_measure(p, r)`: the harmonic mean `2 p r / (p + r)`, 0 when both
   * are 0; the division fails when `p + r` is 0 otherwise.
   */
  function FMeasure(p: real, r: real): (f: Result<real>)
    ensures f.Err? <==> p + r == 0.0 && !(p == 0.0 && r == 0.0)
  {
    if r == 0.0 && p == 0.0 then Ok(0.0)
    else if p + r == 0.0 then Err(ZeroDivisionError)
    else Ok(2.0 * p * r / (p + r))
  }

  lemma FMeasureSymmetric(p: real, r: real)
    ensures FMeasure(p, r) == FMeasure(r, p)
  {
    assert 2.0 * p * r == 2.0 * r * p;
  }

  /** Of two non-negative scores, the F-measure lies between the smaller and the larger. */
  lemma FMeasureBetween(p: real, r: real)
    requires 0.0 <= p && 0.0 <= r
    ensures FMeasure(p, r).Ok?
    ensures Min(p, r) <= FMeasure(p, r).value <= Max(p, r)
  {
    if p + r != 0.0 {
      if p <= r {
        HarmonicBetween(p, r);
      } else {
        HarmonicBetween(r, p);
        assert 2.0 * p * r == 2.0 * r * p && p + r == r + p;
      }
    }
  }

  /** The harmonic mean `2 lo hi / (lo + hi)` of `0 <= lo <= hi` lies between them. */
  lemma HarmonicBetween(lo: real, hi: real)
    requires 0.0 <= lo <= hi && 0.0 < lo + hi
    ensures lo <= 2.0 * lo * hi / (lo + hi) <= hi
  {
    var d := lo + hi;
    var n := 2.0 * lo * hi;
    QuotientTimes(n, d);
    HarmonicBounds(lo, hi, d);
    BetweenByProducts(n / d, lo, hi, d);
  }

  lemma QuotientTimes(n: real, d: real)
    requires d != 0.0
    ensures n / d * d == n
  {
  }

  /** For `0 <= lo <= hi` and `d = lo + hi`: `lo d <= 2 lo hi <= hi d`. */
  lemma HarmonicBounds(lo: real, hi: real, d: real)
    requires 0.0 <= lo <= hi && d == lo + hi
    ensures lo * d <= 2.0 * lo * hi <= hi * d
  {
    MulMonotone(lo, lo, hi);
    MulMonotone(hi, lo, hi);
    assert lo * d == lo * lo + lo * hi;
    assert hi * d == hi * lo + hi * hi;
  }

  lemma MulMonotone(c: real, a: real, b: real)
    requires 0.0 <= c && a <= b
    ensures c * a <= c * b
  {
  }

  lemma BetweenByProducts(f: real, lo: real, hi: real, d: real)
    requires d > 0.0 && lo * d <= f * d <= hi * d
    ensures lo <= f <= hi
  {
  }

  /** Equal scores are their own F-measure. */
  lemma FMeasureOfEqual(p: real)
    requires p >= 0.0
    ensures FMeasure(p, p) == Ok(p)
  {
    FMeasureBetween(p, p);
  }

  /* ---------------------------------------------------------------- */
  /* predictive_matching_ratio                                         */
  /* ---------------------------------------------------------------- */

  /** `[overlap_score(c, ref) for ref in refs]`, failing at the first empty complex. */
  function Overlaps(c: Complex, refs: seq<Complex>): (r: Result<seq<real>>)
    ensures r.Ok? ==> |r.value| == |refs|
    ensures r.Ok? <==> (|refs| == 0 || |c| > 0) && NoEmpty(refs)
    ensures r.Ok? ==> forall k :: 0 <= k < |refs| ==> r.value[k] == OverlapValue(c, refs[k])
    ensures r.Err? ==> r.error == ZeroDivisionError
  {
    if refs == [] then Ok([])
    else
      var s :- Overlap(c, refs[0]);
      var rest :- Overlaps(c, refs[1..]);
      assert NoEmpty(refs) by {
        assert forall k :: 1 <= k < |refs| ==> refs[k] == refs[1..][k - 1];
      }
      Ok([s] + rest)
  }

  /** `max(s)` of a non-empty list. */
  function SeqMax(s: seq<real>): (r: real)
    requires |s| > 0
    ensures r in s
    ensures forall k :: 0 <= k < |s| ==> s[k] <= r
  {
    if |s| == 1 then s[0]
    else
      var m := SeqMax(s[1..]);
      assert forall k :: 1 <= k < |s| ==> s[k] == s[1..][k - 1];
      if s[0] >= m then s[0] else m
  }

  /** The best score of `c` against the reference; `max` of an empty list fails. */
  function BestOverlap(c: Complex, refs: seq<Complex>): (r: Result<real>)
    ensures r.Ok? ==> |refs| > 0
  {
    var os :- Overlaps(c, refs);
    if |os| == 0 then Err(ValueError) else Ok(SeqMax(os))
  }

  /** The sum of the best scores above the threshold, one per prediction. */
  function MatchedScoreSum(preds: seq<Complex>, refs: seq<Complex>, threshold: real): (r: Result<real>)
  {
    if preds == [] then Ok(0.0)
    else
      var m :- BestOverlap(preds[0], refs);
      var rest :- MatchedScoreSum(preds[1..], refs, threshold);
      Ok((if m > threshold then m else 0.0) + rest)
  }

  /**
   * `predictive_matching_ratio(reference, predicted, threshold)`: the mean
   * over the predictions of the best overlap with the reference, counting
   * only those above the threshold. It fails with ValueError on an empty
   * reference and with ZeroDivisionError on an empty prediction list.
   */
  function PredictiveMatchingRatio(reference: seq<Complex>, predicted: seq<Complex>, threshold: real): (r: Result<real>)
    ensures |predicted| == 0 ==> r == Err(ZeroDivisionError)
    ensures |predicted| > 0 && |reference| == 0 ==> r == Err(ValueError)
  {
    var total :- MatchedScoreSum(predicted, reference, threshold);
    if |predicted| == 0 then Err(ZeroDivisionError) else Ok(total / |predicted| as real)
  }

  /**
   * A successful best score needs a non-empty complex and a non-empty
   * reference without empty complexes; it lies in the unit interval and
   * exceeds the threshold exactly when some reference complex matches.
   */
  lemma BestOverlapSpec(c: Complex, refs: seq<Complex>, threshold: real)
    requires BestOverlap(c, refs).Ok?
    ensures |c| > 0 && NoEmpty(refs) && |refs| > 0
    ensures 0.0 <= BestOverlap(c, refs).value <= 1.0
    ensures BestOverlap(c, refs).value > threshold <==> Matched(c, refs, threshold)
  {
    var os := Overlaps(c, refs).value;
    var m := SeqMax(os);
    var j :| 0 <= j < |os| && os[j] == m;
    OverlapInUnit(c, refs[j]);
    if Matched(c, refs, threshold) {
      var k :| 0 <= k < |refs| && OverlapValue(refs[k], c) > threshold;
      OverlapSymmetric(refs[k], c);
      assert os[k] <= m;
    }
    OverlapSymmetric(c, refs[j]);
  }

  /**
   * A successful sum over a non-empty prediction list needs non-empty
   * complexes and a non-empty reference, and it is at most the number of
   * matched predictions: each counted best score is a score above the
   * threshold, and no score exceeds 1.
   */
  lemma {:induction false} MatchedScoreSumBound(preds: seq<Complex>, refs: seq<Complex>, threshold: real)
    requires MatchedScoreSum(preds, refs, threshold).Ok? && |preds| > 0
    ensures NoEmpty(preds) && NoEmpty(refs) && |refs| > 0
    ensures 0.0 <= MatchedScoreSum(preds, refs, threshold).value <= MatchedCount(preds, refs, threshold) as real
  {
    BestOverlapSpec(preds[0], refs, threshold);
    if |preds| > 1 {
      MatchedScoreSumBound(preds[1..], refs, threshold);
      assert NoEmpty(preds) by {
        assert forall k :: 1 <= k < |preds| ==> preds[k] == preds[1..][k - 1];
      }
    } else {
      assert preds[1..] == [];
    }
  }

  /**
   * Whenever the predictive matching ratio is defined, precision is too,
   * and the ratio lies between 0 and the precision.
   */
  lemma RatioBelowPrecision(reference: seq<Complex>, predicted: seq<Complex>, threshold: real)
    requires PredictiveMatchingRatio(reference, predicted, threshold).Ok?
    ensures Precision(reference, predicted, threshold).Ok?
    ensures 0.0 <= PredictiveMatchingRatio(reference, predicted, threshold).value
      <= Precision(reference, predicted, threshold).value
  {
    MatchedScoreSumBound(predicted, reference, threshold);
    PrecisionSpec(reference, predicted, threshold);
    var n := |predicted| as real;
    var total := MatchedScoreSum(predicted, reference, threshold).value;
    var count := MatchedCount(predicted, reference, threshold) as real;
    assert PredictiveMatchingRatio(reference, predicted, threshold).value == total / n;
    assert Precision(reference, predicted, threshold).value == count / n;
    DivNonNegative(total, n);
    DivMonotone(total, count, n);
  }

  lemma DivMonotone(a: real, b: real, n: real)
    requires a <= b && n > 0.0
    ensures a / n <= b / n
  {
    assert a / n * n == a && b / n * n == b;
  }
}

=== FILE: seqs.dfy ===
/** Sequence helpers standing in for Python list operations. */
module Seqs {

  /** No element occurs twice. */
  predicate NoDup<T(==,!new)>(s: seq<T>) {
    forall i, j :: 0 <= i < j < |s| ==> s[i] != s[j]
  }

  /** The elements of a list, as Python's `set(l)` / `frozenset(l)`. */
  function Elements<T(!new)>(s: seq<T>): set<T> {
    set x | x in s
  }

  /** `frozenset(l)` iterated in a fixed order: the first occurrence of every element. */
  function Dedup<T(==,!new)>(s: seq<T>): (r: seq<T>)
    ensures NoDup(r)
    ensures forall x :: x in r <==> x in s
    ensures |r| <= |s|
  {
    if |s| == 0 then []
    else
      var d := Dedup(s[..|s| - 1]);
      var x := s[|s| - 1];
      assert forall y :: y in s <==> y in s[..|s| - 1] || y == x by {
        assert s == s[..|s| - 1] + [x];
      }
      if x in d then d else d + [x]
  }

  /** `l.remove(x)`: drops the first occurrence of `x`, if there is one. */
  function RemoveFirst<T(==,!new)>(s: seq<T>, x: T): (r: seq<T>)
    ensures x in s ==> |r| == |s| - 1
    ensures x !in s ==> r == s
    ensures forall y :: y in r ==> y in s
    ensures forall y :: y != x ==> (y in r <==> y in s)
    ensures NoDup(s) ==> NoDup(r) && x !in r
  {
    if |s| == 0 then []
    else if s[0] == x then s[1..]
    else
      var t := RemoveFirst(s[1..], x);
      assert forall y :: y in s <==> y == s[0] || y in s[1..];
      assert NoDup(s) ==> s[0] !in s[1..] && NoDup(s[1..]);
      [s[0]] + t
  }

  /** Keeps the elements that belong to `keep`, in order. */
  function Keep<T(==,!new)>(s: seq<T>, keep: set<T>): (r: seq<T>)
    ensures forall y :: y in r <==> y in s && y in keep
    ensures |r| <= |s|
    ensures NoDup(s) ==> NoDup(r)
  {
    if |s| == 0 then []
    else
      var t := Keep(s[1..], keep);
      assert forall y :: y in s <==> y == s[0] || y in s[1..];
      if s[0] in keep then [s[0]] + t else t
  }

  /** Drops the elements that belong to `drop`, in order. */
  function Drop<T(==,!new)>(s: seq<T>, drop: set<T>): (r: seq<T>)
    ensures forall y :: y in r <==> y in s && y !in drop
    ensures |r| <= |s|
    ensures (forall y :: y in s ==> y !in drop) ==> r == s
    ensures NoDup(s) ==> NoDup(r)
  {
    if |s| == 0 then []
    else
      var t := Drop(s[1..], drop);
      assert forall y :: y in s <==> y == s[0] || y in s[1..];
      if s[0] in drop then t else [s[0]] + t
  }

  /** A duplicate-free list has as many elements as its set. */
  lemma {:induction false} CardNoDup<T(!new)>(s: seq<T>)
    requires NoDup(s)
    ensures |Elements(s)| == |s|
  {
    if |s| > 0 {
      var init := s[..|s| - 1];
      var x := s[|s| - 1];
      assert s == init + [x];
      assert NoDup(init);
      CardNoDup(init);
      assert x !in Elements(init);
      assert Elements(s) == Elements(init) + {x};
    }
  }

  /** A duplicate-free list is left unchanged by `Dedup`. */
  lemma {:induction false} DedupOfNoDup<T(!new)>(s: seq<T>)
    requires NoDup(s)
    ensures Dedup(s) == s
  {
    if |s| > 0 {
      var init := s[..|s| - 1];
      assert NoDup(init);
      DedupOfNoDup(init);
      assert s[|s| - 1] !in init;
      assert s == init + [s[|s| - 1]];
    }
  }

  /** A duplicate-free list of two elements is the two elements in some order. */
  lemma TwoElements<T(!new)>(s: seq<T>, p: T, q: T)
    requires NoDup(s) && Elements(s) == {p, q} && p != q
    ensures s == [p, q] || s == [q, p]
  {
    CardNoDup(s);
    assert |s| == 2;
    assert s[0] in Elements(s) && s[1] in Elements(s);
    assert p in Elements(s) && q in Elements(s);
  }

  /** A subset is no larger than its superset. */
  lemma SubsetCard<T>(a: set<T>, b: set<T>)
    requires a <= b
    ensures |a| <= |b|
  {
    assert b == a + (b - a);
  }
}

=== FILE: tolerance.dfy ===
/**
 * The tolerant comparison and the rounding the dependency engine of
 * `mdepstar/Mdepstar.py` applies to its threshold.
 */
module Tolerance {
  import opened Arith

  function Abs(x: real): real {
    if x < 0.0 then -x else x
  }

  /**
   * `math.isclose(x, y, rel_tol=10 ** -6)` with the default `abs_tol = 0`:
   * the relative tolerance the comparison is always called with is written
   * out as a literal so that the solver sees a linear constraint.
   */
  function IsClose(x: real, y: real): (r: bool)
    ensures x == y ==> r
    ensures r ==> (x == 0.0 <==> y == 0.0) && (x > 0.0 <==> y > 0.0)
    ensures r ==> Abs(x - y) <= 0.000001 * (Abs(x) + Abs(y))
  {
    Abs(x - y) <= 0.000001 * Max(Abs(x), Abs(y))
  }

  /**
   * `_is_greater_or_equal(x, y)`: above `y`, or below it by at most the
   * relative tolerance; between non-negative values, a plain comparison
   * against `y` scaled down by the tolerance.
   */
  function GreaterOrEqual(x: real, y: real): (r: bool)
    ensures x >= y ==> r
    ensures 0.0 <= x && 0.0 <= y ==> (r <==> x >= (1.0 - 0.000001) * y)
  {
    if x <= y then IsClose(x, y) else true
  }

  /**
   * Between non-negative values the comparison is a plain comparison
   * against `y` scaled down by the tolerance.
   */
  lemma GreaterOrEqualNonNegative(x: real, y: real)
    requires 0.0 <= x && 0.0 <= y
    ensures GreaterOrEqual(x, y) <==> x >= (1.0 - 0.000001) * y
  {
  }

  /** The comparison holds whenever `x >= y`, and for `x < y` exactly within the tolerance. */
  lemma GreaterOrEqualCases(x: real, y: real)
    ensures x >= y ==> GreaterOrEqual(x, y)
    ensures x < y ==> (GreaterOrEqual(x, y) <==> y - x <= 0.000001 * Max(Abs(x), Abs(y)))
  {
  }

  /** Passing twice a non-negative threshold implies passing the threshold itself. */
  lemma GreaterOrEqualDouble(x: real, t: real)
    requires 0.0 <= x && 0.0 <= t && GreaterOrEqual(x, 2.0 * t)
    ensures GreaterOrEqual(x, t)
  {
    GreaterOrEqualNonNegative(x, 2.0 * t);
    GreaterOrEqualNonNegative(x, t);
  }

  /** A value in the unit interval never reaches twice a threshold above one half, tolerance included. */
  lemma BelowDouble(x: real, t: real)
    requires 0.0 <= x <= 1.0 && (1.0 - 0.000001) * (2.0 * t) > 1.0
    ensures !GreaterOrEqual(x, 2.0 * t)
  {
    GreaterOrEqualNonNegative(x, 2.0 * t);
  }

  /** A larger value passes whenever a smaller non-negative one does. */
  lemma GreaterOrEqualMonotone(x: real, x': real, y: real)
    requires 0.0 <= x <= x' && 0.0 <= y && GreaterOrEqual(x, y)
    ensures GreaterOrEqual(x', y)
  {
    GreaterOrEqualNonNegative(x, y);
    GreaterOrEqualNonNegative(x', y);
  }

  /** The integer nearest to `y`, ties going to the even one (Python's rounding rule). */
  function RoundHalfEven(y: real): (n: int)
    ensures Abs(n as real - y) <= 0.5
    ensures n == y.Floor || n == y.Floor + 1
  {
    var k := y.Floor;
    var f := y - k as real;
    if f < 0.5 then k else if f > 0.5 then k + 1 else if k % 2 == 0 then k else k + 1
  }

  /** No integer is closer to `y` than `RoundHalfEven(y)`. */
  lemma RoundHalfEvenNearest(y: real, m: int)
    ensures Abs(RoundHalfEven(y) as real - y) <= Abs(m as real - y)
  {
    var k := y.Floor;
    assert k as real <= y < k as real + 1.0;
    if m <= k {
      assert m as real <= k as real;
    } else {
      assert m as real >= k as real + 1.0;
    }
  }

  /** `r` is a multiple of 1/1000. */
  predicate OnGrid(r: real) {
    (r * 1000.0).Floor as real == r * 1000.0
  }

  /**
   * `round(x, 3)` over the reals: the multiple of 1/1000 nearest to `x`,
   * ties going to the even multiple.
   */
  function Round3(x: real): (r: real)
    ensures Abs(r - x) <= 0.0005
    ensures OnGrid(r)
  {
    var n := RoundHalfEven(x * 1000.0);
    assert n as real / 1000.0 * 1000.0 == n as real;
    assert (n as real).Floor == n;
    assert n as real / 1000.0 - x == (n as real - x * 1000.0) / 1000.0;
    ScaledAbs(n as real - x * 1000.0, 0.5);
    n as real / 1000.0
  }

  /** No multiple of 1/1000 is closer to `x` than `Round3(x)`. */
  lemma Round3Nearest(x: real, m: int)
    ensures Abs(Round3(x) - x) <= Abs(m as real / 1000.0 - x)
  {
    var y := x * 1000.0;
    var n := RoundHalfEven(y);
    RoundHalfEvenNearest(y, m);
    assert Round3(x) - x == (n as real - y) / 1000.0;
    assert m as real / 1000.0 - x == (m as real - y) / 1000.0;
    ScaledAbs(n as real - y, m as real - y);
  }

  lemma ScaledAbs(a: real, b: real)
    requires Abs(a) <= Abs(b)
    ensures Abs(a / 1000.0) <= Abs(b / 1000.0)
  {
  }

  /** Rounding keeps 1 and keeps a value of [0, 1/2] within [0, 1/2], both ends being multiples of 1/1000. */
  lemma Round3Ends(x: real)
    ensures Round3(1.0) == 1.0
    ensures 0.0 <= x <= 0.5 ==> 0.0 <= Round3(x) <= 0.5
  {
    assert RoundHalfEven(1000.0) == 1000;
    if 0.0 <= x <= 0.5 {
      Round3Nearest(x, 0);
      Round3Nearest(x, 500);
      assert 0 as real / 1000.0 == 0.0 && 500 as real / 1000.0 == 0.5;
    }
  }

  /** Rounding a value that is already a multiple of 1/1000 leaves it alone. */
  lemma Round3Idempotent(x: real)
    ensures Round3(Round3(x)) == Round3(x)
  {
    var r := Round3(x);
    var n := (r * 1000.0).Floor;
    assert (r * 1000.0).Floor == n;
    assert r * 1000.0 - n as real == 0.0;
  }
}

=== FILE: wrappers.dfy ===
/** Failure-carrying results for the places where the Python code raises. */
module Wrappers {

  /** The Python exceptions the modelled code can raise. */
  datatype Error =
    | KeyError          // `set.remove` / `del d[k]` / `d[k]` on a missing key
    | ValueError        // `list.remove` of a missing element, `max` of an empty list
    | ZeroDivisionError // a division the code does not guard

  datatype Result<+T> = Ok(value: T) | Err(error: Error) {

    predicate IsFailure() {
      Err?
    }

    function PropagateFailure<U>(): Result<U>
      requires Err?
    {
      Err(error)
    }

    function Extract(): T
      requires Ok?
    {
      value
    }
  }

  /** Python's `None`-or-value argument. */
  datatype Option<+T> = None | Some(value: T)
}
